=== FILE: README.md ===
# Email rule engine of the spam filter, in Dafny

This project models the rule and pattern engine of the spam filter.
Two programs hold that engine:

- **The desktop agent** (`OutlookSecurityAgent` in
  `Archive/desktop-python/withOutlookRulesYAML.py`). It reads a YAML rules
  document and a YAML safe-senders document. It classifies mailbox messages
  in two passes over the rules, deleting the ones a delete rule matches. It
  also builds the domain regular expressions offered for new rules, and
  compares and exports rule sets in a canonical form.
- **The rule tester** (`scripts/email-rule-tester-mcp/server.js`). It
  validates rule and safe-sender documents. It tests a pattern against
  sample strings and simulates how a set of rules judges one email.

## How the model is organised

Some functions of the source are pure. Those become Dafny functions, and
lemmas state what they mean. Some functions work by loops that update
variables. Those become methods, each proved equal to a specification
function whose properties are proved as lemmas. The rule sort that runs in
place on the rules list works on an `array`. The retry helpers change a
mail item's state, so they are methods of a class `MailItem`.

What the model takes as given:

- **The two regular-expression engines.** Python's is an `Engine`: whether
  a pattern compiles, and whether `search` finds it in a text.
  JavaScript's is a `JsEngine`: whether `new RegExp` succeeds, its error
  message, and `test`.
- **Mailbox operations.** Whether a move or delete succeeds on the k-th
  try is a parameter.
- **YAML and JSON documents.** These are `JsonDoc.Json` values whose
  mappings keep their keys in order.

The modules:

- `Text`: stripping, lower-casing, splitting, and the string order Python
  sorts by.
- `Lists`: deduplication and sorting.
- `JsonDoc`: documents, key lookup, and stringification.
- `JsValues`: how the tester's JavaScript reads those documents.
- `RegexCheck`: the tester's pattern checks.
- `Validators`: the tester's document validators.
- `Simulate`: the tester's rule simulation.
- `Patterns`: pattern compilation and matching.
- `Headers`: header folding, the `From:` token, and URL stubs.
- `DomainRegex`: the domain regular-expression builders.
- `CsvEscape`: pattern escaping.
- `Compare`: rule-set comparison.
- `Export`: safe-sender and rule export.
- `ExportRules`: canonical rule conditions.
- `Rules`: the delete-last rule sort.
- `Classify`: one message's classification, as functions.
- `Passes`: the classification loops, as methods.
- `Retry`: the mailbox retry helpers.

### Behaviour of the source that the model keeps

These quirks of the code are part of the model, and several lemmas state
them outright:

- **First pass lower-cases exception senders.** The first pass lower-cases
  the exception `from` patterns before matching. The second pass does not.
- **Keywords are chosen differently per pass.** The first pass records the
  keyword of the last condition field that matched. The second pass
  records the first.
- **A match without delete does not stop the rule walk.** Both passes go
  on to the next rule. In the first pass a later rule's verdict overwrites
  the recorded match. In the second pass a match, once recorded, stays.
  `stop_processing` ends nothing: the first pass only logs it. In the
  first pass a delete attempt ends the walk whether or not the delete
  returned. In the second pass only a delete that returned ends it; after
  a failed delete the walk goes on to the next rule.
- **The rule sort runs only when there are messages.** It is the stable
  sort that puts delete rules last.
- **Safe-sender counting differs between passes.** A safe sender is moved
  to the inbox and then deleted. The second pass counts that delete; the
  first pass does not.
- **A leading continuation line leaves no header.**
  `combine_email_header_lines` fails on a header whose first line is a
  continuation line. The model gives `None`. The first pass catches the
  failure, counts the message as processed and judges it with the empty
  header `""`. The second pass skips it and does not count it.
- **Marking read clears `UnRead` before saving.** When the save fails,
  the next attempt finds the item read and returns, so the save is tried
  at most once.
- **A failed move can leave a copy behind.** Each move attempt copies the
  item and moves the copy. When the move of the copy fails, the copy stays
  in the item's folder.
- **A category is set before it is saved.** When every save fails, the
  item keeps the new category in memory.
- **Zero retries means no attempt.** A retry helper called with
  `max_retries = 0` returns without trying.
- **The delete helper ignores the caller's retry limit for two steps.**
  `delete_email_with_retry` marks the item read and clears its flag with
  the default number of retries, whatever it was given.
- **Only the string `'False'` disables a rule in the tester.** Any other
  value of `enabled` leaves the rule enabled.
- **The tester's AND counts patterns, not conditions.** It compares the
  number of matched patterns with the number of condition keys other than
  `type`. Two matching patterns for the same field therefore fail a
  one-field AND.
- **The domain starts at the first `@`.**
  `build_domain_regex_from_address` takes the domain after the first `@`
  in the address (`split('@', 1)`).

## Model

| member | source | states |
|---|---|---|
| Text.StripIsTrimmedSlice | Archive/desktop-python/withOutlookRulesYAML.py:1264-1271 | `strip()` gives a contiguous slice of its input that neither starts nor ends with white space |
| Text.StripIdempotent | Archive/desktop-python/withOutlookRulesYAML.py:1264-1271 | stripping twice is stripping once |
| Text.Lower | Archive/desktop-python/withOutlookRulesYAML.py:996 | `lower()` keeps the length and maps each character on its own (ASCII letters; see Left out) |
| Text.LowerIsLowered | Archive/desktop-python/withOutlookRulesYAML.py:996 | a lower-cased string has no upper-case letter |
| Text.LowerOfLowered | Archive/desktop-python/withOutlookRulesYAML.py:996 | lower-casing leaves a string without upper-case letters as it is |
| Text.CanonIdempotent | Archive/desktop-python/withOutlookRulesYAML.py:996-1000 | the canonical form of a safe-sender entry (stripped, lower-cased) is a fixed point and is lower-case |
| Text.SplitJoin | Archive/desktop-python/withOutlookRulesYAML.py:337-338 | splitting a dot-joined sequence of dot-free labels gives the labels back |
| Text.RemoveNonAscii | Archive/desktop-python/withOutlookRulesYAML.py:1277 | the sanitised header holds only ASCII, is no longer than the input, and leaves an ASCII input unchanged |
| Text.RemoveNonAsciiAppend | Archive/desktop-python/withOutlookRulesYAML.py:1277 | sanitising works character by character: sanitising a concatenation concatenates the sanitised parts |
| Text.RemoveNonAsciiChar | Archive/desktop-python/withOutlookRulesYAML.py:1277 | one character is kept exactly when it is ASCII, and dropped otherwise |
| Text.SplitLines | Archive/desktop-python/withOutlookRulesYAML.py:1264 | `splitlines()` yields lines without line breaks, and no lines exactly for the empty text |
| Text.SplitLinesOneLine | Archive/desktop-python/withOutlookRulesYAML.py:1264 | a non-empty text without line breaks is one line |
| Text.SplitLinesFirstLine | Archive/desktop-python/withOutlookRulesYAML.py:1264 | a text is cut at its first line break: the part before it is the first line and the rest is split on its own |
| Text.SplitLinesCrLf | Archive/desktop-python/withOutlookRulesYAML.py:1264 | `\r\n` ends a line as one break, not two |
| Text.LessTransitive | Archive/desktop-python/withOutlookRulesYAML.py:996-1000 | Python's string order is transitive |
| Text.LessTotal | Archive/desktop-python/withOutlookRulesYAML.py:996-1000 | Python's string order is total on distinct strings |
| Text.LessAsymmetric | Archive/desktop-python/withOutlookRulesYAML.py:996-1000 | Python's string order is asymmetric |
| Lists.DedupeProps | Archive/desktop-python/withOutlookRulesYAML.py:996-1000 | deduplication leaves no repeats and keeps exactly the members of the input |
| Lists.DedupeOfNoDup | Archive/desktop-python/withOutlookRulesYAML.py:996-1000 | a list without repeats is left unchanged by deduplication |
| Lists.SortAscending | Archive/desktop-python/withOutlookRulesYAML.py:996-1000 | `sorted` gives an ascending permutation of its input |
| Lists.SortOfStrictlyAscending | Archive/desktop-python/withOutlookRulesYAML.py:996-1000 | sorting a strictly ascending list leaves it unchanged |
| Lists.SortDedupe | Archive/desktop-python/withOutlookRulesYAML.py:996-1000 | `sorted(set(xs))` is strictly ascending and has exactly the members of `xs` |
| Lists.SortDedupeIdempotent | Archive/desktop-python/withOutlookRulesYAML.py:996-1000 | `sorted(set(...))` applied twice equals once |
| JsonDoc.Lookup | Archive/desktop-python/withOutlookRulesYAML.py:1091-1103 | a key lookup finds nothing exactly when the key is absent, and otherwise returns a value stored under that key |
| JsonDoc.Put | Archive/desktop-python/withOutlookRulesYAML.py:1091-1103 | assigning a key keeps the key order and appends a new key at the end |
| JsonDoc.PutLookup | Archive/desktop-python/withOutlookRulesYAML.py:1091-1103 | after assigning `k`, looking up `k` gives the new value and every other key is unchanged |
| JsonDoc.PutSame | Archive/desktop-python/withOutlookRulesYAML.py:1091-1103 | assigning a key the value it already has changes nothing |
| JsonDoc.StringifyMakesStringTree | Archive/desktop-python/withOutlookRulesYAML.py:1114-1122 | `ensure_string_values` leaves only strings at the leaves of a document |
| JsonDoc.StringifyStringTree | Archive/desktop-python/withOutlookRulesYAML.py:1114-1122 | `ensure_string_values` leaves a document that holds only strings unchanged |
| JsonDoc.StringifyLookup | Archive/desktop-python/withOutlookRulesYAML.py:1114-1122 | stringifying a mapping keeps its keys and stringifies the value under each |
| JsValues.Prop | scripts/email-rule-tester-mcp/server.js:183-190 | reading a property throws exactly on `null`, and on a mapping gives the stored value or `undefined` |
| JsValues.Elements | scripts/email-rule-tester-mcp/server.js:187 | `for ... of` visits a list's items and throws exactly on values that are neither lists nor strings |
| JsValues.LengthOrZero | scripts/email-rule-tester-mcp/server.js:219 | `x?.length \|\| 0` is a list's length, and 0 for a missing, null, boolean or number value |
| RegexCheck.ValidateMeaning | scripts/email-rule-tester-mcp/server.js:117-140 | a pattern is invalid, with the engine's message, exactly when `new RegExp` throws; otherwise it gets one warning per heuristic that fires and no other warnings |
| RegexCheck.ValidateRegexPattern | scripts/email-rule-tester-mcp/server.js:117-140 | the heuristic loop produces the validation whose meaning `ValidateMeaning` states |
| RegexCheck.NestedPlusFlagged | scripts/email-rule-tester-mcp/server.js:122-127 | a valid pattern containing `(.+)*` is flagged with the nested-quantifier warning |
| RegexCheck.TestRegexPattern | scripts/email-rule-tester-mcp/server.js:272-312 | an invalid pattern gives the error reply with the engine's message; otherwise every string is reported, the total is the number of strings, and the warnings are the validator's |
| RegexCheck.MatchCountMeaning | scripts/email-rule-tester-mcp/server.js:306-307 | the match count equals the total exactly when every string matches, and is 0 exactly when none does |
| RegexCheck.TestRegexPatternAppend | scripts/email-rule-tester-mcp/server.js:288-307 | one more test string raises the match count by one exactly when the pattern matches it |
| Validators.RulesYaml | scripts/email-rule-tester-mcp/server.js:175-224 | a reply is valid exactly when it has no errors; it reports a missing version, or missing rules, exactly when that field is falsy |
| Validators.CheckErrorsCount | scripts/email-rule-tester-mcp/server.js:196-204 | a field's pattern errors are one per pattern the engine rejects, each tagged with the rule's index |
| Validators.RuleReportCount | scripts/email-rule-tester-mcp/server.js:187-209 | a rule gets a missing-name error exactly when its name is falsy, a missing-conditions error exactly when its conditions are falsy, and the counted number of errors |
| Validators.RulesReportsCount | scripts/email-rule-tester-mcp/server.js:187-209 | a rule list whose loop finishes has no `null` rule, and its errors are the sum over rules |
| Validators.RulesReportsIndexed | scripts/email-rule-tester-mcp/server.js:187-209 | the rule loop never reports a document-level error |
| Validators.RulesYamlCount | scripts/email-rule-tester-mcp/server.js:183-219 | the reply's error count is the version error plus the per-rule errors, and `ruleCount` is the number of rules |
| Validators.FieldChecksThrown | scripts/email-rule-tester-mcp/server.js:193-206 | once reading a condition field throws, the handler's reply is that error whatever fields follow |
| Validators.RulesReportsThrown | scripts/email-rule-tester-mcp/server.js:187-209 | once a rule throws, the handler's reply is that error whatever rules follow |
| Validators.ValidateFieldPatterns | scripts/email-rule-tester-mcp/server.js:196-204 | the pattern loop yields the errors and warnings of the field's checks |
| Validators.ValidateConditionFields | scripts/email-rule-tester-mcp/server.js:193-206 | the field loop throws exactly when a field read throws, and otherwise collects every field's checks |
| Validators.ValidateRule | scripts/email-rule-tester-mcp/server.js:187-209 | one iteration of the rule loop produces that rule's report |
| Validators.ValidateRuleList | scripts/email-rule-tester-mcp/server.js:187-209 | the rule loop produces the concatenated reports of all rules |
| Validators.ValidateRulesYaml | scripts/email-rule-tester-mcp/server.js:175-224 | the handler produces the reply whose properties `RulesYaml` states |
| Validators.SafeDuplicates | scripts/email-rule-tester-mcp/server.js:238-244 | entry `i` gets a duplicate warning exactly when an equal primitive value occurs earlier in the list |
| Validators.SafeInvalid | scripts/email-rule-tester-mcp/server.js:247-253 | entry `i` gets an invalid-pattern error, with the engine's message, exactly when its string form does not compile |
| Validators.SafeSendersReply | scripts/email-rule-tester-mcp/server.js:226-270 | the reply throws exactly on a `null` document; it is valid exactly when it has no errors; a falsy list reports only the missing list, and a truthy non-list reports only that it is not an array |
| Validators.SafeSendersValid | scripts/email-rule-tester-mcp/server.js:238-265 | a safe-sender list is valid exactly when every entry compiles |
| Validators.CheckSafeSenders | scripts/email-rule-tester-mcp/server.js:238-253 | the loop with its seen-set produces the errors and warnings that `SafeDuplicates` and `SafeInvalid` describe |
| Validators.ValidateSafeSenders | scripts/email-rule-tester-mcp/server.js:226-270 | the handler produces the reply whose properties `SafeSendersReply` states |
| Simulate.SafeList | scripts/email-rule-tester-mcp/server.js:319-324 | without a safe-sender document the safe list is empty, and a failure to read it is a `TypeError` |
| Simulate.SafeHitMeaning | scripts/email-rule-tester-mcp/server.js:329-346 | the safe check reports a hit exactly when some pattern matches the sender with none before it throwing, and no hit exactly when every pattern compiles and misses |
| Simulate.FieldMatches | scripts/email-rule-tester-mcp/server.js:360-377 | a field's matches are only its own patterns that match the text, and the loop completes exactly when every pattern compiles |
| Simulate.FieldMatchesCount | scripts/email-rule-tester-mcp/server.js:360-377 | one matched condition is recorded per matching pattern |
| Simulate.FieldMatchesThrown | scripts/email-rule-tester-mcp/server.js:360-377 | once a pattern throws, the rest of the field's patterns do not change the error |
| Simulate.RuleVerdict | scripts/email-rule-tester-mcp/server.js:349-399 | a `null` rule throws a `TypeError` |
| Simulate.FirstMatchWins | scripts/email-rule-tester-mcp/server.js:349-399 | the first rule that matches, after rules that all did not, is the simulation's answer with its matched conditions |
| Simulate.NoMatchMeaning | scripts/email-rule-tester-mcp/server.js:402-412 | the simulation answers no match exactly when every rule evaluates without error to no match |
| Simulate.SafeSenderIgnoresRules | scripts/email-rule-tester-mcp/server.js:329-346 | a safe sender gets the safe-sender answer whatever the rules are |
| Simulate.VerdictByConditions | scripts/email-rule-tester-mcp/server.js:350-382 | two enabled rules with the same conditions get the same verdict |
| Simulate.EnabledOnlyByString | scripts/email-rule-tester-mcp/server.js:350 | any `enabled` value other than the string `'False'` leaves the rule judged as enabled |
| Simulate.DisabledByFalseString | scripts/email-rule-tester-mcp/server.js:350 | a rule whose `enabled` is the string `'False'` never matches |
| Simulate.OrMeaning | scripts/email-rule-tester-mcp/server.js:356-382 | under OR, or with no type, a rule matches exactly when at least one condition pattern matched |
| Simulate.AndMeaning | scripts/email-rule-tester-mcp/server.js:356-382 | under any truthy type other than OR, a rule that evaluates matches exactly when its count of matched patterns equals its number of condition keys other than `type` |
| Simulate.AndCountsPatterns | scripts/email-rule-tester-mcp/server.js:380-382 | under AND, two matching `from` patterns do not satisfy a one-field rule, because patterns are counted against condition keys |
| Simulate.BothPatternsRecorded | scripts/email-rule-tester-mcp/server.js:360-366 | both matching patterns of one field are recorded as matched conditions |
| Simulate.CheckSafeSenders | scripts/email-rule-tester-mcp/server.js:329-346 | the safe-sender loop produces the answer `SafeHitMeaning` describes |
| Simulate.MatchField | scripts/email-rule-tester-mcp/server.js:360-377 | the pattern loop of one field produces the matches `FieldMatches` describes |
| Simulate.MatchConditionField | scripts/email-rule-tester-mcp/server.js:360-377 | reading a condition field and looping over its patterns gives that field's matches or its error |
| Simulate.EvaluateRule | scripts/email-rule-tester-mcp/server.js:349-399 | one iteration of the rule loop produces the rule's verdict |
| Simulate.SimulateRules | scripts/email-rule-tester-mcp/server.js:314-413 | the handler produces the answer the lemmas above characterise |
| Patterns.Compilable | Archive/desktop-python/withOutlookRulesYAML.py:2217-2225 | the compiled list holds exactly the patterns that compile, in order |
| Patterns.CompilePatternList | Archive/desktop-python/withOutlookRulesYAML.py:2217-2225 | the compile loop keeps exactly the patterns that compile and skips the others |
| Patterns.CompilableAppend | Archive/desktop-python/withOutlookRulesYAML.py:2217-2225 | compiling a concatenation of lists compiles each list and concatenates the results, so input order is kept |
| Patterns.CompilableOne | Archive/desktop-python/withOutlookRulesYAML.py:2217-2225 | one pattern is kept exactly when it compiles |
| Patterns.CompilableCons | Archive/desktop-python/withOutlookRulesYAML.py:2217-2225 | the first pattern comes first in the compiled list when it compiles, followed by the compiled rest |
| Patterns.FirstCompilableMatch | Archive/desktop-python/withOutlookRulesYAML.py:2217-2232 | matching against the compiled list returns the first pattern, in input order, that compiles and matches, and none when no pattern does |
| Patterns.AnyRegexMatch | Archive/desktop-python/withOutlookRulesYAML.py:2227-2232 | no match is reported exactly when no pattern matches; otherwise the first matching pattern is returned |
| Patterns.NonEmpty | Archive/desktop-python/withOutlookRulesYAML.py:2234-2253 | the candidates are the non-empty ones of the header token and the sender |
| Patterns.RegexMatchHeaderAny | Archive/desktop-python/withOutlookRulesYAML.py:2234-2253 | an empty pattern list never matches; a match is reported exactly when some candidate is matched by some pattern |
| Patterns.FirstTokenMatch | Archive/desktop-python/withOutlookRulesYAML.py:2234-2253 | trying candidates in order reports the match of a candidate that is matched, and none exactly when none is |
| Patterns.HeaderMatchSeesOnlyTokens | Archive/desktop-python/withOutlookRulesYAML.py:2234-2253 | two headers with the same `From:` token match the same way |
| Patterns.TwoTokenOrder | Archive/desktop-python/withOutlookRulesYAML.py:2234-2253 | the header token is tried before the sender, and an empty candidate is skipped |
| Patterns.HeaderMatchOrder | Archive/desktop-python/withOutlookRulesYAML.py:2234-2253 | the header match is the header token's match if there is one, and otherwise the sender's |
| Headers.FoldContinuationsShape | Archive/desktop-python/withOutlookRulesYAML.py:1264-1271 | folding fails exactly when the first line is a continuation, and otherwise gives one field per non-continuation line |
| Headers.FoldWithoutContinuations | Archive/desktop-python/withOutlookRulesYAML.py:1264-1271 | without continuation lines, folding only strips each line |
| Headers.FoldPrefixNone | Archive/desktop-python/withOutlookRulesYAML.py:1264-1271 | once folding a prefix of the lines fails, folding all of them fails |
| Headers.CombinedHeaderShape | Archive/desktop-python/withOutlookRulesYAML.py:1253-1282 | the combined header is missing exactly when it starts with a continuation line, and is otherwise lower-case ASCII |
| Headers.CombineHeaderLines | Archive/desktop-python/withOutlookRulesYAML.py:1253-1282 | the folding loop produces the combined header `CombinedHeaderShape` describes |
| Headers.AtToken | Archive/desktop-python/withOutlookRulesYAML.py:1309-1316 | the token is empty exactly when the line has no `@` followed by a token character; otherwise it is the leftmost such `@` with its longest token run |
| Headers.FirstFromLine | Archive/desktop-python/withOutlookRulesYAML.py:1302-1305 | the chosen line is one starting with `from:` in any case, and there is none exactly when no line does |
| Headers.HeaderFrom | Archive/desktop-python/withOutlookRulesYAML.py:1284-1316 | a non-empty result is `@` followed by token characters |
| Headers.HeaderFromInFromLine | Archive/desktop-python/withOutlookRulesYAML.py:1284-1316 | the result is empty when there is no `From:` line, and is otherwise the `@` token of the first `From:` line |
| Headers.FindStubs | Archive/desktop-python/withOutlookRulesYAML.py:1378-1380 | every stub found is a whole match of the stub pattern (`IsStub`): `.` or `/`, a word run, a dot, a word run |
| Headers.StubMatchLenMeaning | Archive/desktop-python/withOutlookRulesYAML.py:1378-1380 | the match length at a position, when not 0, is a match of the stub pattern there, and any match there has that length; so it is 0 exactly when no match starts there |
| Headers.StubMatchLenSound | Archive/desktop-python/withOutlookRulesYAML.py:1378-1380 | a non-zero match length gives a match of the stub pattern |
| Headers.StubMatchLenUnique | Archive/desktop-python/withOutlookRulesYAML.py:1378-1380 | a match of the stub pattern at a position has the computed match length |
| Headers.StubRunIs | Archive/desktop-python/withOutlookRulesYAML.py:1378 | a run of word characters ends at the first character that is not one |
| Headers.StubPrefix | Archive/desktop-python/withOutlookRulesYAML.py:1378-1380 | the text of a match is itself a whole stub |
| Headers.FindStubsStep | Archive/desktop-python/withOutlookRulesYAML.py:1379-1380 | `findall` moves one character on where no match starts, and otherwise reports the match and resumes after it |
| Headers.AddLineStubs | Archive/desktop-python/withOutlookRulesYAML.py:1370-1393 | the per-line loop keeps the stub list free of repeats in first-seen order, with the seen-set equal to its members |
| Headers.UniqueUrlStubs | Archive/desktop-python/withOutlookRulesYAML.py:1370-1393 | the result has no repeats and holds exactly the stubs of the body |
| CsvEscape.DoubleBackslashes | Archive/desktop-python/withOutlookRulesYAML.py:539-547 | replacing each backslash by two doubles every backslash |
| CsvEscape.EscapeQuotes | Archive/desktop-python/withOutlookRulesYAML.py:539-547 | escaping quotes after doubling backslashes gives the per-character escape |
| CsvEscape.UnescapeQuotes | Archive/desktop-python/withOutlookRulesYAML.py:549-553 | unescaping quotes undoes the quote step of the escape |
| CsvEscape.UndoubleBackslashes | Archive/desktop-python/withOutlookRulesYAML.py:549-553 | halving backslash pairs undoes the doubling |
| CsvEscape.UnescapeEscape | Archive/desktop-python/withOutlookRulesYAML.py:539-553 | `_unescape_pattern(_escape_pattern(v)) == v` for every string |
| DomainRegex.ReadEscaped | Archive/desktop-python/withOutlookRulesYAML.py:327-366 | reading back a `re.escape`d string gives the string |
| DomainRegex.EscapedSpecialsArePrefixed | Archive/desktop-python/withOutlookRulesYAML.py:327-366 | every regex special character in the escaped text is preceded by a backslash |
| DomainRegex.NonEmptyParts | Archive/desktop-python/withOutlookRulesYAML.py:337-338 | the kept labels are exactly the non-empty parts |
| DomainRegex.Labels | Archive/desktop-python/withOutlookRulesYAML.py:337-338 | every label is non-empty and holds no dot |
| DomainRegex.ScanAnchor | Archive/desktop-python/withOutlookRulesYAML.py:356-363 | the scan stops at the rightmost label that qualifies as an anchor, or finds none |
| DomainRegex.AnchorIsRightmostQualifying | Archive/desktop-python/withOutlookRulesYAML.py:341-363 | the anchor is the rightmost qualifying label before the last one, or the second-to-last label when none qualifies |
| DomainRegex.AnchorExampleDeep | Archive/desktop-python/pytest/test_domain_regex_helper.py:15 | `@a.b.c.ygllc.d.e.f` anchors on `ygllc` |
| DomainRegex.AnchorExampleShallow | Archive/desktop-python/pytest/test_domain_regex_helper.py:16 | `user@x.y.z.acme.q.r` anchors on `acme` |
| DomainRegex.AnchorExampleSubdomains | Archive/desktop-python/pytest/test_domain_regex_helper.py:17-18 | `sub.sub2.widgets.com` and `widgets.com` anchor on `widgets` |
| DomainRegex.BuildDomainRegex | Archive/desktop-python/withOutlookRulesYAML.py:311-366 | an address without labels is returned as it is; otherwise the result has the subdomain prefix and the TLD suffix |
| DomainRegex.BuiltRegexAnchorsOn | Archive/desktop-python/withOutlookRulesYAML.py:311-366 | the escaped middle of the built regex reads back as the anchor label |
| DomainRegex.BaseLabelCount | Archive/desktop-python/withOutlookRulesYAML.py:396-405 | the registrable base has three labels for a multi-part suffix when there are enough labels, and two otherwise |
| DomainRegex.BuildSenderDomainSafeRegex | Archive/desktop-python/withOutlookRulesYAML.py:368-409 | the result is empty exactly when there is no domain; otherwise it is the anchored prefix, the escaped registrable base and `$` |
| DomainRegex.RegistrableBaseLabels | Archive/desktop-python/withOutlookRulesYAML.py:396-405 | the registrable base is the last two or three labels of the domain |
| Compare.DeepCompareDicts | Archive/desktop-python/withOutlookRulesYAML.py:555-609 | the comparison loops produce the differences of the two mappings |
| Compare.DeepCompareLists | Archive/desktop-python/withOutlookRulesYAML.py:611-659 | the element loop and the extras loop produce the differences of the two lists |
| Compare.DeepCompareValue | Archive/desktop-python/withOutlookRulesYAML.py:569-598 | one value pair is compared as mappings, lists, or by equality |
| Compare.CompareElements | Archive/desktop-python/withOutlookRulesYAML.py:624-642 | the `zip` loop produces the differences of the paired elements |
| Compare.CompareExtras | Archive/desktop-python/withOutlookRulesYAML.py:645-657 | the extras loop reports each element beyond the shorter list |
| Compare.DiffValueEmpty | Archive/desktop-python/withOutlookRulesYAML.py:555-659 | two values have no differences exactly when Python's `==` holds |
| Compare.DiffDictsEmpty | Archive/desktop-python/withOutlookRulesYAML.py:555-609 | two mappings have no differences exactly when they are equal |
| Compare.DiffListsEmpty | Archive/desktop-python/withOutlookRulesYAML.py:611-659 | two lists have no differences exactly when they are equal |
| Compare.LeftKeysEmpty | Archive/desktop-python/withOutlookRulesYAML.py:569-598 | the first loop reports nothing exactly when every key of the first mapping agrees with the second |
| Compare.RightKeysEmpty | Archive/desktop-python/withOutlookRulesYAML.py:601-607 | the second loop reports nothing exactly when every key of the second mapping is in the first |
| Compare.FieldDiffEmpty | Archive/desktop-python/withOutlookRulesYAML.py:569-598 | one key reports nothing exactly when it agrees with the other mapping |
| Compare.ZipEmpty | Archive/desktop-python/withOutlookRulesYAML.py:624-642 | the paired elements report nothing exactly when each pair is equal |
| Compare.PyEqReflexive | Archive/desktop-python/withOutlookRulesYAML.py:555-659 | a well-formed value equals itself |
| Compare.PyEqSymmetric | Archive/desktop-python/withOutlookRulesYAML.py:555-659 | equality of well-formed values is symmetric |
| Compare.DiffSelfEmpty | Archive/desktop-python/withOutlookRulesYAML.py:555-609 | a mapping compared with itself has no differences |
| Compare.NameIndexMeaning | Archive/desktop-python/withOutlookRulesYAML.py:683-702 | indexing by name fails exactly when some name is unhashable; otherwise every named rule is indexed, each entry is a rule with that name, and among rules with the same name the last one is kept |
| Compare.NameIndexLastWins | Archive/desktop-python/withOutlookRulesYAML.py:683-702 | a named rule that no later rule shares its name key with is the entry for that key |
| Compare.NameIndexFails | Archive/desktop-python/withOutlookRulesYAML.py:683-702 | once indexing a prefix fails, indexing the whole list fails |
| Compare.IndexRules | Archive/desktop-python/withOutlookRulesYAML.py:683-702 | the indexing loop builds the index `NameIndexMeaning` describes |
| Compare.OnlyIn | Archive/desktop-python/withOutlookRulesYAML.py:706-707 | the rules only in one set are exactly the names absent from the other, with their rules |
| Compare.ModifiedRules | Archive/desktop-python/withOutlookRulesYAML.py:710-720 | the modified names are exactly the shared names whose rules differ |
| Compare.CollectModified | Archive/desktop-python/withOutlookRulesYAML.py:710-720 | the loop over shared names collects the modified rules |
| Compare.CompareRules | Archive/desktop-python/withOutlookRulesYAML.py:661-726 | the method computes the comparison whose properties the lemmas below state |
| Compare.ModifiedMeansUnequal | Archive/desktop-python/withOutlookRulesYAML.py:710-720 | a name is modified exactly when both sets have it with unequal rules; both rules and non-empty differences are recorded |
| Compare.CompareSwapped | Archive/desktop-python/withOutlookRulesYAML.py:661-726 | swapping the rule sets swaps the only-in lists and keeps the modified names |
| Compare.DiffDictsSwapped | Archive/desktop-python/withOutlookRulesYAML.py:555-609 | two mappings differ one way exactly when they differ the other way |
| Compare.CompareSelf | Archive/desktop-python/withOutlookRulesYAML.py:661-726 | a rule set compared with itself has no differences at all |
| Export.CanonicalListProps | Archive/desktop-python/withOutlookRulesYAML.py:996-1000 | the exported list is strictly ascending, and its members are exactly the canonical forms of the input entries |
| Export.CanonicalListFixed | Archive/desktop-python/withOutlookRulesYAML.py:996-1000 | a list already in canonical form is exported unchanged |
| Export.Items | Archive/desktop-python/withOutlookRulesYAML.py:972-1065 | a list is read as entries exactly when all its items are strings |
| Export.ExportSafeSendersContents | Archive/desktop-python/withOutlookRulesYAML.py:972-1065 | the export replaces only `safe_senders`, with the canonical list, and keeps every other key and the key order |
| Export.ExportSafeSendersIdempotent | Archive/desktop-python/withOutlookRulesYAML.py:972-1065 | exporting an exported document gives the same document |
| Export.WrittenListFixed | Archive/desktop-python/withOutlookRulesYAML.py:996-1000 | the written list reads back as itself and is canonical |
| Export.StampAll | Archive/desktop-python/withOutlookRulesYAML.py:1105-1111 | every rule is stamped with the same timestamp, in order |
| Export.StampedRule | Archive/desktop-python/withOutlookRulesYAML.py:1105-1111 | a stamped rule has `metadata.last_modified` set to the timestamp and every other field unchanged |
| Export.CanonRuleList | Archive/desktop-python/withOutlookRulesYAML.py:1129-1139 | the canonical rule list exists exactly when every rule can be canonicalised, and then holds each canonical rule in order |
| Export.ExportRulesToYaml | Archive/desktop-python/withOutlookRulesYAML.py:1068-1209 | the export method produces the document `ExportRulesShape` describes |
| Export.StampRules | Archive/desktop-python/withOutlookRulesYAML.py:1105-1111 | the stamping loop stamps every rule |
| Export.CanonRules | Archive/desktop-python/withOutlookRulesYAML.py:1129-1139 | the rule loop canonicalises every rule, failing when one fails |
| Export.CanonRuleConditions | Archive/desktop-python/withOutlookRulesYAML.py:1129-1139 | one rule's conditions are canonicalised |
| Export.CanonConditionsLoop | Archive/desktop-python/withOutlookRulesYAML.py:1129-1139 | the loop over condition types canonicalises each one in turn |
| Export.FailureStays | Archive/desktop-python/withOutlookRulesYAML.py:1129-1139 | once a condition type fails, the whole canonicalisation fails |
| ExportRules.CanonicalJList | Archive/desktop-python/withOutlookRulesYAML.py:1129-1139 | a canonical pattern list written as strings is canonical |
| ExportRules.CanonConditionStep | Archive/desktop-python/withOutlookRulesYAML.py:1129-1139 | canonicalising one type finishes that type, changes no other key, and keeps a string-only document string-only |
| ExportRules.CanonConditionsShape | Archive/desktop-python/withOutlookRulesYAML.py:1129-1139 | canonicalising conditions keeps mappings as mappings, leaves other values alone, and keeps a string-only document string-only |
| ExportRules.CanonConditionsDone | Archive/desktop-python/withOutlookRulesYAML.py:1129-1139 | after the loop, every condition type handled so far is canonical |
| ExportRules.CanonConditionFixed | Archive/desktop-python/withOutlookRulesYAML.py:1129-1139 | a type already canonical is left unchanged |
| ExportRules.CanonConditionsFixed | Archive/desktop-python/withOutlookRulesYAML.py:1129-1139 | conditions already canonical are left unchanged |
| ExportRules.CanonConditionsOutputFixed | Archive/desktop-python/withOutlookRulesYAML.py:1129-1139 | canonicalising conditions twice equals once |
| ExportRules.CanonRuleShape | Archive/desktop-python/withOutlookRulesYAML.py:1129-1139 | a rule with conditions gets its conditions replaced by their canonical form; any other value is left as it is |
| ExportRules.CanonRuleProps | Archive/desktop-python/withOutlookRulesYAML.py:1129-1139 | a canonical rule keeps every other field and has canonical conditions |
| ExportRules.CanonRuleStringTree | Archive/desktop-python/withOutlookRulesYAML.py:1127-1139 | canonicalising a string-only rule keeps it string-only |
| ExportRules.CanonRuleIdempotent | Archive/desktop-python/withOutlookRulesYAML.py:1129-1139 | canonicalising a rule twice equals once |
| ExportRules.StampFixed | Archive/desktop-python/withOutlookRulesYAML.py:1105-1111 | stamping a rule already stamped with the timestamp changes nothing |
| ExportRules.StringifyKeepsStamp | Archive/desktop-python/withOutlookRulesYAML.py:1105-1127 | stringifying keeps the timestamp stamp |
| ExportRules.ExportedRule | Archive/desktop-python/withOutlookRulesYAML.py:1105-1139 | an exported rule holds only strings, is stamped, keeps each other field stringified, has canonical conditions, and is a fixed point of canonicalisation |
| ExportRules.ExportedRuleFixed | Archive/desktop-python/withOutlookRulesYAML.py:1105-1139 | exporting an exported rule again with the same timestamp gives it back |
| ExportRules.RulesValueList | Archive/desktop-python/withOutlookRulesYAML.py:1105-1139 | the exported rules list has one exported rule per input rule, in order |
| ExportRules.RulesValueIdempotent | Archive/desktop-python/withOutlookRulesYAML.py:1105-1139 | exporting the exported rules list again gives the same list |
| ExportRules.ExportRulesShape | Archive/desktop-python/withOutlookRulesYAML.py:1068-1209 | the exported document keeps the full structure's keys and values except `rules`, which holds one exported rule per input rule |
| ExportRules.ExportRulesIdempotent | Archive/desktop-python/withOutlookRulesYAML.py:1068-1209 | exporting an exported document with the same timestamp gives the same document |
| Rules.KeepMultiset | Archive/desktop-python/withOutlookRulesYAML.py:2328 | the non-delete and delete rules together are the whole rule list |
| Rules.DeleteLastPermutation | Archive/desktop-python/withOutlookRulesYAML.py:2328 | the sort by `delete` is a permutation |
| Rules.DeleteLastOrdered | Archive/desktop-python/withOutlookRulesYAML.py:2328 | after the sort, no delete rule comes before a non-delete rule |
| Rules.DeleteLastStable | Archive/desktop-python/withOutlookRulesYAML.py:2328 | the sort keeps the order among non-delete rules and among delete rules |
| Rules.StableSortUnique | Archive/desktop-python/withOutlookRulesYAML.py:2328 | any ordered list that keeps both groups' orders is the sort's result |
| Rules.DeleteLastIdempotent | Archive/desktop-python/withOutlookRulesYAML.py:2759 | sorting sorted rules again changes nothing, so the second pass's sort keeps the first pass's order |
| Rules.OrderedIsGroups | Archive/desktop-python/withOutlookRulesYAML.py:2328 | an ordered list is its non-delete rules followed by its delete rules |
| Rules.SortRulesByDelete | Archive/desktop-python/withOutlookRulesYAML.py:2328 | the in-place sort leaves the array holding the stable delete-last order of its old contents |
| Classify.Hit | Archive/desktop-python/withOutlookRulesYAML.py:2378-2434 | a condition field reports no hit exactly when it is absent or none of its compiling patterns matches; a hit is a compiling pattern of that field that matches |
| Classify.HeaderHit | Archive/desktop-python/withOutlookRulesYAML.py:2454-2460 | a header field reports no hit exactly when it is absent or no candidate token is matched |
| Classify.HitIsFirst | Archive/desktop-python/withOutlookRulesYAML.py:2217-2232 | a field's hit is the first of its patterns, in list order, that compiles and matches |
| Classify.HeaderHitOrder | Archive/desktop-python/withOutlookRulesYAML.py:2234-2253 | a header field's hit is the `From:` token's first hit when the token is non-empty and hit, and otherwise the sender's, skipping an empty candidate |
| Classify.FirstSome | Archive/desktop-python/withOutlookRulesYAML.py:2802-2863 | the second pass's keyword is the first field that hit |
| Classify.LastSome | Archive/desktop-python/withOutlookRulesYAML.py:2372-2460 | the first pass's keyword is the last field that hit |
| Classify.FirstOfFour | Archive/desktop-python/withOutlookRulesYAML.py:2802-2863 | for the four condition fields, the keyword is from, else subject, else body, else header |
| Classify.LastOfFour | Archive/desktop-python/withOutlookRulesYAML.py:2372-2460 | for the four condition fields, the keyword is header, else body, else subject, else from |
| Classify.JudgeMeaning | Archive/desktop-python/withOutlookRulesYAML.py:2366-2537 | a rule without conditions or exceptions aborts the message; otherwise it matches exactly when a condition hits and no exception does, with the pass's keyword |
| Classify.KeywordIsConditionPattern | Archive/desktop-python/withOutlookRulesYAML.py:2372-2460 | a match's keyword is a compiling pattern of one of the rule's condition fields |
| Classify.PassesAgree | Archive/desktop-python/withOutlookRulesYAML.py:2466-2537 | when the exception senders are already lower-case, the two passes agree on whether a rule matches or aborts |
| Classify.FlagsIgnored | Archive/desktop-python/withOutlookRulesYAML.py:2366-2371 | a rule's verdict does not depend on its `enabled` or `stop_processing` flag |
| Classify.WalkRules | Archive/desktop-python/withOutlookRulesYAML.py:2366-2649 | the first pass makes at most one delete attempt per message, and a delete ends the walk |
| Classify.WalkStops | Archive/desktop-python/withOutlookRulesYAML.py:2634-2649 | once the walk stops, the rules after it do not matter |
| Classify.FirstPassDeleteEnds | Archive/desktop-python/withOutlookRulesYAML.py:2637-2648 | in the first pass, a matching delete rule makes one attempt and ends the walk |
| Classify.SecondPassDeleteEnds | Archive/desktop-python/withOutlookRulesYAML.py:2934-2941 | in the second pass, a matching delete rule ends the walk when the delete succeeds and moves on to the next rule when it fails |
| Classify.MatchWithoutDeleteContinues | Archive/desktop-python/withOutlookRulesYAML.py:2545-2649 | a match without delete records the match and goes on to the next rule |
| Classify.FirstPassLastRuleDecides | Archive/desktop-python/withOutlookRulesYAML.py:2545-2556 | when the first pass walks every rule, the record is the last rule's verdict |
| Classify.SecondPassSticky | Archive/desktop-python/withOutlookRulesYAML.py:2925-2929 | in the second pass a recorded match stays, and rules that all miss change nothing |
| Classify.SafeSenderShortCircuit | Archive/desktop-python/withOutlookRulesYAML.py:2354-2364 | a safe sender's outcome does not depend on the rules; it is deleted exactly when the move and the delete succeed, and in the first pass its record is left as it was and it does not add to the deleted count, though it adds to the processed count |
| Classify.ProcessedCount | Archive/desktop-python/withOutlookRulesYAML.py:2337 | the first pass counts every message as processed; the second pass skips a message without a header |
| Classify.DeletedByMatchedRule | Archive/desktop-python/withOutlookRulesYAML.py:2637-2648 | a message that is not a safe sender is deleted only by a matching delete rule of the list |
| Classify.WalkDeleted | Archive/desktop-python/withOutlookRulesYAML.py:2637-2648 | a deleting walk records the matching delete rule that deleted the message |
| Classify.OutcomesIndependent | Archive/desktop-python/withOutlookRulesYAML.py:2335-2337 | a message's outcome depends only on the message and what the mailbox does with it, not on its position or the other messages |
| Classify.FirstPassProcessesAll | Archive/desktop-python/withOutlookRulesYAML.py:2335-2337 | the first pass, walking the messages by position, counts every message as processed (the intended loop; see Findings) |
| Classify.SafeRemovedMeaning | Archive/desktop-python/withOutlookRulesYAML.py:2354-2362 | the first pass takes a message out of its list exactly when a safe-sender hit got it deleted |
| Classify.AsWrittenVisits | Archive/desktop-python/withOutlookRulesYAML.py:2335-2362 | the loop as written examines at most the messages from its position on, and only messages of the list |
| Classify.VisitsShift | Archive/desktop-python/withOutlookRulesYAML.py:2335-2362 | a message in front of the loop's position does not change what the loop examines from there on |
| Classify.SafeHitSkipsNext | Archive/desktop-python/withOutlookRulesYAML.py:2335-2362 | as written, the message after a removed safe sender is never examined, so fewer messages are examined than the list held |
| Classify.VisitsWithoutRemoval | Archive/desktop-python/withOutlookRulesYAML.py:2335-2362 | without a removal the loop as written examines every message in order |
| Passes.CheckField | Archive/desktop-python/withOutlookRulesYAML.py:2378-2434 | the field check returns the hit `Classify.Hit` describes |
| Passes.CheckHeaderField | Archive/desktop-python/withOutlookRulesYAML.py:2454-2460 | the header check returns the hit `Classify.HeaderHit` describes |
| Passes.CheckConditions | Archive/desktop-python/withOutlookRulesYAML.py:2372-2460 | the conditions are met exactly when a field hits, with the pass's keyword |
| Passes.CheckExceptions | Archive/desktop-python/withOutlookRulesYAML.py:2466-2537 | the rule still matches exactly when it matched and no exception hits |
| Passes.MatchRule | Archive/desktop-python/withOutlookRulesYAML.py:2366-2537 | one rule's check gives the verdict `Classify.JudgeMeaning` describes |
| Passes.RuleStep | Archive/desktop-python/withOutlookRulesYAML.py:2366-2649 | one iteration either ends the walk with its result or continues it with the updated state |
| Passes.EvaluateRules | Archive/desktop-python/withOutlookRulesYAML.py:2366-2649 | the rule loop produces the walk the `Classify` lemmas describe |
| Passes.ProcessMessage | Archive/desktop-python/withOutlookRulesYAML.py:2337-2686 | one message is classified as `Classify.SafeSenderShortCircuit` and `Classify.DeletedByMatchedRule` describe |
| Passes.JudgeMessage | Archive/desktop-python/withOutlookRulesYAML.py:2354-2649 | a message with a header is judged by the safe list and then the rules |
| Passes.ProcessAt | Archive/desktop-python/withOutlookRulesYAML.py:2335-2686 | the message at an index gets its own outcome |
| Passes.ClassifyAll | Archive/desktop-python/withOutlookRulesYAML.py:2335-2686 | the message loop records each message's classification and counts processed and deleted messages |
| Passes.RunPass | Archive/desktop-python/withOutlookRulesYAML.py:2314-2686 | a pass sorts the rules delete-last only when there are messages, compiles the safe senders, and classifies every message with the sorted rules (the intended loop; see Findings) |
| Retry.WithRetry | Archive/desktop-python/withOutlookRulesYAML.py:2095-2119 | the retry loop returns the outcome `RetriedMeaning` describes |
| Retry.RetriedMeaning | Archive/desktop-python/withOutlookRulesYAML.py:2095-2189 | a helper raises exactly when it has tries and all of them fail; otherwise it stops at the first success, and it never tries more than allowed |
| Retry.MoreRetriesSameSuccess | Archive/desktop-python/withOutlookRulesYAML.py:2095-2189 | allowing more tries does not change an operation that already succeeded |
| Retry.FirstSuccessAt | Archive/desktop-python/withOutlookRulesYAML.py:2095-2189 | the first success is the attempt that succeeds after failures only |
| Retry.MarkReadIsRetried | Archive/desktop-python/withOutlookRulesYAML.py:2121-2143 | marking read is the retry loop in which every attempt after the first succeeds: at most two attempts, and it raises only when one attempt was allowed and its save failed |
| Retry.Leftovers | Archive/desktop-python/withOutlookRulesYAML.py:2107-2112 | the copies failed moves leave behind number at most the attempts, and all are in the item's folder |
| Retry.LeftoversNone | Archive/desktop-python/withOutlookRulesYAML.py:2107-2112 | no copy is left behind exactly when no attempt made a copy it could not move |
| Retry.BothFirstSuccess | Archive/desktop-python/withOutlookRulesYAML.py:2107-2112 | a move's outcome is decided by the first attempt whose copy and move both return |
| Retry.MoveAttempts | Archive/desktop-python/withOutlookRulesYAML.py:2107-2118 | the move loop returns the retry outcome of "copy and move both return", and collects one leftover copy per attempt whose copy was made but not moved |
| Retry.MailItem.MarkReadWithRetry | Archive/desktop-python/withOutlookRulesYAML.py:2121-2143 | an unread item is read afterwards whenever an attempt was made, even when the save failed; the outcome is `MarkReadOutcome`; the item is left unsaved exactly when the one save failed; other state is unchanged |
| Retry.MailItem.ClearFlagWithRetry | Archive/desktop-python/withOutlookRulesYAML.py:2145-2166 | the flag is cleared exactly when a try returns; no save follows; other state is unchanged |
| Retry.MailItem.AssignCategoryWithRetry | Archive/desktop-python/withOutlookRulesYAML.py:2168-2189 | the category is set in memory by the first attempt, even when every save fails; the item stays unsaved exactly when the helper raises; other state is unchanged |
| Retry.MailItem.MoveWithRetry | Archive/desktop-python/withOutlookRulesYAML.py:2095-2119 | the item stays; a copy reaches the target exactly when a try returns, and every attempt whose copy was made but not moved leaves a copy in the item's folder |
| Retry.MailItem.DeleteWithRetry | Archive/desktop-python/withOutlookRulesYAML.py:2053-2093 | an unread item is marked read and an item with a `Flag` attribute unflagged, each with the default retries and errors swallowed; then the item is deleted exactly when a delete try returns |

## Left out

- Regular expressions are not modelled. Python's `re` and JavaScript's
  `RegExp` are the parameters `Engine` and `JsEngine`. Every statement is
  proved for every engine.
- YAML parsing and dumping, file reads and writes, backups, logging and
  console output are left out. The export functions return the document
  they would write. A parse failure is not modelled.
- The export timestamp is a parameter, not the clock.
- The Outlook mailbox is left out: folders, message retrieval by date, and
  the header fetch through `PropertyAccessor`. Messages are values holding
  a sender, a subject, a body and a raw header.
- Pass-one actions other than delete are left out: move to folder, assign
  category, mark read, and the report files. Only the delete decision and
  the counts are modelled.
- Retry sleeps and delays are not modelled. Retry success is a function of
  the attempt number.
- The interactive rule-update prompt and `get_safe_input` are left out.
- The legacy substring matching mode is left out. The model covers the
  regex mode, which the two passes use.
- Phishing indicators, `from_report`, `URL_report` and
  `output_rules_differences` are left out. They only print reports.
- `testRegexPerformance` and the `matchDetails` of the tester are left out.
  They only report timings and positions.
- JavaScript `TypeError` messages are one `TypeError` value.
- YAML duplicate keys are left out. Documents are mappings with distinct
  keys.
- Rules that are not mappings, or that lack `actions`, are left out of the
  sort. The sort raises on them before any message is judged.
- Dynamic typing is not modelled: a rule's delete flag is a boolean.
- Scalar values are integers, booleans, strings and null only. YAML
  floats, dates and timestamps are not modelled. In the source
  `ensure_string_values` writes them as `str(obj)` (for example `1.0` or
  `2024-01-01`), and the tester tests their truthiness and converts them
  with `String(v)`. JsonDoc.StringifyMakesStringTree,
  Validators.RulesYaml and Validators.SafeInvalid therefore do not cover
  documents holding such values.
- Classify.Judge: a rule has a `name` in the model. In the source, a rule
  without a `name` key raises a `KeyError` in the log message as soon as a
  condition field hits. In the first pass the per-message handler catches
  it, and the message is abandoned with its record unchanged, neither
  matched nor deleted. In the second pass the match record is written
  first, and the message is then abandoned before the delete and before
  it is counted. Classify.WalkRules and Passes.MatchRule, which are built
  on Classify.Judge, do not model this either: a nameless rule that
  matches is treated like any other rule.
- Classify.WalkRules: a rule's other actions are not modelled, only its
  delete flag and `stop_processing`.
- Compare.CompareRules: the only-in results are maps keyed by rule name,
  so their order is not modelled.
- Simulate.RuleVerdict: only the `from` and `subject` condition fields are
  read, as in the source. Its own contract states only the `null` case.
  Simulate.OrMeaning, Simulate.AndMeaning and Simulate.DisabledByFalseString
  state its verdict for each rule type.
- Text.Lower: only ASCII letters are lower-cased, and `Text.IsWordChar`
  (the `\w` class) holds only for ASCII letters, digits and `_`. Python's
  `lower()` and `\w` also cover other letters. This affects the members
  built on them: Patterns.Token, DomainRegex.DomainPart,
  Classify.LowerEach, Classify.FieldHits, Passes.CheckConditions and
  Passes.CheckExceptions. Headers are not affected, because they are
  reduced to ASCII before matching.
- Headers.FindStubs: the stub pattern's `\w` is ASCII only, so a body such
  as `/münchen.de` yields no stub here, while Python finds `/münchen.de`.
- Headers.UniqueUrlStubs: built on Headers.FindStubs, with the same ASCII
  `\w`.
- Export.CanonicalListProps: entries are lower-cased on ASCII letters only
  (see Text.Lower).
- Classify.FirstPassProcessesAll: states the intended loop, which examines
  every message by position. The loop as written skips the message after a
  removed safe sender; Classify.SafeHitSkipsNext states that (see
  Findings). After such a removal, `list.index` also writes later messages'
  records into shifted slots; that shift is not modelled.
- Passes.RunPass: runs the intended per-position loop, as
  Classify.FirstPassProcessesAll does; the skip after a removed safe
  sender is stated by Classify.SafeHitSkipsNext.
- Passes.ClassifyAll: walks the first pass's messages by position, the
  intended loop. The loop as written skips the message after a removed safe
  sender (Classify.SafeHitSkipsNext, see Findings). The second pass
  enumerates its list without removing anything and is not affected.
- Retry.MailItem.ClearFlagWithRetry: the source calls no `Save` after
  `Flag.Clear()`, so the cleared flag lives in memory only; the model
  keeps that and records no save.

## Findings

| source | as written | input that shows it | evidently intended | confidence | as-written member | corrected member |
|---|---|---|---|---|---|---|
| Archive/desktop-python/withOutlookRulesYAML.py:2335-2362 | the first pass iterates over `all_emails_to_process` with a `for` loop and calls `all_emails_to_process.remove(email)` after a safe-sender hit, so the next message moves into the current position and the loop steps past it | two messages `[a, b]`, where `a`'s sender hits a safe-sender pattern and its move and delete return: `b` is never examined | every message is examined once, in order | not executed | Classify.SafeHitSkipsNext | Classify.FirstPassProcessesAll |

=== FILE: classify.dfy ===
/** The per-message classification of `process_emails`, as functions:
    the verdict of one rule, the walk over the sorted rules, and what
    happens to one message in the first and in the second pass. The
    mailbox is not modelled: whether a move or a delete returns is given. */
module Classify {
  import opened Wrappers
  import opened Text
  import opened Headers
  import opened Patterns
  import opened Rules

  /** A message as the loops read it: sender address, subject, body and
      the raw transport header text. */
  datatype Message = Message(sender: string, subject: string, body: string, rawHeader: string)

  /** The message's entry in the pass's info list: whether a rule
      matched, which one, the pattern that matched, the combined header
      and whether a rule was evaluated. */
  datatype Record = Record(matched: bool, rule: Option<Rule>, keyword: string, header: string, processed: bool)

  /** The entry every message starts with. */
  const Fresh := Record(false, None, "", "", false)

  datatype Pass = First | Second

  /** What the mailbox does with one message: whether moving it to the
      inbox returns, and whether its `k`-th `delete_email_with_retry`
      call returns rather than raising. */
  datatype MailOps = MailOps(moveOk: bool, deleteOk: nat -> bool)

  /** `[p.lower() for p in ps]`. */
  function LowerEach(ps: seq<string>): (r: seq<string>)
    ensures |r| == |ps|
    ensures forall i :: 0 <= i < |ps| ==> r[i] == Lower(ps[i])
  {
    if |ps| == 0 then [] else [Lower(ps[0])] + LowerEach(ps[1..])
  }

  /** One text field checked against one pattern list of a rule: the
      first compiling pattern that matches, `None` when the key is
      missing or nothing matches. */
  function Hit(e: Engine, pats: Option<seq<string>>, text: string): (r: Option<string>)
    ensures r.None? <==> pats.None? || NoHit(e, Compilable(e, pats.value), text)
    ensures r.Some? ==> r.value in pats.value && e.compiles(r.value) && e.search(r.value, text)
  {
    if pats.None? then None else AnyRegexMatch(e, Compilable(e, pats.value), text)
  }

  /** The pattern a field reports is the first one of the rule's list, in
      list order, that both compiles and matches. */
  lemma HitIsFirst(e: Engine, pats: Option<seq<string>>, text: string)
    ensures var r := Hit(e, pats, text);
      r.Some? ==>
        exists k :: 0 <= k < |pats.value| && r.value == pats.value[k]
                    && e.compiles(r.value) && e.search(r.value, text)
                    && forall j :: 0 <= j < k ==> !(e.compiles(pats.value[j]) && e.search(pats.value[j], text))
  {
    if pats.Some? {
      FirstCompilableMatch(e, pats.value, text);
    }
  }

  /** The `header` list checked against the two header tokens. */
  function HeaderHit(e: Engine, pats: Option<seq<string>>, header: string, sender: string): (r: Option<string>)
    ensures r.None? <==> (pats.None? ||
      forall c :: c in HeaderCandidates(header, sender) ==> NoHit(e, Compilable(e, pats.value), c))
    ensures r.Some? ==> r.value in pats.value && e.compiles(r.value)
  {
    if pats.None? then None else RegexMatchHeaderAny(e, Compilable(e, pats.value), header, sender)
  }

  /** The header field's hit is the field hit on the `@domain` token of
      the From line when there is one, and otherwise the hit on the
      sender; `HitIsFirst` then says which pattern it reports. */
  lemma HeaderHitOrder(e: Engine, pats: Option<seq<string>>, header: string, sender: string)
    ensures var a, b := Token(HeaderFrom(header)), Token(sender);
      HeaderHit(e, pats, header, sender) ==
        if a != "" && Hit(e, pats, a).Some? then Hit(e, pats, a)
        else if b != "" then Hit(e, pats, b)
        else None
  {
    if pats.Some? {
      var c := Compilable(e, pats.value);
      HeaderMatchOrder(e, c, header, sender);
      assert forall t :: Hit(e, pats, t) == AnyRegexMatch(e, c, t);
    }
  }

  /** The four fields of a `conditions` or `exceptions` mapping checked
      in the loops' order: from (against the lower-cased sender), subject,
      body, header. `lowerFrom` lower-cases the `from` patterns first. */
  function FieldHits(e: Engine, f: PatternFields, m: Message, header: string, lowerFrom: bool): (hs: seq<Option<string>>)
    ensures |hs| == 4
  {
    var from := if lowerFrom && f.senders.Some? then Some(LowerEach(f.senders.value)) else f.senders;
    [Hit(e, from, Lower(m.sender)), Hit(e, f.subject, m.subject), Hit(e, f.body, m.body),
     HeaderHit(e, f.header, header, m.sender)]
  }

  predicate AnyHit(hs: seq<Option<string>>) {
    exists i :: 0 <= i < |hs| && hs[i].Some?
  }

  /** The first hit, as the second pass's `and not match` guards leave it. */
  function FirstSome(hs: seq<Option<string>>): (r: Option<string>)
    ensures r.Some? <==> AnyHit(hs)
    ensures r.Some? ==> exists i :: 0 <= i < |hs| && hs[i] == r && forall j :: 0 <= j < i ==> hs[j].None?
  {
    if |hs| == 0 then None
    else if hs[0].Some? then hs[0]
    else
      var r := FirstSome(hs[1..]);
      assert forall i :: 1 <= i < |hs| ==> hs[i] == hs[1..][i - 1];
      r
  }

  /** The last hit, as the first pass leaves it by checking every field
      and overwriting the keyword on each hit. */
  function LastSome(hs: seq<Option<string>>): (r: Option<string>)
    ensures r.Some? <==> AnyHit(hs)
    ensures r.Some? ==> exists i :: 0 <= i < |hs| && hs[i] == r && forall j :: i < j < |hs| ==> hs[j].None?
  {
    if |hs| == 0 then None
    else
      var r := LastSome(hs[1..]);
      assert forall i :: 1 <= i < |hs| ==> hs[i] == hs[1..][i - 1];
      if r.Some? then r else hs[0]
  }

  /** The first of four fields' hits, field by field. */
  lemma FirstOfFour(a: Option<string>, b: Option<string>, c: Option<string>, d: Option<string>)
    ensures FirstSome([a, b, c, d]) ==
      if a.Some? then a else if b.Some? then b else if c.Some? then c else d
  {
    assert [a, b, c, d][1..] == [b, c, d] && [b, c, d][1..] == [c, d] && [c, d][1..] == [d] && [d][1..] == [];
    assert FirstSome([d]) == d;
    assert FirstSome([c, d]) == if c.Some? then c else d;
    assert FirstSome([b, c, d]) == if b.Some? then b else if c.Some? then c else d;
  }

  /** The last of four fields' hits, field by field. */
  lemma LastOfFour(a: Option<string>, b: Option<string>, c: Option<string>, d: Option<string>)
    ensures LastSome([a, b, c, d]) ==
      if d.Some? then d else if c.Some? then c else if b.Some? then b else a
  {
    assert [a, b, c, d][1..] == [b, c, d] && [b, c, d][1..] == [c, d] && [c, d][1..] == [d] && [d][1..] == [];
    assert LastSome([d]) == d;
    assert LastSome([c, d]) == if d.Some? then d else c;
    assert LastSome([b, c, d]) == if d.Some? then d else if c.Some? then c else b;
  }

  /** How one rule judges one message: evaluation raises when the rule
      has no `conditions` or no `exceptions` key; otherwise it matches
      with the pattern that hit, or does not. */
  datatype Verdict = Abort | NoMatch | Match(keyword: string)

  function Judge(e: Engine, p: Pass, r: Rule, m: Message, header: string): Verdict {
    match (r.conditions, r.exceptions)
    case (Some(c), Some(x)) =>
      var hits := FieldHits(e, c, m, header, false);
      var hit := if p == First then LastSome(hits) else FirstSome(hits);
      if hit.None? || FirstSome(FieldHits(e, x, m, header, p == First)).Some? then NoMatch
      else Match(hit.value)
    case _ => Abort
  }

  /** A rule matches exactly when some condition field hits and no
      exception field does; the keyword is the last hit in the first pass
      and the first hit in the second; a rule without `conditions` or
      `exceptions` makes evaluation raise. */
  lemma JudgeMeaning(e: Engine, p: Pass, r: Rule, m: Message, header: string)
    ensures Judge(e, p, r, m, header).Abort? <==> r.conditions.None? || r.exceptions.None?
    ensures r.conditions.Some? && r.exceptions.Some? ==>
      (Judge(e, p, r, m, header).Match? <==>
        AnyHit(FieldHits(e, r.conditions.value, m, header, false))
        && !AnyHit(FieldHits(e, r.exceptions.value, m, header, p == First)))
    ensures Judge(e, p, r, m, header).Match? ==>
      var hits := FieldHits(e, r.conditions.value, m, header, false);
      Some(Judge(e, p, r, m, header).keyword) == (if p == First then LastSome(hits) else FirstSome(hits))
  {
  }

  /** The matched keyword is always one of the rule's own condition
      patterns, one that compiles. */
  lemma KeywordIsConditionPattern(e: Engine, p: Pass, r: Rule, m: Message, header: string)
    requires Judge(e, p, r, m, header).Match?
    ensures var c, kw := r.conditions.value, Judge(e, p, r, m, header).keyword;
      e.compiles(kw) &&
      ((c.senders.Some? && kw in c.senders.value) || (c.subject.Some? && kw in c.subject.value) ||
       (c.body.Some? && kw in c.body.value) || (c.header.Some? && kw in c.header.value))
  {
    var c := r.conditions.value;
    var hits := FieldHits(e, c, m, header, false);
    var hit := if p == First then LastSome(hits) else FirstSome(hits);
    var i :| 0 <= i < 4 && hits[i] == hit;
    FieldHitPattern(e, c, m, header, i);
  }

  /** A field's hit is one of that field's patterns, one that compiles. */
  lemma FieldHitPattern(e: Engine, c: PatternFields, m: Message, header: string, i: nat)
    requires i < 4 && FieldHits(e, c, m, header, false)[i].Some?
    ensures var kw := FieldHits(e, c, m, header, false)[i].value;
      e.compiles(kw) &&
      ((c.senders.Some? && kw in c.senders.value) || (c.subject.Some? && kw in c.subject.value) ||
       (c.body.Some? && kw in c.body.value) || (c.header.Some? && kw in c.header.value))
  {
    assert i == 0 || i == 1 || i == 2 || i == 3;
  }

  /** The two passes agree on whether a rule matches whenever its
      exception `from` patterns are already lower-case (the first pass
      lower-cases them before compiling, the second does not). */
  lemma PassesAgree(e: Engine, r: Rule, m: Message, header: string)
    requires r.exceptions.Some? && r.exceptions.value.senders.Some?
      ==> LowerEach(r.exceptions.value.senders.value) == r.exceptions.value.senders.value
    ensures Judge(e, First, r, m, header).Match? <==> Judge(e, Second, r, m, header).Match?
    ensures Judge(e, First, r, m, header).Abort? <==> Judge(e, Second, r, m, header).Abort?
  {
    if r.conditions.Some? && r.exceptions.Some? {
      var x := r.exceptions.value;
      assert FieldHits(e, x, m, header, true) == FieldHits(e, x, m, header, false);
    }
  }

  /** Neither `enabled` nor `stop_processing_more_rules` changes a verdict. */
  lemma FlagsIgnored(e: Engine, p: Pass, r: Rule, m: Message, header: string, enabled: bool, stop: bool)
    ensures Judge(e, p, r.(enabled := enabled, stopProcessing := stop), m, header) == Judge(e, p, r, m, header)
  {
  }

  /** How the rule loop ends: it runs out of rules, leaves by `break`, or
      an exception leaves the message. */
  datatype Exit = Exhausted | Break | Raised

  /** The state after the rule loop: the record, the number of delete
      calls made, whether the message was deleted, how the loop ended. */
  datatype Walk = Walk(record: Record, attempts: nat, deleted: bool, exit: Exit)

  /** The record after a rule that did not match: the first pass resets
      it, the second leaves it. */
  function AfterNoMatch(p: Pass, rec: Record, header: string): Record {
    if p == First then Record(false, None, "", header, true) else rec
  }

  /** The record after a matching rule: the first pass writes the whole
      entry, the second writes all but the header. */
  function AfterMatch(p: Pass, rec: Record, r: Rule, kw: string, header: string): Record {
    if p == First then Record(true, Some(r), kw, header, true)
    else rec.(matched := true, rule := Some(r), keyword := kw, processed := true)
  }

  /** The rule loop over the sorted rules, from the `k`-th delete call on:
      a matched deleting rule makes a delete call; the first pass leaves
      after it whatever its outcome, the second only when it returned. */
  function WalkRules(e: Engine, p: Pass, rs: seq<Rule>, m: Message, header: string, ops: MailOps, k: nat, rec: Record): (w: Walk)
    ensures k <= w.attempts
    ensures p == First ==> w.attempts <= k + 1
    ensures w.deleted ==> w.exit == Break && k < w.attempts
    decreases |rs|
  {
    if |rs| == 0 then Walk(rec, k, false, Exhausted)
    else
      var r := rs[0];
      match Judge(e, p, r, m, header)
      case Abort => Walk(rec, k, false, Raised)
      case NoMatch => WalkRules(e, p, rs[1..], m, header, ops, k, AfterNoMatch(p, rec, header))
      case Match(kw) =>
        var rec' := AfterMatch(p, rec, r, kw, header);
        if !r.delete then WalkRules(e, p, rs[1..], m, header, ops, k, rec')
        else if ops.deleteOk(k) then Walk(rec', k + 1, true, Break)
        else if p == First then Walk(rec', k + 1, false, Break)
        else WalkRules(e, p, rs[1..], m, header, ops, k + 1, rec')
  }

  /** Once the loop has left (a delete, or an exception), the rules after
      those it looked at are never examined. */
  lemma {:induction false} WalkStops(e: Engine, p: Pass, rs: seq<Rule>, post: seq<Rule>, m: Message, header: string, ops: MailOps, k: nat, rec: Record)
    requires WalkRules(e, p, rs, m, header, ops, k, rec).exit != Exhausted
    ensures WalkRules(e, p, rs + post, m, header, ops, k, rec) == WalkRules(e, p, rs, m, header, ops, k, rec)
    decreases |rs|
  {
    var r := rs[0];
    assert (rs + post)[0] == r && (rs + post)[1..] == rs[1..] + post;
    match Judge(e, p, r, m, header)
    case Abort =>
    case NoMatch =>
      WalkStops(e, p, rs[1..], post, m, header, ops, k, AfterNoMatch(p, rec, header));
    case Match(kw) =>
      var rec' := AfterMatch(p, rec, r, kw, header);
      if !r.delete {
        WalkStops(e, p, rs[1..], post, m, header, ops, k, rec');
      } else if !ops.deleteOk(k) && p == Second {
        WalkStops(e, p, rs[1..], post, m, header, ops, k + 1, rec');
      }
  }

  /** A matched deleting rule ends the first pass's evaluation of the
      message, whether or not the delete returned. */
  lemma FirstPassDeleteEnds(e: Engine, r: Rule, post: seq<Rule>, m: Message, header: string, ops: MailOps, k: nat, rec: Record)
    requires Judge(e, First, r, m, header).Match? && r.delete
    ensures WalkRules(e, First, [r] + post, m, header, ops, k, rec).exit == Break
    ensures WalkRules(e, First, [r] + post, m, header, ops, k, rec).deleted == ops.deleteOk(k)
    ensures WalkRules(e, First, [r] + post, m, header, ops, k, rec).attempts == k + 1
  {
    assert ([r] + post)[0] == r;
  }

  /** In the second pass a matched deleting rule ends evaluation only
      when the delete returned; after a failed one the later rules run,
      and the next delete is the following call. */
  lemma SecondPassDeleteEnds(e: Engine, r: Rule, post: seq<Rule>, m: Message, header: string, ops: MailOps, k: nat, rec: Record)
    requires Judge(e, Second, r, m, header).Match? && r.delete
    ensures ops.deleteOk(k) ==> WalkRules(e, Second, [r] + post, m, header, ops, k, rec).exit == Break
    ensures ops.deleteOk(k) ==> WalkRules(e, Second, [r] + post, m, header, ops, k, rec).deleted
    ensures !ops.deleteOk(k) ==>
      (WalkRules(e, Second, [r] + post, m, header, ops, k, rec) ==
       WalkRules(e, Second, post, m, header, ops, k + 1,
                 AfterMatch(Second, rec, r, Judge(e, Second, r, m, header).keyword, header)))
  {
    assert ([r] + post)[0] == r && ([r] + post)[1..] == post;
  }

  /** A matched rule that does not delete lets the later rules run. */
  lemma MatchWithoutDeleteContinues(e: Engine, p: Pass, r: Rule, post: seq<Rule>, m: Message, header: string, ops: MailOps, k: nat, rec: Record)
    requires Judge(e, p, r, m, header).Match? && !r.delete
    ensures WalkRules(e, p, [r] + post, m, header, ops, k, rec) ==
      WalkRules(e, p, post, m, header, ops, k, AfterMatch(p, rec, r, Judge(e, p, r, m, header).keyword, header))
  {
    assert ([r] + post)[0] == r && ([r] + post)[1..] == post;
  }

  /** In the first pass, when the loop runs out of rules, the record is
      the last rule's verdict alone: a non-matching last rule erases the
      match of every rule before it. */
  lemma {:induction false} FirstPassLastRuleDecides(e: Engine, rs: seq<Rule>, m: Message, header: string, ops: MailOps, k: nat, rec: Record)
    requires |rs| > 0
    requires WalkRules(e, First, rs, m, header, ops, k, rec).exit == Exhausted
    ensures var last := rs[|rs| - 1];
      WalkRules(e, First, rs, m, header, ops, k, rec).record ==
        match Judge(e, First, last, m, header)
        case Match(kw) => Record(true, Some(last), kw, header, true)
        case _ => Record(false, None, "", header, true)
    decreases |rs|
  {
    var r := rs[0];
    if |rs| > 1 {
      assert rs[1..][|rs[1..]| - 1] == rs[|rs| - 1];
      match Judge(e, First, r, m, header)
      case NoMatch =>
        FirstPassLastRuleDecides(e, rs[1..], m, header, ops, k, AfterNoMatch(First, rec, header));
      case Match(kw) =>
        FirstPassLastRuleDecides(e, rs[1..], m, header, ops, k, AfterMatch(First, rec, r, kw, header));
    }
  }

  /** In the second pass a match, once recorded, stays recorded; and a
      message no rule matches keeps its record untouched. */
  lemma {:induction false} SecondPassSticky(e: Engine, rs: seq<Rule>, m: Message, header: string, ops: MailOps, k: nat, rec: Record)
    ensures rec.matched ==> WalkRules(e, Second, rs, m, header, ops, k, rec).record.matched
    ensures (forall i :: 0 <= i < |rs| ==> Judge(e, Second, rs[i], m, header).NoMatch?) ==>
      WalkRules(e, Second, rs, m, header, ops, k, rec) == Walk(rec, k, false, Exhausted)
    decreases |rs|
  {
    if |rs| > 0 {
      var r := rs[0];
      assert forall i :: 1 <= i < |rs| ==> rs[1..][i - 1] == rs[i];
      match Judge(e, Second, r, m, header)
      case Abort =>
      case NoMatch =>
        SecondPassSticky(e, rs[1..], m, header, ops, k, rec);
      case Match(kw) =>
        var rec' := AfterMatch(Second, rec, r, kw, header);
        if !r.delete || (!ops.deleteOk(k)) {
          SecondPassSticky(e, rs[1..], m, header, ops, if r.delete then k + 1 else k, rec');
        }
    }
  }

  /** What one message leaves behind: its record, whether it was
      deleted, whether it adds to the pass's deleted and processed counts. */
  datatype Outcome = Outcome(record: Record, deleted: bool, countedDeleted: bool, countedProcessed: bool)

  /** The header each pass matches against: the first pass uses `""` when
      combining fails, the second gives up on the message. */
  function PassHeader(p: Pass, raw: string): Option<string> {
    match CombinedHeader(raw)
    case Some(h) => Some(h)
    case None => if p == First then Some("") else None
  }

  /** One message in one pass, given the compiled safe-sender patterns and
      the sorted rules. A safe-sender hit moves the message to the inbox
      and deletes it, examining no rule; a move or delete that raises
      leaves the message. */
  function ClassifyMessage(e: Engine, p: Pass, safe: seq<string>, rs: seq<Rule>, m: Message, ops: MailOps, rec: Record): Outcome {
    match PassHeader(p, m.rawHeader)
    case None => Outcome(rec, false, false, false)
    case Some(header) =>
      Judged(e, p, safe, rs, m, ops, if p == Second then rec.(header := header) else rec, header)
  }

  /** A message once its header is known: the safe-sender check, then the
      rule walk. */
  function Judged(e: Engine, p: Pass, safe: seq<string>, rs: seq<Rule>, m: Message, ops: MailOps, rec: Record, header: string): Outcome {
    if RegexMatchHeaderAny(e, safe, header, m.sender).Some? then
      var ok := ops.moveOk && ops.deleteOk(0);
      Outcome(rec, ok, ok && p == Second, p == First || ok)
    else
      var w := WalkRules(e, p, rs, m, header, ops, 0, rec);
      Outcome(w.record, w.deleted, w.deleted, p == First || w.exit != Raised)
  }

  /** The safe-sender short-circuit: a message whose header tokens hit a
      safe-sender pattern is judged without any rule, is deleted exactly
      when the move and the delete both return, and (in the first pass)
      keeps its record and does not add to the deleted count. */
  lemma SafeSenderShortCircuit(e: Engine, p: Pass, safe: seq<string>, rs: seq<Rule>, rs': seq<Rule>, m: Message, ops: MailOps, rec: Record)
    requires PassHeader(p, m.rawHeader).Some?
    requires RegexMatchHeaderAny(e, safe, PassHeader(p, m.rawHeader).value, m.sender).Some?
    ensures ClassifyMessage(e, p, safe, rs, m, ops, rec) == ClassifyMessage(e, p, safe, rs', m, ops, rec)
    ensures ClassifyMessage(e, p, safe, rs, m, ops, rec).deleted <==> ops.moveOk && ops.deleteOk(0)
    ensures p == First ==> ClassifyMessage(e, p, safe, rs, m, ops, rec).record == rec
    ensures p == First ==> !ClassifyMessage(e, p, safe, rs, m, ops, rec).countedDeleted
  {
  }

  /** Every message counts as processed in the first pass; in the second
      exactly those not left by an exception count. */
  lemma ProcessedCount(e: Engine, p: Pass, safe: seq<string>, rs: seq<Rule>, m: Message, ops: MailOps, rec: Record)
    ensures p == First ==> ClassifyMessage(e, p, safe, rs, m, ops, rec).countedProcessed
    ensures p == Second && CombinedHeader(m.rawHeader).None? ==>
      ClassifyMessage(e, p, safe, rs, m, ops, rec) == Outcome(rec, false, false, false)
  {
  }

  /** A deleted message that no safe-sender pattern spared was deleted by
      a matched rule that deletes, recorded as the message's rule. */
  lemma DeletedByMatchedRule(e: Engine, p: Pass, safe: seq<string>, rs: seq<Rule>, m: Message, ops: MailOps, rec: Record)
    requires PassHeader(p, m.rawHeader).Some?
    requires RegexMatchHeaderAny(e, safe, PassHeader(p, m.rawHeader).value, m.sender).None?
    requires ClassifyMessage(e, p, safe, rs, m, ops, rec).deleted
    ensures var r := ClassifyMessage(e, p, safe, rs, m, ops, rec).record;
      r.matched && r.rule.Some? && r.rule.value in rs && r.rule.value.delete
      && Judge(e, p, r.rule.value, m, PassHeader(p, m.rawHeader).value).Match?
  {
    var header := PassHeader(p, m.rawHeader).value;
    var rec0 := if p == Second then rec.(header := header) else rec;
    WalkDeleted(e, p, rs, m, header, ops, 0, rec0);
  }

  lemma {:induction false} WalkDeleted(e: Engine, p: Pass, rs: seq<Rule>, m: Message, header: string, ops: MailOps, k: nat, rec: Record)
    requires WalkRules(e, p, rs, m, header, ops, k, rec).deleted
    ensures var r := WalkRules(e, p, rs, m, header, ops, k, rec).record;
      r.matched && r.rule.Some? && r.rule.value in rs && r.rule.value.delete
      && Judge(e, p, r.rule.value, m, header).Match?
    decreases |rs|
  {
    var r := rs[0];
    match Judge(e, p, r, m, header)
    case NoMatch =>
      WalkDeleted(e, p, rs[1..], m, header, ops, k, AfterNoMatch(p, rec, header));
    case Match(kw) =>
      var rec' := AfterMatch(p, rec, r, kw, header);
      if !r.delete || !ops.deleteOk(k) {
        WalkDeleted(e, p, rs[1..], m, header, ops, if r.delete then k + 1 else k, rec');
      }
  }

  /** The outcomes of a whole pass: each message is classified on its own,
      starting from a fresh record. */
  function Outcomes(e: Engine, p: Pass, safe: seq<string>, rs: seq<Rule>, msgs: seq<Message>, ops: nat -> MailOps): (os: seq<Outcome>)
    ensures |os| == |msgs|
    ensures forall i :: 0 <= i < |msgs| ==> os[i] == ClassifyMessage(e, p, safe, rs, msgs[i], ops(i), Fresh)
  {
    seq(|msgs|, i requires 0 <= i < |msgs| => ClassifyMessage(e, p, safe, rs, msgs[i], ops(i), Fresh))
  }

  /** A message's outcome depends only on the message and on what the
      mailbox does with it, not on its position or on the other messages
      of the pass. */
  lemma OutcomesIndependent(e: Engine, p: Pass, safe: seq<string>, rs: seq<Rule>,
                            msgs: seq<Message>, ops: nat -> MailOps, i: nat,
                            msgs': seq<Message>, ops': nat -> MailOps, j: nat)
    requires i < |msgs| && j < |msgs'|
    requires msgs[i] == msgs'[j] && ops(i) == ops'(j)
    ensures Outcomes(e, p, safe, rs, msgs, ops)[i] == Outcomes(e, p, safe, rs, msgs', ops')[j]
  {
  }

  function CountDeleted(os: seq<Outcome>): (n: nat)
    ensures n <= |os|
  {
    if |os| == 0 then 0
    else CountDeleted(os[..|os| - 1]) + (if os[|os| - 1].countedDeleted then 1 else 0)
  }

  function CountProcessed(os: seq<Outcome>): (n: nat)
    ensures n <= |os|
  {
    if |os| == 0 then 0
    else CountProcessed(os[..|os| - 1]) + (if os[|os| - 1].countedProcessed then 1 else 0)
  }

  /** The counts of a prefix one outcome longer. */
  lemma CountsStep(os: seq<Outcome>, i: nat)
    requires i < |os|
    ensures CountDeleted(os[..i + 1]) == CountDeleted(os[..i]) + (if os[i].countedDeleted then 1 else 0)
    ensures CountProcessed(os[..i + 1]) == CountProcessed(os[..i]) + (if os[i].countedProcessed then 1 else 0)
  {
    assert os[..i + 1][..i] == os[..i];
  }

  /** The first pass counts every message as processed. */
  lemma {:induction false} FirstPassProcessesAll(e: Engine, safe: seq<string>, rs: seq<Rule>, msgs: seq<Message>, ops: nat -> MailOps, n: nat)
    requires n <= |msgs|
    ensures CountProcessed(Outcomes(e, First, safe, rs, msgs, ops)[..n]) == n
  {
    if n > 0 {
      var os := Outcomes(e, First, safe, rs, msgs, ops);
      assert os[..n][..n - 1] == os[..n - 1];
      FirstPassProcessesAll(e, safe, rs, msgs, ops, n - 1);
      ProcessedCount(e, First, safe, rs, msgs[n - 1], ops(n - 1), Fresh);
    }
  }

  /** Whether the first pass takes `m` out of the list it is walking: its
      header tokens hit a safe-sender pattern and both the move to the
      inbox and the delete returned. */
  predicate SafeRemoved(e: Engine, safe: seq<string>, m: Message, ops: MailOps) {
    var header := PassHeader(First, m.rawHeader);
    header.Some? && RegexMatchHeaderAny(e, safe, header.value, m.sender).Some? && ops.moveOk && ops.deleteOk(0)
  }

  /** A message leaves the first pass's list exactly when a safe-sender
      hit got it deleted. */
  lemma SafeRemovedMeaning(e: Engine, safe: seq<string>, rs: seq<Rule>, m: Message, ops: MailOps, rec: Record)
    ensures PassHeader(First, m.rawHeader).Some?
    ensures SafeRemoved(e, safe, m, ops) <==>
      RegexMatchHeaderAny(e, safe, PassHeader(First, m.rawHeader).value, m.sender).Some?
      && ClassifyMessage(e, First, safe, rs, m, ops, rec).deleted
  {
  }

  /** The messages the first-pass loop examines as it is written: it
      walks the list by position while removing the current message when
      `removed` holds of it (a safe-sender hit whose move and delete
      returned, `SafeRemoved`), so the message that slides into the freed
      position is never examined. `msgs` is the list as it stands and `i`
      the loop's position in it; messages are distinct. */
  function AsWrittenVisits(msgs: seq<Message>, removed: Message -> bool, i: nat): (v: seq<Message>)
    ensures |v| <= if i <= |msgs| then |msgs| - i else 0
    ensures forall x :: x in v ==> x in msgs
    decreases |msgs| - i
  {
    if i >= |msgs| then []
    else if removed(msgs[i]) then [msgs[i]] + AsWrittenVisits(msgs[..i] + msgs[i + 1..], removed, i + 1)
    else [msgs[i]] + AsWrittenVisits(msgs, removed, i + 1)
  }

  /** A message in front of the walk's position does not change what the
      walk examines from there on. */
  lemma {:induction false} VisitsShift(x: Message, msgs: seq<Message>, removed: Message -> bool, i: nat)
    ensures AsWrittenVisits([x] + msgs, removed, i + 1) == AsWrittenVisits(msgs, removed, i)
    decreases |msgs| - i
  {
    var l := [x] + msgs;
    if i < |msgs| {
      assert l[i + 1] == msgs[i];
      if removed(msgs[i]) {
        assert l[..i + 1] + l[i + 2..] == [x] + (msgs[..i] + msgs[i + 1..]);
        VisitsShift(x, msgs[..i] + msgs[i + 1..], removed, i + 1);
      } else {
        VisitsShift(x, msgs, removed, i + 1);
      }
    }
  }

  /** As written, a message removed after a safe-sender hit takes the
      next message with it: that message is never examined, and the walk
      examines fewer messages than the list held. */
  lemma SafeHitSkipsNext(a: Message, b: Message, rest: seq<Message>, removed: Message -> bool)
    requires removed(a)
    requires a != b && b !in rest
    ensures var v := AsWrittenVisits([a, b] + rest, removed, 0);
      v == [a] + AsWrittenVisits(rest, removed, 0) && b !in v && |v| < |rest| + 2
  {
    var l := [a, b] + rest;
    assert l[..0] + l[1..] == [b] + rest;
    VisitsShift(b, rest, removed, 0);
  }

  /** Without a removal the walk as written examines every message in
      order, as the per-position `Outcomes` does. */
  lemma {:induction false} VisitsWithoutRemoval(msgs: seq<Message>, removed: Message -> bool, i: nat)
    requires i <= |msgs|
    requires forall j :: i <= j < |msgs| ==> !removed(msgs[j])
    ensures AsWrittenVisits(msgs, removed, i) == msgs[i..]
    decreases |msgs| - i
  {
    if i < |msgs| {
      VisitsWithoutRemoval(msgs, removed, i + 1);
      assert msgs[i..] == [msgs[i]] + msgs[i + 1..];
    }
  }
}

=== FILE: compare.dfy ===
/** Comparing two rule sets (`compare_rules`) and the recursive document
    diff behind it (`_deep_compare_dicts`, `_deep_compare_lists`). */
module Compare {
  import opened Wrappers
  import opened Text
  import opened Lists
  import opened JsonDoc

  /** One reported difference: where, and the value on each side. A key
      missing on one side shows as `JNull` there, a list element missing
      on one side as the string "Missing". */
  datatype Diff = Diff(path: string, value1: Json, value2: Json)

  /** The path of a key below `path`: the key alone at the top. */
  function KeyPath(path: string, key: string): string {
    if path == "" then key else path + "." + key
  }

  function IndexPath(path: string, i: nat): string {
    path + "[" + NatToString(i) + "]"
  }

  function LengthNote(n: nat): Json {
    JStr("List length: " + NatToString(n))
  }

  const Missing: Json := JStr("Missing")

  // ---------------------------------------------------------------------
  // The differences, as functions of the two documents.

  /** The comparison of one pair of values met inside a mapping or a list:
      two mappings or two lists are compared recursively, anything else
      is one difference when the values are not equal. */
  function DiffValue(v1: Json, v2: Json, path: string): seq<Diff>
    decreases v1, 2
  {
    if v1.JObj? && v2.JObj? then DiffDicts(v1, v2, path)
    else if v1.JList? && v2.JList? then DiffLists(v1, v2, path)
    else if PyEq(v1, v2) then []
    else [Diff(path, v1, v2)]
  }

  /** `_deep_compare_dicts`: for two mappings, the keys of the first in
      order, then the keys only the second has; otherwise one difference
      when the values are not equal. */
  function DiffDicts(d1: Json, d2: Json, path: string): seq<Diff>
    decreases d1, 1
  {
    if !d1.JObj? || !d2.JObj? then (if PyEq(d1, d2) then [] else [Diff(path, d1, d2)])
    else LeftKeys(d1, d2.fields, path, |d1.fields|) + RightKeys(d1.fields, d2.fields, path, |d2.fields|)
  }

  /** The first loop of `_deep_compare_dicts`, over the first `n` keys of `d1`. */
  function LeftKeys(d1: Json, gs: seq<Field>, path: string, n: nat): seq<Diff>
    requires d1.JObj? && n <= |d1.fields|
    decreases d1, 0, n
  {
    if n == 0 then []
    else LeftKeys(d1, gs, path, n - 1) + FieldDiff(d1.fields[n - 1], gs, path)
  }

  /** One step of that loop: a key the second mapping lacks, or the
      comparison of the two values at the key. */
  function FieldDiff(f: Field, gs: seq<Field>, path: string): seq<Diff>
    decreases f, 3
  {
    match Lookup(gs, f.key)
    case None => [Diff(KeyPath(path, f.key), f.val, JNull)]
    case Some(v) => DiffValue(f.val, v, KeyPath(path, f.key))
  }

  /** The second loop of `_deep_compare_dicts`, over the first `n` keys of the second mapping. */
  function RightKeys(fs: seq<Field>, gs: seq<Field>, path: string, n: nat): seq<Diff>
    requires n <= |gs|
  {
    if n == 0 then []
    else
      RightKeys(fs, gs, path, n - 1) +
        (if HasKey(fs, gs[n - 1].key) then [] else [Diff(KeyPath(path, gs[n - 1].key), JNull, gs[n - 1].val)])
  }

  /** `_deep_compare_lists`: a length note when the lengths differ, the
      element pairs, then each element only the longer list has. */
  function DiffLists(l1: Json, l2: Json, path: string): seq<Diff>
    requires l1.JList? && l2.JList?
    decreases l1, 1
  {
    var xs, ys := l1.items, l2.items;
    var lo := if |xs| < |ys| then |xs| else |ys|;
    var hi := if |xs| < |ys| then |ys| else |xs|;
    (if |xs| != |ys| then [Diff(path, LengthNote(|xs|), LengthNote(|ys|))] else [])
      + ZipDiffs(l1, ys, path, lo) + Extras(xs, ys, path, lo, hi)
  }

  /** The loop over the first `n` element pairs. */
  function ZipDiffs(l1: Json, ys: seq<Json>, path: string, n: nat): seq<Diff>
    requires l1.JList? && n <= |l1.items| && n <= |ys|
    decreases l1, 0, n
  {
    if n == 0 then []
    else ZipDiffs(l1, ys, path, n - 1) + DiffValue(l1.items[n - 1], ys[n - 1], IndexPath(path, n - 1))
  }

  /** The loop over the positions `lo` .. `n - 1` that only the longer list has. */
  function Extras(xs: seq<Json>, ys: seq<Json>, path: string, lo: nat, n: nat): seq<Diff>
    requires lo <= n && (n <= |xs| || n <= |ys|)
    requires lo == |xs| || lo == |ys|
    decreases n
  {
    if n == lo then []
    else
      Extras(xs, ys, path, lo, n - 1) +
        (if n - 1 < |xs| then [Diff(IndexPath(path, n - 1), xs[n - 1], Missing)]
         else [Diff(IndexPath(path, n - 1), Missing, ys[n - 1])])
  }

  // ---------------------------------------------------------------------
  // The methods, as the agent runs them.

  /** `_deep_compare_dicts`. */
  method DeepCompareDicts(d1: Json, d2: Json, path: string) returns (differences: seq<Diff>)
    ensures differences == DiffDicts(d1, d2, path)
    decreases d1, 1
  {
    if !d1.JObj? || !d2.JObj? {
      differences := if PyEq(d1, d2) then [] else [Diff(path, d1, d2)];
      return;
    }
    var fs, gs := d1.fields, d2.fields;
    differences := [];
    var i := 0;
    while i < |fs|
      invariant 0 <= i <= |fs|
      invariant differences == LeftKeys(d1, gs, path, i)
    {
      var key, v1 := fs[i].key, fs[i].val;
      var p := KeyPath(path, key);
      var found := Lookup(gs, key);
      if found.None? {
        differences := differences + [Diff(p, v1, JNull)];
      } else {
        var v2 := found.value;
        var nested := DeepCompareValue(v1, v2, p);
        differences := differences + nested;
      }
      i := i + 1;
    }
    var j := 0;
    while j < |gs|
      invariant 0 <= j <= |gs|
      invariant differences == LeftKeys(d1, gs, path, |fs|) + RightKeys(fs, gs, path, j)
    {
      if !HasKey(fs, gs[j].key) {
        differences := differences + [Diff(KeyPath(path, gs[j].key), JNull, gs[j].val)];
      }
      j := j + 1;
    }
  }

  /** The branch both loops of the agent take on one pair of values. */
  method DeepCompareValue(v1: Json, v2: Json, path: string) returns (differences: seq<Diff>)
    ensures differences == DiffValue(v1, v2, path)
    decreases v1, 2
  {
    if v1.JObj? && v2.JObj? {
      differences := DeepCompareDicts(v1, v2, path);
    } else if v1.JList? && v2.JList? {
      differences := DeepCompareLists(v1, v2, path);
    } else if !PyEq(v1, v2) {
      differences := [Diff(path, v1, v2)];
    } else {
      differences := [];
    }
  }

  /** `_deep_compare_lists`. */
  method DeepCompareLists(l1: Json, l2: Json, path: string) returns (differences: seq<Diff>)
    requires l1.JList? && l2.JList?
    ensures differences == DiffLists(l1, l2, path)
    decreases l1, 1
  {
    var xs, ys := l1.items, l2.items;
    differences := [];
    if |xs| != |ys| {
      differences := [Diff(path, LengthNote(|xs|), LengthNote(|ys|))];
    }
    var lo := if |xs| < |ys| then |xs| else |ys|;
    var hi := if |xs| < |ys| then |ys| else |xs|;
    var zipped := CompareElements(l1, ys, path, lo);
    var extras := CompareExtras(xs, ys, path, lo, hi);
    differences := differences + zipped + extras;
  }

  /** The loop over the element pairs `zip` yields. */
  method CompareElements(l1: Json, ys: seq<Json>, path: string, lo: nat) returns (differences: seq<Diff>)
    requires l1.JList? && lo <= |l1.items| && lo <= |ys|
    ensures differences == ZipDiffs(l1, ys, path, lo)
    decreases l1, 0
  {
    differences := [];
    var i := 0;
    while i < lo
      invariant 0 <= i <= lo
      invariant differences == ZipDiffs(l1, ys, path, i)
    {
      var nested := DeepCompareValue(l1.items[i], ys[i], IndexPath(path, i));
      differences := differences + nested;
      i := i + 1;
    }
  }

  /** The loop over the positions only the longer list has. */
  method CompareExtras(xs: seq<Json>, ys: seq<Json>, path: string, lo: nat, hi: nat) returns (differences: seq<Diff>)
    requires lo <= hi && (hi <= |xs| || hi <= |ys|) && (lo == |xs| || lo == |ys|)
    ensures differences == Extras(xs, ys, path, lo, hi)
  {
    differences := [];
    var k := lo;
    while k < hi
      invariant lo <= k <= hi
      invariant differences == Extras(xs, ys, path, lo, k)
    {
      if k < |xs| {
        differences := differences + [Diff(IndexPath(path, k), xs[k], Missing)];
      } else {
        differences := differences + [Diff(IndexPath(path, k), Missing, ys[k])];
      }
      k := k + 1;
    }
  }

  // ---------------------------------------------------------------------
  // What the difference list means.

  /** No differences exactly when the two values are equal as Python sees them. */
  lemma {:induction false} DiffValueEmpty(v1: Json, v2: Json, path: string)
    ensures DiffValue(v1, v2, path) == [] <==> PyEq(v1, v2)
    decreases v1, 2
  {
    if v1.JObj? && v2.JObj? {
      DiffDictsEmpty(v1, v2, path);
    } else if v1.JList? && v2.JList? {
      DiffListsEmpty(v1, v2, path);
    }
  }

  /** `_deep_compare_dicts` reports nothing exactly when its arguments are equal. */
  lemma {:induction false} DiffDictsEmpty(d1: Json, d2: Json, path: string)
    ensures DiffDicts(d1, d2, path) == [] <==> PyEq(d1, d2)
    decreases d1, 1
  {
    if d1.JObj? && d2.JObj? {
      var fs, gs := d1.fields, d2.fields;
      LeftKeysEmpty(d1, gs, path, |fs|);
      RightKeysEmpty(fs, gs, path, |gs|);
    }
  }

  lemma {:induction false} LeftKeysEmpty(d1: Json, gs: seq<Field>, path: string, n: nat)
    requires d1.JObj? && n <= |d1.fields|
    ensures LeftKeys(d1, gs, path, n) == [] <==> forall i :: 0 <= i < n ==> Agrees(d1.fields[i], gs)
    decreases d1, 0, n
  {
    if n > 0 {
      LeftKeysEmpty(d1, gs, path, n - 1);
      var f := d1.fields[n - 1];
      FieldDiffEmpty(f, gs, path);
      ConcatEmpty(LeftKeys(d1, gs, path, n - 1), FieldDiff(f, gs, path));
      AgreesSplit(d1.fields, gs, n);
    }
  }

  lemma AgreesSplit(fs: seq<Field>, gs: seq<Field>, n: nat)
    requires 0 < n <= |fs|
    ensures (forall i :: 0 <= i < n ==> Agrees(fs[i], gs))
      <==> (forall i :: 0 <= i < n - 1 ==> Agrees(fs[i], gs)) && Agrees(fs[n - 1], gs)
  {
  }

  /** The second mapping has the field's key, with an equal value. */
  predicate Agrees(f: Field, gs: seq<Field>) {
    HasKey(gs, f.key) && PyEqField(f, gs)
  }

  lemma {:induction false} FieldDiffEmpty(f: Field, gs: seq<Field>, path: string)
    ensures FieldDiff(f, gs, path) == [] <==> Agrees(f, gs)
    decreases f, 3
  {
    match Lookup(gs, f.key)
    case None =>
    case Some(v) => DiffValueEmpty(f.val, v, KeyPath(path, f.key));
  }

  lemma {:induction false} RightKeysEmpty(fs: seq<Field>, gs: seq<Field>, path: string, n: nat)
    requires n <= |gs|
    ensures RightKeys(fs, gs, path, n) == [] <==> forall i :: 0 <= i < n ==> HasKey(fs, gs[i].key)
  {
    if n > 0 {
      RightKeysEmpty(fs, gs, path, n - 1);
    }
  }

  /** `_deep_compare_lists` reports nothing exactly when the lists are equal. */
  lemma {:induction false} DiffListsEmpty(l1: Json, l2: Json, path: string)
    requires l1.JList? && l2.JList?
    ensures DiffLists(l1, l2, path) == [] <==> PyEq(l1, l2)
    decreases l1, 1
  {
    var xs, ys := l1.items, l2.items;
    var lo := if |xs| < |ys| then |xs| else |ys|;
    ZipEmpty(l1, ys, path, lo);
  }

  lemma {:induction false} ZipEmpty(l1: Json, ys: seq<Json>, path: string, n: nat)
    requires l1.JList? && n <= |l1.items| && n <= |ys|
    ensures ZipDiffs(l1, ys, path, n) == [] <==> forall i :: 0 <= i < n ==> PyEq(l1.items[i], ys[i])
    decreases l1, 0, n
  {
    if n > 0 {
      ZipEmpty(l1, ys, path, n - 1);
      DiffValueEmpty(l1.items[n - 1], ys[n - 1], IndexPath(path, n - 1));
      ConcatEmpty(ZipDiffs(l1, ys, path, n - 1), DiffValue(l1.items[n - 1], ys[n - 1], IndexPath(path, n - 1)));
    }
  }

  lemma ConcatEmpty(a: seq<Diff>, b: seq<Diff>)
    ensures a + b == [] <==> a == [] && b == []
  {
    if a + b == [] {
      assert |a + b| == |a| + |b|;
    }
  }

  /** In a mapping with distinct keys, looking a field's key up finds that field. */
  lemma {:induction false} LookupOwnKey(fs: seq<Field>, i: nat)
    requires i < |fs| && NoDup(Keys(fs))
    ensures Lookup(fs, fs[i].key) == Some(fs[i].val)
  {
    if i > 0 {
      assert Keys(fs[1..]) == Keys(fs)[1..];
      assert fs[0].key != fs[i].key by { assert Keys(fs)[0] != Keys(fs)[i]; }
      LookupOwnKey(fs[1..], i - 1);
    }
  }

  /** Every well-formed document equals itself. */
  lemma {:induction false} PyEqReflexive(a: Json)
    requires WellFormed(a)
    ensures PyEq(a, a)
    decreases a
  {
    match a
    case JList(xs) =>
      forall i | 0 <= i < |xs| ensures PyEq(xs[i], xs[i]) {
        PyEqReflexive(xs[i]);
      }
    case JObj(fs) =>
      forall i | 0 <= i < |fs| ensures HasKey(fs, fs[i].key) && PyEqField(fs[i], fs) {
        LookupOwnKey(fs, i);
        PyEqReflexive(fs[i].val);
      }
    case _ =>
  }

  /** Comparing a well-formed document with itself reports nothing. */
  lemma DiffSelfEmpty(d: Json, path: string)
    requires WellFormed(d)
    ensures DiffDicts(d, d, path) == []
  {
    PyEqReflexive(d);
    DiffDictsEmpty(d, d, path);
  }

  // ---------------------------------------------------------------------
  // compare_rules

  /** The rules of a rule set: the "rules" entry of a mapping that has
      one, a lone mapping as a one-rule list, a list as it is; anything
      that is still not a list counts as no rules. */
  function RuleList(doc: Json): seq<Json> {
    var l :=
      if doc.JObj? && HasKey(doc.fields, "rules") then Lookup(doc.fields, "rules").value
      else if doc.JObj? then JList([doc])
      else doc;
    if l.JList? then l.items else []
  }

  /** A rule name as a dictionary key: `True` and `1` (and `False` and
      `0`) are the same key in Python. */
  function NameKey(name: Json): Json {
    if name.JBool? then JInt(if name.b then 1 else 0) else name
  }

  /** The name of a rule the comparison indexes: a mapping with a "name" key. */
  function RuleName(rule: Json): Option<Json> {
    if rule.JObj? && HasKey(rule.fields, "name") then Lookup(rule.fields, "name") else None
  }

  /** Lists and mappings cannot be dictionary keys. */
  predicate Hashable(name: Json) {
    !name.JList? && !name.JObj?
  }

  /** The name index of the first `n` rules: a later rule with the same
      name replaces an earlier one; `None` when a name cannot be a key
      (Python raises TypeError there, and `compare_rules` does not catch it). */
  function NameIndex(rules: seq<Json>, n: nat): Option<map<Json, Json>>
    requires n <= |rules|
  {
    if n == 0 then Some(map[])
    else
      match NameIndex(rules, n - 1)
      case None => None
      case Some(m) =>
        match RuleName(rules[n - 1])
        case None => Some(m)
        case Some(name) => if Hashable(name) then Some(m[NameKey(name) := rules[n - 1]]) else None
  }

  /** The index exists exactly when every name is hashable; then it maps
      every rule's name key, and only those, to a rule of that name. */
  lemma NameIndexMeaning(rules: seq<Json>, n: nat)
    requires n <= |rules|
    ensures var r := NameIndex(rules, n);
      (r.Some? <==> forall i :: 0 <= i < n && RuleName(rules[i]).Some? ==> Hashable(RuleName(rules[i]).value))
      && (r.Some? ==> forall k :: k in r.value ==> exists i :: 0 <= i < n && RuleName(rules[i]).Some? && NameKey(RuleName(rules[i]).value) == k && r.value[k] == rules[i])
      && (r.Some? ==> forall i :: 0 <= i < n && RuleName(rules[i]).Some? ==> NameKey(RuleName(rules[i]).value) in r.value)
      && (r.Some? ==> forall i :: 0 <= i < n && LastNamed(rules, n, i) ==> r.value[NameKey(RuleName(rules[i]).value)] == rules[i])
  {
    NameIndexDefined(rules, n);
    NameIndexSound(rules, n);
    NameIndexComplete(rules, n);
    NameIndexLastWins(rules, n);
  }

  /** Rule `i` has a name, and no later rule among the first `n` has a name
      with the same key. */
  predicate LastNamed(rules: seq<Json>, n: nat, i: nat)
    requires i < n <= |rules|
  {
    RuleName(rules[i]).Some? &&
    forall j :: i < j < n && RuleName(rules[j]).Some? ==> NameKey(RuleName(rules[j]).value) != NameKey(RuleName(rules[i]).value)
  }

  /** Among rules sharing a name key, the index keeps the last one. */
  lemma {:induction false} NameIndexLastWins(rules: seq<Json>, n: nat)
    requires n <= |rules|
    ensures var r := NameIndex(rules, n);
      r.Some? ==> forall i :: 0 <= i < n && LastNamed(rules, n, i) ==> NameKey(RuleName(rules[i]).value) in r.value && r.value[NameKey(RuleName(rules[i]).value)] == rules[i]
  {
    if n > 0 && NameIndex(rules, n).Some? {
      NameIndexLastWins(rules, n - 1);
      NameIndexComplete(rules, n);
      var m := NameIndex(rules, n - 1).value;
      var r := NameIndex(rules, n).value;
      forall i | 0 <= i < n && LastNamed(rules, n, i)
        ensures NameKey(RuleName(rules[i]).value) in r && r[NameKey(RuleName(rules[i]).value)] == rules[i]
      {
        if i < n - 1 {
          assert LastNamed(rules, n - 1, i);
        }
      }
    }
  }

  lemma {:induction false} NameIndexDefined(rules: seq<Json>, n: nat)
    requires n <= |rules|
    ensures NameIndex(rules, n).Some? <==> forall i :: 0 <= i < n && RuleName(rules[i]).Some? ==> Hashable(RuleName(rules[i]).value)
  {
    if n > 0 {
      NameIndexDefined(rules, n - 1);
    }
  }

  lemma {:induction false} NameIndexSound(rules: seq<Json>, n: nat)
    requires n <= |rules|
    ensures var r := NameIndex(rules, n);
      r.Some? ==> forall k :: k in r.value ==> exists i :: 0 <= i < n && RuleName(rules[i]).Some? && NameKey(RuleName(rules[i]).value) == k && r.value[k] == rules[i]
  {
    if n > 0 && NameIndex(rules, n).Some? {
      NameIndexSound(rules, n - 1);
      var m := NameIndex(rules, n - 1).value;
      var r := NameIndex(rules, n).value;
      forall k | k in r
        ensures exists i :: 0 <= i < n && RuleName(rules[i]).Some? && NameKey(RuleName(rules[i]).value) == k && r[k] == rules[i]
      {
        if RuleName(rules[n - 1]).Some? && NameKey(RuleName(rules[n - 1]).value) == k {
          assert r[k] == rules[n - 1];
        } else {
          assert k in m && r[k] == m[k];
        }
      }
    }
  }

  lemma {:induction false} NameIndexComplete(rules: seq<Json>, n: nat)
    requires n <= |rules|
    ensures var r := NameIndex(rules, n);
      r.Some? ==> forall i :: 0 <= i < n && RuleName(rules[i]).Some? ==> NameKey(RuleName(rules[i]).value) in r.value
  {
    if n > 0 && NameIndex(rules, n).Some? {
      NameIndexComplete(rules, n - 1);
    }
  }

  /** Once a name cannot be a key, the index is not built. */
  lemma {:induction false} NameIndexFails(rules: seq<Json>, k: nat, n: nat)
    requires k <= n <= |rules| && NameIndex(rules, k).None?
    ensures NameIndex(rules, n).None?
  {
    if k < n {
      NameIndexFails(rules, k, n - 1);
      var prev := NameIndex(rules, n - 1);
      assert prev.None?;
    }
  }

  /** A rule present in both sets whose two versions differ. */
  datatype Modified = Modified(rules1: Json, rules2: Json, differences: seq<Diff>)

  /** The result of `compare_rules`, each list keyed by rule name. */
  datatype Comparison = Comparison(onlyIn1: map<Json, Json>, onlyIn2: map<Json, Json>, modified: map<Json, Modified>)

  /** The rules of one index whose names the other lacks. */
  function OnlyIn(m1: map<Json, Json>, m2: map<Json, Json>): (r: map<Json, Json>)
    ensures forall k :: k in r <==> k in m1 && k !in m2
    ensures forall k :: k in r ==> r[k] == m1[k]
  {
    map k | k in m1 && k !in m2 :: m1[k]
  }

  /** The common rules whose deep comparison reports something. */
  function ModifiedRules(m1: map<Json, Json>, m2: map<Json, Json>): (r: map<Json, Modified>)
    ensures forall k :: k in r <==> k in m1 && k in m2 && DiffDicts(m1[k], m2[k], "") != []
  {
    map k | k in m1 && k in m2 && DiffDicts(m1[k], m2[k], "") != [] :: Modified(m1[k], m2[k], DiffDicts(m1[k], m2[k], ""))
  }

  /** `compare_rules` as a function of the two rule sets. */
  function Comparing(rules1: Json, rules2: Json): Option<Comparison> {
    var l1, l2 := RuleList(rules1), RuleList(rules2);
    match (NameIndex(l1, |l1|), NameIndex(l2, |l2|))
    case (Some(m1), Some(m2)) => Some(Comparison(OnlyIn(m1, m2), OnlyIn(m2, m1), ModifiedRules(m1, m2)))
    case _ => None
  }

  /** Building one name index, as the agent's loop does. */
  method IndexRules(rules: seq<Json>) returns (index: Option<map<Json, Json>>)
    ensures index == NameIndex(rules, |rules|)
  {
    var m: map<Json, Json> := map[];
    var i := 0;
    while i < |rules|
      invariant 0 <= i <= |rules|
      invariant NameIndex(rules, i) == Some(m)
    {
      var name := RuleName(rules[i]);
      if name.Some? {
        if !Hashable(name.value) {
          NameIndexFails(rules, i + 1, |rules|);
          return None;
        }
        m := m[NameKey(name.value) := rules[i]];
      }
      i := i + 1;
    }
    return Some(m);
  }

  /** `compare_rules`. */
  method CompareRules(rules1: Json, rules2: Json) returns (result: Option<Comparison>)
    ensures result == Comparing(rules1, rules2)
  {
    var l1, l2 := RuleList(rules1), RuleList(rules2);
    var index1 := IndexRules(l1);
    var index2 := IndexRules(l2);
    if index1.None? || index2.None? {
      return None;
    }
    var m1, m2 := index1.value, index2.value;
    var modified := CollectModified(m1, m2);
    result := Some(Comparison(OnlyIn(m1, m2), OnlyIn(m2, m1), modified));
  }

  /** The loop of `compare_rules` over the names both sets have. */
  method CollectModified(m1: map<Json, Json>, m2: map<Json, Json>) returns (modified: map<Json, Modified>)
    ensures modified == ModifiedRules(m1, m2)
  {
    modified := map[];
    var common := m1.Keys * m2.Keys;
    ghost var done: set<Json> := {};
    while common != {}
      invariant common !! done && common + done == m1.Keys * m2.Keys
      invariant forall k :: k in modified <==> k in done && DiffDicts(m1[k], m2[k], "") != []
      invariant forall k :: k in modified ==> modified[k] == Modified(m1[k], m2[k], DiffDicts(m1[k], m2[k], ""))
      decreases common
    {
      var name :| name in common;
      var diffs := DeepCompareDicts(m1[name], m2[name], "");
      if diffs != [] {
        modified := modified[name := Modified(m1[name], m2[name], diffs)];
      }
      common := common - {name};
      done := done + {name};
    }
    ghost var want := ModifiedRules(m1, m2);
    assert modified.Keys == want.Keys;
  }

  /** A common rule is reported as modified exactly when its two versions
      are not equal, and what is reported are the two versions and their
      differences. */
  lemma ModifiedMeansUnequal(rules1: Json, rules2: Json, name: Json)
    requires Comparing(rules1, rules2).Some?
    ensures var c := Comparing(rules1, rules2).value;
      var m1, m2 := NameIndex(RuleList(rules1), |RuleList(rules1)|).value, NameIndex(RuleList(rules2), |RuleList(rules2)|).value;
      (name in c.modified <==> name in m1 && name in m2 && !PyEq(m1[name], m2[name]))
      && (name in c.modified ==> c.modified[name].rules1 == m1[name] && c.modified[name].rules2 == m2[name]
                                   && c.modified[name].differences != [])
  {
    var m1, m2 := NameIndex(RuleList(rules1), |RuleList(rules1)|).value, NameIndex(RuleList(rules2), |RuleList(rules2)|).value;
    if name in m1 && name in m2 {
      DiffDictsEmpty(m1[name], m2[name], "");
    }
  }

  /** Swapping the two rule sets swaps the two "only in" lists and keeps
      the set of modified names. */
  lemma CompareSwapped(rules1: Json, rules2: Json)
    requires Comparing(rules1, rules2).Some?
    requires forall i :: 0 <= i < |RuleList(rules1)| ==> WellFormed(RuleList(rules1)[i])
    requires forall i :: 0 <= i < |RuleList(rules2)| ==> WellFormed(RuleList(rules2)[i])
    ensures Comparing(rules2, rules1).Some?
    ensures Comparing(rules2, rules1).value.onlyIn1 == Comparing(rules1, rules2).value.onlyIn2
    ensures Comparing(rules2, rules1).value.onlyIn2 == Comparing(rules1, rules2).value.onlyIn1
    ensures Comparing(rules2, rules1).value.modified.Keys == Comparing(rules1, rules2).value.modified.Keys
  {
    var l1, l2 := RuleList(rules1), RuleList(rules2);
    var m1, m2 := NameIndex(l1, |l1|).value, NameIndex(l2, |l2|).value;
    NameIndexMeaning(l1, |l1|);
    NameIndexMeaning(l2, |l2|);
    forall k | k in m1 && k in m2 ensures DiffDicts(m1[k], m2[k], "") != [] <==> DiffDicts(m2[k], m1[k], "") != [] {
      var i :| 0 <= i < |l1| && RuleName(l1[i]).Some? && NameKey(RuleName(l1[i]).value) == k && m1[k] == l1[i];
      var j :| 0 <= j < |l2| && RuleName(l2[j]).Some? && NameKey(RuleName(l2[j]).value) == k && m2[k] == l2[j];
      DiffDictsSwapped(m1[k], m2[k]);
    }
    ModifiedKeysSwapped(m1, m2);
  }

  /** Two well-formed documents differ in either order or in neither. */
  lemma DiffDictsSwapped(a: Json, b: Json)
    requires WellFormed(a) && WellFormed(b)
    ensures DiffDicts(a, b, "") != [] <==> DiffDicts(b, a, "") != []
  {
    DiffDictsEmpty(a, b, "");
    DiffDictsEmpty(b, a, "");
    PyEqSymmetric(a, b);
  }

  lemma ModifiedKeysSwapped(m1: map<Json, Json>, m2: map<Json, Json>)
    requires forall k :: k in m1 && k in m2 ==> (DiffDicts(m1[k], m2[k], "") != [] <==> DiffDicts(m2[k], m1[k], "") != [])
    ensures ModifiedRules(m2, m1).Keys == ModifiedRules(m1, m2).Keys
  {
  }

  /** Python's equality does not depend on the order of its operands. */
  lemma {:induction false} PyEqSymmetric(a: Json, b: Json)
    requires WellFormed(a) && WellFormed(b)
    ensures PyEq(a, b) <==> PyEq(b, a)
    decreases a, 1
  {
    if a.JList? && b.JList? {
      var xs, ys := a.items, b.items;
      if |xs| == |ys| {
        forall i | 0 <= i < |xs| ensures PyEq(xs[i], ys[i]) <==> PyEq(ys[i], xs[i]) {
          PyEqSymmetric(xs[i], ys[i]);
        }
      }
    } else if a.JObj? && b.JObj? {
      FieldsCovered(a, b, a);
      FieldsCovered(b, a, a);
    }
  }

  /** When every field of the mapping `a` equals its partner in `b` and
      the two have the same keys, every field of `b` equals its partner
      in `a`. (`orig` is the operand the induction runs on.) */
  lemma FieldsCovered(a: Json, b: Json, orig: Json)
    requires a.JObj? && b.JObj? && WellFormed(a) && WellFormed(b)
    requires orig == a || orig == b
    ensures (forall i :: 0 <= i < |a.fields| ==> HasKey(b.fields, a.fields[i].key))
      && (forall j :: 0 <= j < |b.fields| ==> HasKey(a.fields, b.fields[j].key))
      && (forall i :: 0 <= i < |a.fields| ==> PyEqField(a.fields[i], b.fields))
      ==> forall j :: 0 <= j < |b.fields| ==> PyEqField(b.fields[j], a.fields)
    decreases orig, 0
  {
    var fs, gs := a.fields, b.fields;
    if (forall j :: 0 <= j < |gs| ==> HasKey(fs, gs[j].key)) && (forall i :: 0 <= i < |fs| ==> PyEqField(fs[i], gs)) {
      forall j | 0 <= j < |gs| ensures PyEqField(gs[j], fs) {
        var i :| 0 <= i < |fs| && fs[i].key == gs[j].key;
        LookupOwnKey(fs, i);
        LookupOwnKey(gs, j);
        if orig == a {
          assert fs[i] in fs;
          PyEqSymmetric(fs[i].val, gs[j].val);
        } else {
          assert gs[j] in gs;
          PyEqSymmetric(gs[j].val, fs[i].val);
        }
      }
    }
  }

  /** A rule set compared with itself: nothing only on one side and
      nothing modified, provided its rules are well-formed documents. */
  lemma CompareSelf(rules: Json)
    requires forall i :: 0 <= i < |RuleList(rules)| ==> WellFormed(RuleList(rules)[i])
    requires Comparing(rules, rules).Some?
    ensures Comparing(rules, rules).value == Comparison(map[], map[], map[])
  {
    var l := RuleList(rules);
    var m := NameIndex(l, |l|).value;
    NameIndexMeaning(l, |l|);
    forall k | k in m ensures DiffDicts(m[k], m[k], "") == [] {
      var i :| 0 <= i < |l| && RuleName(l[i]).Some? && NameKey(RuleName(l[i]).value) == k && m[k] == l[i];
      DiffSelfEmpty(l[i], "");
    }
    assert ModifiedRules(m, m) == map[];
  }
}

=== FILE: csv_escape.dfy ===
/** Escaping of pattern values for CSV storage (`_escape_pattern`) and
    its inverse (`_unescape_pattern`). */
module CsvEscape {
  import opened Text

  /** `s.replace(pat, rep)`: every occurrence of `pat`, found left to right
      without overlap, replaced by `rep`. */
  function Replace(s: string, pat: string, rep: string): string
    requires |pat| > 0
    decreases |s|
  {
    if |s| == 0 then ""
    else if StartsWith(s, pat) then rep + Replace(s[|pat|..], pat, rep)
    else [s[0]] + Replace(s[1..], pat, rep)
  }

  /** The characters whose presence makes a value need escaping. */
  predicate IsCsvSpecial(c: char) {
    c == ',' || c == '"' || c == '\'' || c == '\\' || c == '\n' || c == '\r' || c == ';'
  }

  predicate NeedsSpecial(value: string) {
    exists i :: 0 <= i < |value| && IsCsvSpecial(value[i])
  }

  /** `_escape_pattern` on a string: the value, with backslashes doubled
      and then quotes backslash-escaped when it holds a special character,
      together with that flag. */
  function EscapePattern(value: string): (string, bool) {
    if NeedsSpecial(value) then (Replace(Replace(value, "\\", "\\\\"), "\"", "\\\""), true)
    else (value, false)
  }

  /** `_unescape_pattern` on a string: `\"` back to `"`, then `\\` back to `\`. */
  function UnescapePattern(value: string): string {
    Replace(Replace(value, "\\\"", "\""), "\\\\", "\\")
  }

  /** The escape of one character. */
  function EscChar(c: char): string {
    if c == '\\' then "\\\\" else if c == '"' then "\\\"" else [c]
  }

  /** Both replacements of `_escape_pattern`, character by character. */
  function EscChars(s: string): string {
    if |s| == 0 then "" else EscChar(s[0]) + EscChars(s[1..])
  }

  /** Backslashes doubled, nothing else changed. */
  function Doubled(s: string): string {
    if |s| == 0 then "" else (if s[0] == '\\' then "\\\\" else [s[0]]) + Doubled(s[1..])
  }

  lemma {:induction false} DoubleBackslashes(s: string)
    ensures Replace(s, "\\", "\\\\") == Doubled(s)
  {
    if |s| > 0 {
      DoubleBackslashes(s[1..]);
      assert StartsWith(s, "\\") <==> s[0] == '\\';
    }
  }

  lemma {:induction false} EscapeQuotes(s: string)
    ensures Replace(Doubled(s), "\"", "\\\"") == EscChars(s)
  {
    if |s| > 0 {
      EscapeQuotes(s[1..]);
      var d := Doubled(s[1..]);
      if s[0] == '\\' {
        assert Doubled(s) == "\\\\" + d;
        assert ("\\\\" + d)[1..] == "\\" + d;
        assert ("\\" + d)[1..] == d;
      } else {
        assert Doubled(s) == [s[0]] + d;
        assert ([s[0]] + d)[1..] == d;
      }
    }
  }

  lemma {:induction false} EscCharsHead(s: string)
    ensures |EscChars(s)| > 0 ==> EscChars(s)[0] != '"'
    ensures |EscChars(s)| > 0 <==> |s| > 0
  {
  }

  /** Undoing the quote escapes of an escaped value leaves the doubled backslashes. */
  lemma {:induction false} UnescapeQuotes(s: string)
    ensures Replace(EscChars(s), "\\\"", "\"") == Doubled(s)
  {
    if |s| > 0 {
      var rest := EscChars(s[1..]);
      UnescapeQuotes(s[1..]);
      if s[0] == '\\' {
        EscCharsHead(s[1..]);
        assert EscChars(s) == "\\\\" + rest;
        ReplaceBackslashes(rest);
      } else if s[0] == '"' {
        assert EscChars(s) == "\\\"" + rest;
        ReplaceAtStart(rest, "\\\"", "\"");
      } else {
        assert EscChars(s) == [s[0]] + rest;
        assert ([s[0]] + rest)[0] != '\\';
        ReplaceSkip(s[0], rest, "\\\"", "\"");
      }
    }
  }

  /** A doubled backslash not followed by a quote is kept by the quote unescape. */
  lemma ReplaceBackslashes(rest: string)
    requires |rest| > 0 ==> rest[0] != '"'
    ensures Replace("\\\\" + rest, "\\\"", "\"") == "\\\\" + Replace(rest, "\\\"", "\"")
  {
    var pat, rep := "\\\"", "\"";
    var t := ['\\'] + rest;
    NoEscapedQuoteAt(rest);
    ReplaceSkip('\\', rest, pat, rep);
    NoEscapedQuoteAt(t);
    ReplaceSkip('\\', t, pat, rep);
    BackslashPair(rest);
    BackslashPair(Replace(rest, pat, rep));
  }

  lemma NoEscapedQuoteAt(rest: string)
    requires |rest| > 0 ==> rest[0] != '"'
    ensures !StartsWith(['\\'] + rest, "\\\"")
  {
    if |rest| > 0 {
      assert (['\\'] + rest)[1] == rest[0];
    }
  }

  lemma BackslashPair(rest: string)
    ensures "\\\\" + rest == ['\\'] + (['\\'] + rest)
  {
  }

  lemma ReplaceAtStart(rest: string, pat: string, rep: string)
    requires |pat| > 0
    ensures Replace(pat + rest, pat, rep) == rep + Replace(rest, pat, rep)
  {
    assert (pat + rest)[|pat|..] == rest;
  }

  lemma ReplaceSkip(c: char, rest: string, pat: string, rep: string)
    requires |pat| > 0 && !StartsWith([c] + rest, pat)
    ensures Replace([c] + rest, pat, rep) == [c] + Replace(rest, pat, rep)
  {
    assert ([c] + rest)[1..] == rest;
  }

  lemma {:induction false} UndoubleBackslashes(s: string)
    ensures Replace(Doubled(s), "\\\\", "\\") == s
  {
    if |s| > 0 {
      var rest := Doubled(s[1..]);
      UndoubleBackslashes(s[1..]);
      if s[0] == '\\' {
        assert Doubled(s) == "\\\\" + rest;
        assert ("\\\\" + rest)[2..] == rest;
      } else {
        assert Doubled(s) == [s[0]] + rest;
        assert ([s[0]] + rest)[1..] == rest;
      }
      assert s == [s[0]] + s[1..];
    }
  }

  /** Replacing a pattern that starts with a backslash changes nothing in
      a value without backslashes. */
  lemma {:induction false} ReplaceWithoutBackslash(s: string, pat: string, rep: string)
    requires |pat| > 0 && pat[0] == '\\'
    requires forall i :: 0 <= i < |s| ==> s[i] != '\\'
    ensures Replace(s, pat, rep) == s
  {
    if |s| > 0 {
      ReplaceWithoutBackslash(s[1..], pat, rep);
      assert s == [s[0]] + s[1..];
    }
  }

  /** Unescaping an escaped value gives the value back, whether or not it
      needed escaping. */
  lemma UnescapeEscape(value: string)
    ensures UnescapePattern(EscapePattern(value).0) == value
  {
    if NeedsSpecial(value) {
      DoubleBackslashes(value);
      EscapeQuotes(value);
      UnescapeQuotes(value);
      UndoubleBackslashes(value);
    } else {
      ReplaceWithoutBackslash(value, "\\\"", "\"");
      ReplaceWithoutBackslash(value, "\\\\", "\\");
    }
  }
}

=== FILE: domain_regex.dfy ===
/** The two builders that turn a sender address or domain into a rule
    pattern: the anchor-label regex used for new block rules, and the
    registrable-domain regex used for new safe senders. */
module DomainRegex {
  import opened Text

  /** The characters Python's `re.escape` puts a backslash before. */
  predicate IsRegexSpecial(c: char) {
    c in "()[]{}?*+-|^$\\.&~# \t\n\r\U{000B}\U{000C}"
  }

  /** `re.escape(s)`. */
  function PyEscape(s: string): (r: string)
    ensures |r| >= |s|
  {
    if |s| == 0 then ""
    else (if IsRegexSpecial(s[0]) then ['\\', s[0]] else [s[0]]) + PyEscape(s[1..])
  }

  /** How a regular expression reads an escaped literal back: a backslash
      stands for the character after it. */
  function ReadLiteral(r: string): string
    decreases |r|
  {
    if |r| == 0 then ""
    else if r[0] == '\\' && |r| >= 2 then [r[1]] + ReadLiteral(r[2..])
    else [r[0]] + ReadLiteral(r[1..])
  }

  /** An escaped label is read back as the label itself: the pattern
      matches the label literally. */
  lemma {:induction false} ReadEscaped(s: string)
    ensures ReadLiteral(PyEscape(s)) == s
  {
    if |s| > 0 {
      var rest := PyEscape(s[1..]);
      ReadEscaped(s[1..]);
      if IsRegexSpecial(s[0]) {
        assert PyEscape(s) == ['\\', s[0]] + rest;
        assert (['\\', s[0]] + rest)[2..] == rest;
      } else {
        assert s[0] != '\\';
        assert PyEscape(s) == [s[0]] + rest;
        assert ([s[0]] + rest)[1..] == rest;
      }
      assert s == [s[0]] + s[1..];
    }
  }

  /** Every special character of an escaped string is preceded by a backslash. */
  lemma {:induction false} EscapedSpecialsArePrefixed(s: string, i: nat)
    requires i < |PyEscape(s)| && IsRegexSpecial(PyEscape(s)[i]) && PyEscape(s)[i] != '\\'
    ensures i > 0 && PyEscape(s)[i - 1] == '\\'
  {
    var rest := PyEscape(s[1..]);
    if IsRegexSpecial(s[0]) {
      assert PyEscape(s) == ['\\', s[0]] + rest;
      if i >= 2 {
        EscapedSpecialsArePrefixed(s[1..], i - 2);
      }
    } else {
      assert PyEscape(s) == [s[0]] + rest;
      assert i > 0;
      EscapedSpecialsArePrefixed(s[1..], i - 1);
      if i == 1 {
        assert false;
      }
    }
  }

  /** The domain part of an address: what follows a leading '@', else what
      follows the first '@', else the whole (stripped, lower-cased) input. */
  function DomainPart(addr: string): (d: string)
    ensures |d| <= |addr|
  {
    var s := Lower(Strip(addr));
    StripIsTrimmedSlice(addr);
    if StartsWith(s, "@") then s[1..]
    else
      var k := IndexOf(s, '@');
      if k < |s| then s[k + 1..] else s
  }

  /** The parts that are not empty, in order. */
  function NonEmptyParts(parts: seq<string>): (r: seq<string>)
    ensures forall i :: 0 <= i < |r| ==> r[i] != "" && r[i] in parts
    ensures forall p :: p in parts && p != "" ==> p in r
  {
    if |parts| == 0 then []
    else (if parts[0] != "" then [parts[0]] else []) + NonEmptyParts(parts[1..])
  }

  lemma {:induction false} NonEmptyPartsKeepsNoSep(parts: seq<string>, sep: char)
    requires forall i :: 0 <= i < |parts| ==> sep !in parts[i]
    ensures forall i :: 0 <= i < |NonEmptyParts(parts)| ==> sep !in NonEmptyParts(parts)[i]
  {
    forall i | 0 <= i < |NonEmptyParts(parts)| ensures sep !in NonEmptyParts(parts)[i] {
      var p := NonEmptyParts(parts)[i];
      assert p in parts;
    }
  }

  /** `[lbl for lbl in domain.strip('.').split('.') if lbl]`. */
  function Labels(domain: string): (ls: seq<string>)
    ensures forall i :: 0 <= i < |ls| ==> ls[i] != "" && '.' !in ls[i]
  {
    var parts := Split(StripChars(domain, {'.'}), '.');
    NonEmptyPartsKeepsNoSep(parts, '.');
    NonEmptyParts(parts)
  }

  /** The infrastructure and generic labels never chosen as an anchor. */
  const SkipLabels: set<string> := {
    "www", "mail", "smtp", "mx", "ns", "cdn", "img", "static", "assets",
    "api", "dev", "test", "stg", "stage", "beta",
    "co", "com", "net", "org", "gov", "edu", "mil", "biz", "info",
    "news", "shop", "store", "support"
  }

  predicate IsLabelChar(c: char) {
    ('a' <= c <= 'z') || ('0' <= c <= '9') || c == '-'
  }

  /** A label worth anchoring on: not in `SkipLabels`, and fully matching
      `[a-z0-9-]{3,}`. */
  predicate IsAnchorLabel(l: string) {
    l !in SkipLabels && |l| >= 3 && forall i :: 0 <= i < |l| ==> IsLabelChar(l[i])
  }

  /** The scan from label `i` down to label 0: the index of the first
      label met that is worth anchoring on, or -1. */
  function ScanAnchor(labels: seq<string>, i: int): (k: int)
    requires -1 <= i < |labels|
    ensures -1 <= k <= i
    ensures k >= 0 ==> IsAnchorLabel(labels[k])
    ensures forall j :: k < j <= i ==> !IsAnchorLabel(labels[j])
    decreases i + 1
  {
    if i < 0 then -1
    else if IsAnchorLabel(labels[i]) then i
    else ScanAnchor(labels, i - 1)
  }

  /** The anchor of a domain with two or more labels. */
  function Anchor(labels: seq<string>): string
    requires |labels| >= 2
  {
    var k := ScanAnchor(labels, |labels| - 2);
    if k >= 0 then labels[k] else labels[|labels| - 2]
  }

  /** The anchor is the right-most label, the last one excluded, that is
      worth anchoring on; when there is none, the second-to-last label. */
  lemma AnchorIsRightmostQualifying(labels: seq<string>)
    requires |labels| >= 2
    ensures (exists k :: 0 <= k <= |labels| - 2 && IsAnchorLabel(labels[k])) ==>
      exists k :: 0 <= k <= |labels| - 2 && Anchor(labels) == labels[k] && IsAnchorLabel(labels[k])
                  && forall j :: k < j <= |labels| - 2 ==> !IsAnchorLabel(labels[j])
    ensures (forall k :: 0 <= k <= |labels| - 2 ==> !IsAnchorLabel(labels[k])) ==>
      Anchor(labels) == labels[|labels| - 2]
  {
    var k := ScanAnchor(labels, |labels| - 2);
    if k >= 0 {
      assert Anchor(labels) == labels[k];
    }
  }

  /** The anchors the agent's tests expect: the last label that is not
      a short suffix label, here behind three short ones. */
  lemma AnchorExampleDeep()
    ensures Anchor(["a", "b", "c", "ygllc", "d", "e", "f"]) == "ygllc"
  {
    var l1 := ["a", "b", "c", "ygllc", "d", "e", "f"];
    assert IsAnchorLabel(l1[3]) && !IsAnchorLabel(l1[4]) && !IsAnchorLabel(l1[5]);
    assert ScanAnchor(l1, 3) == 3;
    assert ScanAnchor(l1, 5) == ScanAnchor(l1, 4) == 3;
  }

  lemma AnchorExampleShallow()
    ensures Anchor(["x", "y", "z", "acme", "q", "r"]) == "acme"
  {
    var l2 := ["x", "y", "z", "acme", "q", "r"];
    assert IsAnchorLabel(l2[3]) && !IsAnchorLabel(l2[4]);
    assert ScanAnchor(l2, 4) == ScanAnchor(l2, 3) == 3;
  }

  /** With a plain top-level domain the anchor is the label before it. */
  lemma AnchorExampleSubdomains()
    ensures Anchor(["sub", "sub2", "widgets", "com"]) == "widgets"
    ensures Anchor(["widgets", "com"]) == "widgets"
  {
    assert IsAnchorLabel("widgets");
  }

  const AnchorPrefix: string := "@(?:[a-z0-9-]+\\.)*"
  const AnchorSuffix: string := "\\.[a-z0-9.-]+$"

  /** `build_domain_regex_from_address`: with no label, the input itself;
      otherwise `@(?:[a-z0-9-]+\.)*<anchor>\.[a-z0-9.-]+$` around the
      escaped anchor, the only label when there is one. */
  function BuildDomainRegex(addr: string): (r: string)
    ensures Labels(DomainPart(addr)) == [] ==> r == addr
    ensures Labels(DomainPart(addr)) != [] ==>
      |r| >= |AnchorPrefix| + |AnchorSuffix|
      && r[..|AnchorPrefix|] == AnchorPrefix && r[|r| - |AnchorSuffix|..] == AnchorSuffix
  {
    var labels := Labels(DomainPart(addr));
    if |labels| == 0 then addr
    else
      var anchor := if |labels| == 1 then labels[0] else Anchor(labels);
      AnchorRegexShape(anchor);
      AnchorPrefix + PyEscape(anchor) + AnchorSuffix
  }

  lemma AnchorRegexShape(anchor: string)
    ensures var r := AnchorPrefix + PyEscape(anchor) + AnchorSuffix;
      |r| >= |AnchorPrefix| + |AnchorSuffix|
      && r[..|AnchorPrefix|] == AnchorPrefix && r[|r| - |AnchorSuffix|..] == AnchorSuffix
      && r[|AnchorPrefix|..|r| - |AnchorSuffix|] == PyEscape(anchor)
  {
  }

  /** The label a built rule anchors on, read back from the pattern: the
      only label, or the `Anchor` of several. */
  lemma BuiltRegexAnchorsOn(addr: string)
    requires Labels(DomainPart(addr)) != []
    ensures var labels := Labels(DomainPart(addr));
            var r := BuildDomainRegex(addr);
            ReadLiteral(r[|AnchorPrefix|..|r| - |AnchorSuffix|])
              == (if |labels| == 1 then labels[0] else Anchor(labels))
  {
    var labels := Labels(DomainPart(addr));
    var anchor := if |labels| == 1 then labels[0] else Anchor(labels);
    AnchorRegexShape(anchor);
    ReadEscaped(anchor);
  }

  /** Two-label public suffixes under which the registrable domain has three labels. */
  const MultiPartSuffixes: set<string> := {
    "co.uk", "ac.uk", "gov.uk", "org.uk",
    "com.au", "net.au", "org.au",
    "com.br", "com.cn", "co.jp"
  }

  /** `'.'.join(labels[-2:])`. */
  function LastTwo(labels: seq<string>): string
    requires |labels| >= 2
  {
    labels[|labels| - 2] + "." + labels[|labels| - 1]
  }

  /** How many trailing labels form the registrable domain. */
  function BaseLabelCount(labels: seq<string>): (k: nat)
    requires |labels| >= 2
    ensures k == 2 || k == 3
    ensures k <= |labels|
  {
    if LastTwo(labels) in MultiPartSuffixes && |labels| >= 3 then 3 else 2
  }

  /** The domain of a safe-sender address, its surrounding dots removed. */
  function SafeDomain(addr: string): string {
    StripChars(DomainPart(addr), {'.'})
  }

  /** The registrable part of a non-empty domain. */
  function RegistrableBase(dom: string): string {
    var labels := Labels(dom);
    if |labels| >= 2 then BaseOf(labels) else dom
  }

  /** The last two labels, or the last three, joined with dots. */
  function BaseOf(labels: seq<string>): string
    requires |labels| >= 2
  {
    if BaseLabelCount(labels) == 3 then labels[|labels| - 3] + "." + LastTwo(labels) else LastTwo(labels)
  }

  const SafePrefix: string := "^[^@\\s]+@(?:[a-z0-9-]+\\.)*"

  /** `build_sender_domain_safe_regex`: '' for an empty domain, otherwise
      `^[^@\s]+@(?:[a-z0-9-]+\.)*<base>$` around the escaped registrable base. */
  function BuildSenderDomainSafeRegex(addr: string): (r: string)
    ensures SafeDomain(addr) == "" <==> r == ""
    ensures r != "" ==> |r| > |SafePrefix| && r[..|SafePrefix|] == SafePrefix && r[|r| - 1] == '$'
                        && ReadLiteral(r[|SafePrefix|..|r| - 1]) == RegistrableBase(SafeDomain(addr))
  {
    var dom := SafeDomain(addr);
    if dom == "" then ""
    else
      var base := RegistrableBase(dom);
      SafeRegexShape(base);
      SafePrefix + PyEscape(base) + "$"
  }

  lemma SafeRegexShape(base: string)
    ensures var r := SafePrefix + PyEscape(base) + "$";
      |r| > |SafePrefix| && r[..|SafePrefix|] == SafePrefix && r[|r| - 1] == '$'
      && ReadLiteral(r[|SafePrefix|..|r| - 1]) == base
  {
    var r := SafePrefix + PyEscape(base) + "$";
    assert r[|SafePrefix|..|r| - 1] == PyEscape(base);
    ReadEscaped(base);
  }

  /** The registrable base is made of the domain's last two labels, or of
      its last three when the last two form a listed multi-part suffix. */
  lemma RegistrableBaseLabels(dom: string)
    requires |Labels(dom)| >= 2
    ensures var labels := Labels(dom);
            var k := if LastTwo(labels) in MultiPartSuffixes && |labels| >= 3 then 3 else 2;
            Split(RegistrableBase(dom), '.') == labels[|labels| - k..]
  {
    BaseSplit(Labels(dom));
  }

  lemma BaseSplit(labels: seq<string>)
    requires |labels| >= 2
    requires forall i :: 0 <= i < |labels| ==> '.' !in labels[i]
    ensures Split(BaseOf(labels), '.') == labels[|labels| - BaseLabelCount(labels)..]
  {
    BaseIsJoinedTail(labels);
    TailSplit(labels, BaseLabelCount(labels));
  }

  lemma BaseIsJoinedTail(labels: seq<string>)
    requires |labels| >= 2
    ensures BaseOf(labels) == Join(labels[|labels| - BaseLabelCount(labels)..], ".")
  {
    var n := |labels|;
    if BaseLabelCount(labels) == 3 {
      assert labels[n - 3..] == [labels[n - 3], labels[n - 2], labels[n - 1]];
      JoinThree(labels[n - 3], labels[n - 2], labels[n - 1]);
    } else {
      assert labels[n - 2..] == [labels[n - 2], labels[n - 1]];
      JoinTwo(labels[n - 2], labels[n - 1]);
    }
  }

  lemma TailSplit(labels: seq<string>, k: nat)
    requires 1 <= k <= |labels|
    requires forall i :: 0 <= i < |labels| ==> '.' !in labels[i]
    ensures Split(Join(labels[|labels| - k..], "."), '.') == labels[|labels| - k..]
  {
    var tail := labels[|labels| - k..];
    forall i | 0 <= i < |tail| ensures '.' !in tail[i] {
      assert tail[i] == labels[|labels| - k + i];
    }
    SplitJoin(tail, '.');
  }

  lemma JoinTwo(a: string, b: string)
    ensures Join([a, b], ".") == a + "." + b
  {
    assert [a, b][1..] == [b];
  }

  lemma JoinThree(a: string, b: string, c: string)
    ensures Join([a, b, c], ".") == a + "." + (b + "." + c)
  {
    assert [a, b, c][1..] == [b, c];
    JoinTwo(b, c);
  }
}

=== FILE: export.dfy ===
/** What `export_safe_senders_to_yaml` and `export_rules_to_yaml` do to a
    document before it is written: the safe-sender list and every rule's
    condition lists become lower-cased, stripped, de-duplicated and
    sorted; every rule is stamped with the export time; every leaf of the
    rules becomes a string. Writing the YAML file and the backup copy are
    not modelled. */
module Export {
  import opened Wrappers
  import opened Text
  import opened Lists
  import opened JsonDoc

  /** What an export call returns: `None` for a missing document, `False`
      for one it cannot handle, and otherwise the document it writes. */
  datatype Outcome = NoInput | Failed | Exported(doc: Json)

  // ---------------------------------------------------------------------
  // Pattern lists

  function Strs(items: seq<Json>): (r: seq<string>)
    requires forall i :: 0 <= i < |items| ==> items[i].JStr?
    ensures |r| == |items|
    ensures forall i :: 0 <= i < |items| ==> r[i] == items[i].s
  {
    if |items| == 0 then [] else [items[0].s] + Strs(items[1..])
  }

  function JStrs(xs: seq<string>): (r: seq<Json>)
    ensures |r| == |xs|
    ensures forall i :: 0 <= i < |xs| ==> r[i] == JStr(xs[i])
  {
    if |xs| == 0 then [] else [JStr(xs[0])] + JStrs(xs[1..])
  }

  function CanonAll(xs: seq<string>): seq<string>
  {
    seq(|xs|, i requires 0 <= i < |xs| => Canon(xs[i]))
  }

  /** `sorted(list(dict.fromkeys([x.lower().strip() for x in xs])))`. */
  function CanonicalList(xs: seq<string>): seq<string> {
    Sort(Dedupe(CanonAll(xs)))
  }

  /** A list in the form the exporter writes: strictly ascending, each
      entry already lower-cased and stripped. */
  predicate IsCanonicalList(xs: seq<string>) {
    StrictlyAscending(xs) && forall i :: 0 <= i < |xs| ==> Canon(xs[i]) == xs[i]
  }

  /** Every normalised entry is its own normal form. */
  lemma CanonAllFixed(xs: seq<string>)
    ensures forall i :: 0 <= i < |xs| ==> Canon(CanonAll(xs)[i]) == CanonAll(xs)[i]
  {
    forall i | 0 <= i < |xs| ensures Canon(CanonAll(xs)[i]) == CanonAll(xs)[i] {
      CanonIdempotent(xs[i]);
    }
  }

  /** The canonical list is sorted without repeats, holds only normalised
      entries, and holds exactly the normalised forms of the input. */
  lemma CanonicalListProps(xs: seq<string>)
    ensures IsCanonicalList(CanonicalList(xs))
    ensures forall p :: p in CanonicalList(xs) <==> exists i :: 0 <= i < |xs| && Canon(xs[i]) == p
  {
    var c := CanonAll(xs);
    SortDedupe(c);
    CanonAllFixed(xs);
    CanonicalEntries(c, CanonicalList(xs));
    CanonAllMembers(xs);
  }

  lemma CanonicalEntries(c: seq<string>, r: seq<string>)
    requires forall i :: 0 <= i < |c| ==> Canon(c[i]) == c[i]
    requires forall p :: p in r ==> p in c
    ensures forall i :: 0 <= i < |r| ==> Canon(r[i]) == r[i]
  {
    forall i | 0 <= i < |r| ensures Canon(r[i]) == r[i] {
      assert r[i] in c;
    }
  }

  lemma CanonAllMembers(xs: seq<string>)
    ensures forall p :: p in CanonAll(xs) <==> exists i :: 0 <= i < |xs| && Canon(xs[i]) == p
  {
    var c := CanonAll(xs);
    assert |c| == |xs| && forall i :: 0 <= i < |xs| ==> c[i] == Canon(xs[i]);
    forall p ensures p in c <==> exists i :: 0 <= i < |xs| && Canon(xs[i]) == p {
      if p in c {
        var i :| 0 <= i < |c| && c[i] == p;
        assert Canon(xs[i]) == p;
      }
      if exists i :: 0 <= i < |xs| && Canon(xs[i]) == p {
        var i :| 0 <= i < |xs| && Canon(xs[i]) == p;
        assert c[i] == p;
      }
    }
  }

  /** A list already in canonical form is its own canonical form. */
  lemma CanonicalListFixed(xs: seq<string>)
    requires IsCanonicalList(xs)
    ensures CanonicalList(xs) == xs
  {
    assert CanonAll(xs) == xs;
    StrictIsAscendingNoDup(xs);
    DedupeOfNoDup(xs);
    SortOfStrictlyAscending(xs);
  }

  // ---------------------------------------------------------------------
  // export_safe_senders_to_yaml

  /** The strings `for item in value` yields: a list of strings as it is,
      a string as its characters, a mapping as its keys; `None` where
      Python raises (a scalar is not iterable, a non-string item has no
      `.lower()`). */
  function Items(v: Json): (r: Option<seq<string>>)
    ensures v.JList? ==> (r.Some? <==> forall i :: 0 <= i < |v.items| ==> v.items[i].JStr?)
  {
    match v
    case JList(items) => if forall i :: 0 <= i < |items| ==> items[i].JStr? then Some(Strs(items)) else None
    case JStr(s) => Some(Chars(s))
    case JObj(fs) => Some(Keys(fs))
    case _ => None
  }

  function Chars(s: string): (r: seq<string>)
    ensures |r| == |s|
  {
    if |s| == 0 then [] else [[s[0]]] + Chars(s[1..])
  }

  /** `export_safe_senders_to_yaml` up to the file write: the
      "safe_senders" entry of the document replaced, in place, by its
      canonical list. */
  function ExportSafeSenders(input: Option<Json>): Outcome {
    match input
    case None => NoInput
    case Some(doc) =>
      if !doc.JObj? || !HasKey(doc.fields, "safe_senders") then Failed
      else
        match Items(Lookup(doc.fields, "safe_senders").value)
        case None => Failed
        case Some(items) => Exported(JObj(Put(doc.fields, "safe_senders", JList(JStrs(CanonicalList(items))))))
  }

  /** What the exported safe-sender document holds: a canonical list of
      exactly the normalised input entries under "safe_senders", every
      other entry as it was, and the keys in their order. */
  lemma ExportSafeSendersContents(doc: Json)
    requires ExportSafeSenders(Some(doc)).Exported?
    ensures var out := ExportSafeSenders(Some(doc)).doc;
      var items := Items(Lookup(doc.fields, "safe_senders").value).value;
      out.JObj? && Keys(out.fields) == Keys(doc.fields)
      && Lookup(out.fields, "safe_senders") == Some(JList(JStrs(CanonicalList(items))))
      && IsCanonicalList(CanonicalList(items))
      && (forall p :: p in CanonicalList(items) <==> exists i :: 0 <= i < |items| && Canon(items[i]) == p)
      && forall k :: k != "safe_senders" ==> Lookup(out.fields, k) == Lookup(doc.fields, k)
  {
    var items := Items(Lookup(doc.fields, "safe_senders").value).value;
    CanonicalListProps(items);
    ReplaceEntry(doc.fields, "safe_senders", JList(JStrs(CanonicalList(items))));
  }

  /** Replacing the value of a key the mapping has keeps its keys and
      every other entry. */
  lemma ReplaceEntry(fs: seq<Field>, k: string, v: Json)
    requires HasKey(fs, k)
    ensures Keys(Put(fs, k, v)) == Keys(fs)
    ensures Lookup(Put(fs, k, v), k) == Some(v)
    ensures forall u :: u != k ==> Lookup(Put(fs, k, v), u) == Lookup(fs, u)
  {
    assert k in Keys(fs) by {
      var i :| 0 <= i < |fs| && fs[i].key == k;
      assert Keys(fs)[i] == k;
    }
    PutLookup(fs, k, v, k);
    PutOthers(fs, k, v);
  }

  /** Exporting an exported safe-sender document again changes nothing. */
  lemma ExportSafeSendersIdempotent(doc: Json)
    requires ExportSafeSenders(Some(doc)).Exported?
    ensures ExportSafeSenders(Some(ExportSafeSenders(Some(doc)).doc)) == ExportSafeSenders(Some(doc))
  {
    var out := ExportSafeSenders(Some(doc)).doc;
    var items := Items(Lookup(doc.fields, "safe_senders").value).value;
    var v := JList(JStrs(CanonicalList(items)));
    assert out == JObj(Put(doc.fields, "safe_senders", v));
    PutLookup(doc.fields, "safe_senders", v, "safe_senders");
    WrittenListFixed(items);
    PutSame(out.fields, "safe_senders", v);
  }

  /** The list the export writes reads back as the same patterns, which
      it would write again unchanged. */
  lemma WrittenListFixed(items: seq<string>)
    ensures var c := CanonicalList(items);
      Items(JList(JStrs(c))) == Some(c) && CanonicalList(c) == c
  {
    var c := CanonicalList(items);
    ItemsOfJStrs(c);
    CanonicalListProps(items);
    CanonicalListFixed(c);
  }

  lemma ItemsOfJStrs(xs: seq<string>)
    ensures Items(JList(JStrs(xs))) == Some(xs)
  {
    assert Strs(JStrs(xs)) == xs;
  }

  // ---------------------------------------------------------------------
  // export_rules_to_yaml: stamping

  /** The metadata update of the first loop: `last_modified` set inside a
      metadata mapping, or a fresh metadata mapping holding only it;
      anything but a mapping is left alone. */
  function Stamp(rule: Json, timestamp: string): Json {
    if !rule.JObj? then rule
    else
      var fs := rule.fields;
      var m := Lookup(fs, "metadata");
      if m.Some? && m.value.JObj? then
        JObj(Put(fs, "metadata", JObj(Put(m.value.fields, "last_modified", JStr(timestamp)))))
      else
        JObj(Put(fs, "metadata", JObj([Field("last_modified", JStr(timestamp))])))
  }

  function StampAll(rules: seq<Json>, timestamp: string): (r: seq<Json>)
    ensures |r| == |rules|
    ensures forall i :: 0 <= i < |rules| ==> r[i] == Stamp(rules[i], timestamp)
  {
    if |rules| == 0 then [] else [Stamp(rules[0], timestamp)] + StampAll(rules[1..], timestamp)
  }

  /** A stamped rule carries the timestamp in its metadata mapping, keeps
      every other metadata entry and every other field, and gains at
      most the "metadata" key. */
  lemma StampedRule(rule: Json, timestamp: string)
    requires rule.JObj?
    ensures var out := Stamp(rule, timestamp);
      out.JObj?
      && (var m := Lookup(out.fields, "metadata");
          m.Some? && m.value.JObj? && Lookup(m.value.fields, "last_modified") == Some(JStr(timestamp))
          && (forall k :: k != "last_modified" && Lookup(rule.fields, "metadata").Some? && Lookup(rule.fields, "metadata").value.JObj?
                ==> Lookup(m.value.fields, k) == Lookup(Lookup(rule.fields, "metadata").value.fields, k)))
      && (forall k :: k != "metadata" ==> Lookup(out.fields, k) == Lookup(rule.fields, k))
  {
    var fs := rule.fields;
    var m := Lookup(fs, "metadata");
    var meta := if m.Some? && m.value.JObj? then JObj(Put(m.value.fields, "last_modified", JStr(timestamp)))
                else JObj([Field("last_modified", JStr(timestamp))]);
    PutLookup(fs, "metadata", meta, "metadata");
    forall k | k != "metadata" ensures Lookup(Put(fs, "metadata", meta), k) == Lookup(fs, k) {
      PutLookup(fs, "metadata", meta, k);
    }
    if m.Some? && m.value.JObj? {
      PutLookup(m.value.fields, "last_modified", JStr(timestamp), "last_modified");
      forall k | k != "last_modified"
        ensures Lookup(Put(m.value.fields, "last_modified", JStr(timestamp)), k) == Lookup(m.value.fields, k)
      {
        PutLookup(m.value.fields, "last_modified", JStr(timestamp), k);
      }
    }
  }

  // ---------------------------------------------------------------------
  // export_rules_to_yaml: the condition lists

  const ConditionTypes: seq<string> := ["header", "body", "from", "subject"]

  /** `key in container` for the containers the second loop meets: a
      key of a mapping, a substring of a string, an element of a list;
      `None` where Python raises TypeError. */
  function PyIn(key: string, container: Json): Option<bool> {
    match container
    case JObj(fs) => Some(HasKey(fs, key))
    case JStr(s) => Some(HasSubstring(s, key))
    case JList(items) => Some(JStr(key) in items)
    case _ => None
  }

  /** One step of the inner loop: the list under condition type `t`
      replaced by its canonical list. `None` where Python raises: indexing
      a string or a list by a key it contains, or a list entry that is not
      a string. */
  function CanonCondition(conds: Json, t: string): Option<Json> {
    match PyIn(t, conds)
    case None => None
    case Some(present) =>
      if !present then Some(conds)
      else if !conds.JObj? then None
      else
        var v := Lookup(conds.fields, t).value;
        if !v.JList? then Some(conds)
        else
          match Items(v)
          case None => None
          case Some(items) => Some(JObj(Put(conds.fields, t, JList(JStrs(CanonicalList(items))))))
  }

  /** The inner loop over the first `n` condition types. */
  function CanonConditions(conds: Json, n: nat): Option<Json>
    requires n <= |ConditionTypes|
  {
    if n == 0 then Some(conds)
    else
      match CanonConditions(conds, n - 1)
      case None => None
      case Some(c) => CanonCondition(c, ConditionTypes[n - 1])
  }

  /** The body of the second loop for one rule. */
  function CanonRule(rule: Json): Option<Json> {
    match PyIn("conditions", rule)
    case None => None
    case Some(present) =>
      if !present then Some(rule)
      else if !rule.JObj? then None
      else
        match CanonConditions(Lookup(rule.fields, "conditions").value, |ConditionTypes|)
        case None => None
        case Some(c) => Some(JObj(Put(rule.fields, "conditions", c)))
  }

  /** The second loop over a list of rules: every rule's rewrite, or
      `None` as soon as one raises. */
  function CanonRuleList(rules: seq<Json>): (r: Option<seq<Json>>)
    ensures r.Some? <==> forall i :: 0 <= i < |rules| ==> CanonRule(rules[i]).Some?
    ensures r.Some? ==> |r.value| == |rules| && forall i :: 0 <= i < |rules| ==> r.value[i] == CanonRule(rules[i]).value
  {
    var outs := seq(|rules|, i requires 0 <= i < |rules| => CanonRule(rules[i]));
    assert forall i :: 0 <= i < |rules| ==> outs[i] == CanonRule(rules[i]);
    AllPresent(outs)
  }

  /** The values of a list of options, when none is `None`. */
  function AllPresent<T>(os: seq<Option<T>>): (r: Option<seq<T>>)
    ensures r.Some? <==> forall i :: 0 <= i < |os| ==> os[i].Some?
    ensures r.Some? ==> |r.value| == |os| && forall i :: 0 <= i < |os| ==> r.value[i] == os[i].value
  {
    if |os| == 0 then Some([])
    else
      match os[0]
      case None => None
      case Some(x) =>
        match AllPresent(os[1..])
        case None => None
        case Some(rest) => Some([x] + rest)
  }

  /** The second loop over whatever the "rules" entry holds: a list's
      rules, a string's characters (none contains "conditions"), a
      mapping's keys. */
  function CanonRulesValue(v: Json): Option<Json> {
    match v
    case JList(rules) =>
      (match CanonRuleList(rules) case None => None case Some(r) => Some(JList(r)))
    case JStr(_) => Some(v)
    case JObj(fs) => if exists i :: 0 <= i < |fs| && HasSubstring(fs[i].key, "conditions") then None else Some(v)
    case _ => None
  }

  // ---------------------------------------------------------------------
  // export_rules_to_yaml

  /** The document a rules export starts from: a bare list is wrapped as
      the "rules" entry; a mapping must have one. */
  function FullStructure(doc: Json): Option<Json> {
    if doc.JList? then Some(JObj([Field("rules", doc)]))
    else if doc.JObj? && HasKey(doc.fields, "rules") then Some(doc)
    else None
  }

  /** `export_rules_to_yaml` up to the file write. */
  function ExportRules(input: Option<Json>, timestamp: string): Outcome {
    match input
    case None => NoInput
    case Some(doc) =>
      match FullStructure(doc)
      case None => Failed
      case Some(full) =>
        match RulesValue(Lookup(full.fields, "rules").value, timestamp)
        case None => Failed
        case Some(v) => Exported(JObj(Put(full.fields, "rules", v)))
  }

  /** What the export writes back as the "rules" entry: rules in a list
      stamped, every leaf stringified, conditions canonical; anything but
      a list, a string or a mapping raises. */
  function RulesValue(rules: Json, timestamp: string): Option<Json> {
    if !(rules.JList? || rules.JStr? || rules.JObj?) then None
    else
      var stamped := if rules.JList? then JList(StampAll(rules.items, timestamp)) else rules;
      CanonRulesValue(Stringify(stamped))
  }

  /** `export_rules_to_yaml`, loop by loop. */
  method ExportRulesToYaml(input: Option<Json>, timestamp: string) returns (r: Outcome)
    ensures r == ExportRules(input, timestamp)
  {
    if input.None? {
      return NoInput;
    }
    var full := FullStructure(input.value);
    if full.None? {
      return Failed;
    }
    var rules := Lookup(full.value.fields, "rules").value;
    if !(rules.JList? || rules.JStr? || rules.JObj?) {
      return Failed;
    }
    var stamped := rules;
    if rules.JList? {
      var list := StampRules(rules.items, timestamp);
      stamped := JList(list);
    }
    var strung := Stringify(stamped);
    var canon: Option<Json>;
    if strung.JList? {
      var list := CanonRules(strung.items);
      canon := if list.None? then None else Some(JList(list.value));
    } else {
      canon := CanonRulesValue(strung);
    }
    if canon.None? {
      return Failed;
    }
    r := Exported(JObj(Put(full.value.fields, "rules", canon.value)));
  }

  /** The first loop: each rule stamped in place. */
  method StampRules(rules: seq<Json>, timestamp: string) returns (list: seq<Json>)
    ensures list == StampAll(rules, timestamp)
  {
    list := rules;
    var i := 0;
    while i < |list|
      invariant 0 <= i <= |list| && |list| == |rules|
      invariant forall j :: 0 <= j < i ==> list[j] == Stamp(rules[j], timestamp)
      invariant forall j :: i <= j < |list| ==> list[j] == rules[j]
    {
      list := list[i := Stamp(list[i], timestamp)];
      i := i + 1;
    }
  }

  /** The second loop over a list of rules, each rewritten in place. */
  method CanonRules(rules: seq<Json>) returns (result: Option<seq<Json>>)
    ensures result == CanonRuleList(rules)
  {
    var list := rules;
    var i := 0;
    while i < |list|
      invariant 0 <= i <= |list| && |list| == |rules|
      invariant forall j :: 0 <= j < i ==> CanonRule(rules[j]).Some? && list[j] == CanonRule(rules[j]).value
      invariant forall j :: i <= j < |list| ==> list[j] == rules[j]
    {
      var rule := CanonRuleConditions(list[i]);
      if rule.None? {
        return None;
      }
      list := list[i := rule.value];
      i := i + 1;
    }
    assert list == CanonRuleList(rules).value;
    return Some(list);
  }

  /** The second loop's body for one rule, with its loop over the condition types. */
  method CanonRuleConditions(rule: Json) returns (r: Option<Json>)
    ensures r == CanonRule(rule)
  {
    var present := PyIn("conditions", rule);
    if present.None? {
      return None;
    }
    if !present.value {
      return Some(rule);
    }
    if !rule.JObj? {
      return None;
    }
    var conds := CanonConditionsLoop(Lookup(rule.fields, "conditions").value);
    if conds.None? {
      return None;
    }
    return Some(JObj(Put(rule.fields, "conditions", conds.value)));
  }

  /** The inner loop over the condition types. */
  method CanonConditionsLoop(c0: Json) returns (r: Option<Json>)
    ensures r == CanonConditions(c0, |ConditionTypes|)
  {
    var conds := c0;
    var k := 0;
    while k < |ConditionTypes|
      invariant 0 <= k <= |ConditionTypes|
      invariant CanonConditions(c0, k) == Some(conds)
    {
      var next := CanonCondition(conds, ConditionTypes[k]);
      if next.None? {
        FailureStays(c0, k + 1, |ConditionTypes|);
        return None;
      }
      conds := next.value;
      k := k + 1;
    }
    return Some(conds);
  }

  /** Once a step of the inner loop raises, the loop raises. */
  lemma {:induction false} FailureStays(conds: Json, k: nat, n: nat)
    requires k <= n <= |ConditionTypes|
    requires CanonConditions(conds, k).None?
    ensures CanonConditions(conds, n).None?
  {
    if k < n {
      FailureStays(conds, k, n - 1);
      var prev := CanonConditions(conds, n - 1);
      assert prev.None?;
    }
  }
}

=== FILE: export_rules.dfy ===
/** What `export_rules_to_yaml` promises about the document it writes:
    each rule carries the export time, keeps its other fields (as
    strings), has every condition list in canonical form, and a second
    export with the same time writes the same document. */
module ExportRules {
  import opened Wrappers
  import opened Text
  import opened Lists
  import opened JsonDoc
  import opened Export

  /** A list value in the form the exporter writes. */
  predicate CanonicalValue(v: Json) {
    v.JList? && (forall i :: 0 <= i < |v.items| ==> v.items[i].JStr?) && IsCanonicalList(Strs(v.items))
  }

  /** The list under condition type `t`, if any, is canonical. */
  predicate TypeDone(conds: Json, t: string)
    requires conds.JObj?
  {
    match Lookup(conds.fields, t)
    case None => true
    case Some(v) => v.JList? ==> CanonicalValue(v)
  }

  /** Every condition list of a conditions mapping is canonical. */
  predicate ConditionsDone(conds: Json) {
    conds.JObj? ==> forall j :: 0 <= j < |ConditionTypes| ==> TypeDone(conds, ConditionTypes[j])
  }

  /** The rule's metadata mapping holds `last_modified` set to `timestamp`. */
  predicate MetaStamped(rule: Json, timestamp: string)
    requires rule.JObj?
  {
    var m := Lookup(rule.fields, "metadata");
    m.Some? && m.value.JObj? && Lookup(m.value.fields, "last_modified") == Some(JStr(timestamp))
  }

  // ---------------------------------------------------------------------
  // One condition type

  /** The list the exporter writes for a list of patterns is canonical. */
  lemma CanonicalJList(items: seq<string>)
    ensures CanonicalValue(JList(JStrs(CanonicalList(items))))
  {
    var nv := JList(JStrs(CanonicalList(items)));
    CanonicalListProps(items);
    assert Strs(nv.items) == CanonicalList(items);
  }

  lemma JStrsStringTree(xs: seq<string>)
    ensures IsStringTree(JList(JStrs(xs)))
  {
  }

  /** One step of the inner loop: a mapping stays a mapping whose list
      under `t` is canonical and whose other entries are unchanged;
      anything else is left as it is. */
  lemma CanonConditionStep(c: Json, t: string)
    requires CanonCondition(c, t).Some?
    ensures var c' := CanonCondition(c, t).value;
      (c.JObj? <==> c'.JObj?) && (!c.JObj? ==> c' == c)
      && (c.JObj? ==> TypeDone(c', t) && forall u :: u != t ==> Lookup(c'.fields, u) == Lookup(c.fields, u))
      && (IsStringTree(c) ==> IsStringTree(c'))
  {
    if c.JObj? && HasKey(c.fields, t) && Lookup(c.fields, t).value.JList? {
      var nv := JList(JStrs(CanonicalList(Items(Lookup(c.fields, t).value).value)));
      assert CanonCondition(c, t) == Some(JObj(Put(c.fields, t, nv)));
      CanonicalJList(Items(Lookup(c.fields, t).value).value);
      PutLookup(c.fields, t, nv, t);
      PutOthers(c.fields, t, nv);
      if IsStringTree(c) {
        JStrsStringTree(CanonicalList(Items(Lookup(c.fields, t).value).value));
        PutStringTree(c.fields, t, nv);
      }
    } else {
      assert CanonCondition(c, t) == Some(c);
    }
  }

  /** One step of the inner loop that yields a mapping started from one. */
  lemma CanonConditionStepObj(c: Json, t: string)
    requires CanonCondition(c, t).Some? && CanonCondition(c, t).value.JObj?
    ensures var c' := CanonCondition(c, t).value;
      c.JObj? && TypeDone(c', t) && forall u :: u != t ==> Lookup(c'.fields, u) == Lookup(c.fields, u)
  {
    CanonConditionStep(c, t);
  }

  /** The four condition types are different keys. */
  lemma ConditionTypesDistinct(i: nat, j: nat)
    requires i < j < |ConditionTypes|
    ensures ConditionTypes[i] != ConditionTypes[j]
  {
    assert ConditionTypes[i][0] != ConditionTypes[j][0];
  }

  /** The inner loop over the first `n` condition types keeps a mapping
      a mapping, leaves anything else alone, and keeps every leaf a string. */
  lemma {:induction false} CanonConditionsShape(c: Json, n: nat)
    requires n <= |ConditionTypes| && CanonConditions(c, n).Some?
    ensures var c' := CanonConditions(c, n).value;
      (c.JObj? <==> c'.JObj?) && (!c.JObj? ==> c' == c)
      && (IsStringTree(c) ==> IsStringTree(c'))
  {
    if n > 0 {
      CanonConditionsShape(c, n - 1);
      CanonConditionStep(CanonConditions(c, n - 1).value, ConditionTypes[n - 1]);
    }
  }

  /** The inner loop over the first `n` condition types: the lists of
      those types come out canonical. */
  lemma {:induction false} CanonConditionsDone(c: Json, n: nat)
    requires n <= |ConditionTypes| && CanonConditions(c, n).Some?
    ensures var c' := CanonConditions(c, n).value;
      c'.JObj? ==> forall j :: 0 <= j < n ==> TypeDone(c', ConditionTypes[j])
  {
    if n > 0 {
      CanonConditionsDone(c, n - 1);
      CanonConditionsUnfold(c, n);
      DoneStep(CanonConditions(c, n - 1).value, n);
    }
  }

  lemma CanonConditionsUnfold(c: Json, n: nat)
    requires 0 < n <= |ConditionTypes| && CanonConditions(c, n).Some?
    ensures CanonConditions(c, n - 1).Some?
    ensures CanonConditions(c, n) == CanonCondition(CanonConditions(c, n - 1).value, ConditionTypes[n - 1])
  {
  }

  /** The step for type `n - 1` extends "the first `n - 1` types are
      done" to the first `n`. */
  lemma DoneStep(c1: Json, n: nat)
    requires 0 < n <= |ConditionTypes| && CanonCondition(c1, ConditionTypes[n - 1]).Some?
    requires c1.JObj? ==> forall j :: 0 <= j < n - 1 ==> TypeDone(c1, ConditionTypes[j])
    ensures var c' := CanonCondition(c1, ConditionTypes[n - 1]).value;
      c'.JObj? ==> forall j :: 0 <= j < n ==> TypeDone(c', ConditionTypes[j])
  {
    var t := ConditionTypes[n - 1];
    var c' := CanonCondition(c1, t).value;
    if c'.JObj? {
      CanonConditionStepObj(c1, t);
      TypesDoneKept(c1, c', n);
    }
  }

  /** A step for type `n - 1` that leaves the other types' lists alone
      extends "the first `n - 1` types are done" to the first `n`. */
  lemma TypesDoneKept(c1: Json, c': Json, n: nat)
    requires 0 < n <= |ConditionTypes| && c1.JObj? && c'.JObj?
    requires forall j :: 0 <= j < n - 1 ==> TypeDone(c1, ConditionTypes[j])
    requires TypeDone(c', ConditionTypes[n - 1])
    requires forall u :: u != ConditionTypes[n - 1] ==> Lookup(c'.fields, u) == Lookup(c1.fields, u)
    ensures forall j :: 0 <= j < n ==> TypeDone(c', ConditionTypes[j])
  {
    forall j | 0 <= j < n - 1 ensures TypeDone(c', ConditionTypes[j]) {
      ConditionTypesDistinct(j, n - 1);
      TypeDoneKept(c1, c', ConditionTypes[j]);
    }
  }

  lemma TypeDoneKept(c: Json, c': Json, u: string)
    requires c.JObj? && c'.JObj? && Lookup(c'.fields, u) == Lookup(c.fields, u) && TypeDone(c, u)
    ensures TypeDone(c', u)
  {
  }

  /** A condition list already in canonical form is left as it is. */
  lemma CanonConditionFixed(c: Json, t: string)
    requires c.JObj? && TypeDone(c, t)
    ensures CanonCondition(c, t) == Some(c)
  {
    if HasKey(c.fields, t) {
      var v := Lookup(c.fields, t).value;
      if v.JList? {
        var xs := Strs(v.items);
        assert Items(v) == Some(xs);
        CanonicalListFixed(xs);
        assert JStrs(xs) == v.items;
        PutSame(c.fields, t, v);
      }
    }
  }

  lemma {:induction false} CanonConditionsFixed(c: Json, n: nat)
    requires n <= |ConditionTypes| && c.JObj? && ConditionsDone(c)
    ensures CanonConditions(c, n) == Some(c)
  {
    if n > 0 {
      CanonConditionsFixed(c, n - 1);
      CanonConditionFixed(c, ConditionTypes[n - 1]);
    }
  }

  /** The inner loop leaves its own output alone. */
  lemma CanonConditionsOutputFixed(c0: Json)
    requires CanonConditions(c0, |ConditionTypes|).Some?
    ensures var c := CanonConditions(c0, |ConditionTypes|).value;
      CanonConditions(c, |ConditionTypes|) == Some(c)
  {
    var c := CanonConditions(c0, |ConditionTypes|).value;
    CanonConditionsShape(c0, |ConditionTypes|);
    if c.JObj? {
      CanonConditionsDone(c0, |ConditionTypes|);
      CanonConditionsFixed(c, |ConditionTypes|);
    }
  }

  // ---------------------------------------------------------------------
  // One rule

  /** The second loop's body on a mapping with conditions replaces its
      "conditions" entry; on anything else it keeps the rule. */
  lemma CanonRuleShape(rule: Json)
    requires CanonRule(rule).Some?
    ensures rule.JObj? && HasKey(rule.fields, "conditions") ==>
      var c0 := Lookup(rule.fields, "conditions").value;
      CanonConditions(c0, |ConditionTypes|).Some?
      && CanonRule(rule).value == JObj(Put(rule.fields, "conditions", CanonConditions(c0, |ConditionTypes|).value))
    ensures !(rule.JObj? && HasKey(rule.fields, "conditions")) ==> CanonRule(rule).value == rule
  {
  }

  /** What the second loop does to one rule: only "conditions" may
      change, and its lists come out canonical. */
  lemma CanonRuleProps(rule: Json)
    requires CanonRule(rule).Some?
    ensures var out := CanonRule(rule).value;
      (rule.JObj? <==> out.JObj?) && (!rule.JObj? ==> out == rule)
      && (rule.JObj? ==> (forall k :: k != "conditions" ==> Lookup(out.fields, k) == Lookup(rule.fields, k))
                         && (HasKey(out.fields, "conditions") ==> ConditionsDone(Lookup(out.fields, "conditions").value)))
  {
    CanonRuleShape(rule);
    if rule.JObj? && HasKey(rule.fields, "conditions") {
      var fs := rule.fields;
      var c0 := Lookup(fs, "conditions").value;
      var c := CanonConditions(c0, |ConditionTypes|).value;
      CanonConditionsDone(c0, |ConditionTypes|);
      PutLookup(fs, "conditions", c, "conditions");
      PutOthers(fs, "conditions", c);
    }
  }

  /** The second loop keeps every leaf a string. */
  lemma CanonRuleStringTree(rule: Json)
    requires CanonRule(rule).Some? && IsStringTree(rule)
    ensures IsStringTree(CanonRule(rule).value)
  {
    CanonRuleShape(rule);
    if rule.JObj? && HasKey(rule.fields, "conditions") {
      var fs := rule.fields;
      var c0 := Lookup(fs, "conditions").value;
      var c := CanonConditions(c0, |ConditionTypes|).value;
      CanonConditionsShape(c0, |ConditionTypes|);
      var i0 :| 0 <= i0 < |fs| && fs[i0].key == "conditions" && fs[i0].val == c0;
      PutStringTree(fs, "conditions", c);
    }
  }

  /** Running the second loop's body on its own output changes nothing. */
  lemma CanonRuleIdempotent(rule: Json)
    requires CanonRule(rule).Some?
    ensures CanonRule(CanonRule(rule).value) == CanonRule(rule)
  {
    CanonRuleShape(rule);
    if rule.JObj? && HasKey(rule.fields, "conditions") {
      var c0 := Lookup(rule.fields, "conditions").value;
      CanonConditionsOutputFixed(c0);
      ConditionsReplacedFixed(rule.fields, CanonConditions(c0, |ConditionTypes|).value);
    }
  }

  /** A rule whose "conditions" entry the inner loop leaves alone is left
      alone by the second loop's body. */
  lemma ConditionsReplacedFixed(fs: seq<Field>, c: Json)
    requires CanonConditions(c, |ConditionTypes|) == Some(c)
    ensures var out := JObj(Put(fs, "conditions", c));
      CanonRule(out) == Some(out)
  {
    var out := JObj(Put(fs, "conditions", c));
    PutLookup(fs, "conditions", c, "conditions");
    PutSame(out.fields, "conditions", c);
    CanonRuleShape(out);
  }

  /** Stamping a rule whose metadata already holds the timestamp changes nothing. */
  lemma StampFixed(rule: Json, timestamp: string)
    requires rule.JObj? ==> MetaStamped(rule, timestamp)
    ensures Stamp(rule, timestamp) == rule
  {
    if rule.JObj? {
      var m := Lookup(rule.fields, "metadata").value;
      PutSame(m.fields, "last_modified", JStr(timestamp));
      PutSame(rule.fields, "metadata", m);
    }
  }

  /** The string form of a stamped rule is still stamped. */
  lemma StringifyKeepsStamp(rule: Json, timestamp: string)
    requires rule.JObj? && MetaStamped(rule, timestamp)
    ensures Stringify(rule).JObj? && MetaStamped(Stringify(rule), timestamp)
  {
    var m := Lookup(rule.fields, "metadata").value;
    assert Stringify(rule) == JObj(StringifyFields(rule.fields));
    StringifyLookup(rule.fields, "metadata");
    StringifyKeepsLastModified(m, timestamp);
  }

  lemma StringifyKeepsLastModified(m: Json, timestamp: string)
    requires m.JObj? && Lookup(m.fields, "last_modified") == Some(JStr(timestamp))
    ensures Stringify(m).JObj? && Lookup(Stringify(m).fields, "last_modified") == Some(JStr(timestamp))
  {
    assert Stringify(m) == JObj(StringifyFields(m.fields));
    StringifyLookup(m.fields, "last_modified");
    assert Stringify(JStr(timestamp)) == JStr(timestamp);
  }

  /** The string form of the value under a key, if any. */
  function StringifiedAt(fs: seq<Field>, k: string): Option<Json> {
    match Lookup(fs, k)
    case None => None
    case Some(v) => Some(Stringify(v))
  }

  /** One rule as the export writes it: a mapping comes out a mapping
      stamped with the timestamp, whose fields other than "metadata" and
      "conditions" are the string forms of the input's and whose
      condition lists are canonical; anything else comes out as its
      string form; every leaf is a string, and the second loop's body
      leaves the written rule alone. */
  lemma ExportedRule(rule: Json, timestamp: string)
    requires CanonRule(Stringify(Stamp(rule, timestamp))).Some?
    ensures var out := CanonRule(Stringify(Stamp(rule, timestamp))).value;
      IsStringTree(out)
      && (rule.JObj? ==>
            out.JObj? && MetaStamped(out, timestamp)
            && (forall k :: k != "metadata" && k != "conditions" ==> Lookup(out.fields, k) == StringifiedAt(rule.fields, k))
            && (HasKey(out.fields, "conditions") ==> ConditionsDone(Lookup(out.fields, "conditions").value)))
      && (!rule.JObj? ==> out == Stringify(rule))
      && CanonRule(out) == Some(out)
  {
    var st := Stamp(rule, timestamp);
    var sr := Stringify(st);
    StringifyMakesStringTree(st);
    CanonRuleStringTree(sr);
    CanonRuleProps(sr);
    CanonRuleIdempotent(sr);
    if rule.JObj? {
      ExportedRuleMeta(rule, timestamp);
      ExportedRuleFields(rule, timestamp);
    }
  }

  lemma ExportedRuleMeta(rule: Json, timestamp: string)
    requires rule.JObj? && CanonRule(Stringify(Stamp(rule, timestamp))).Some?
    ensures var out := CanonRule(Stringify(Stamp(rule, timestamp))).value;
      out.JObj? && MetaStamped(out, timestamp)
  {
    var st := Stamp(rule, timestamp);
    var sr := Stringify(st);
    StampedRule(rule, timestamp);
    StringifyKeepsStamp(st, timestamp);
    CanonRuleProps(sr);
    assert Lookup(CanonRule(sr).value.fields, "metadata") == Lookup(sr.fields, "metadata");
  }

  lemma ExportedRuleFields(rule: Json, timestamp: string)
    requires rule.JObj? && CanonRule(Stringify(Stamp(rule, timestamp))).Some?
    ensures var out := CanonRule(Stringify(Stamp(rule, timestamp))).value;
      out.JObj? && forall k :: k != "metadata" && k != "conditions" ==> Lookup(out.fields, k) == StringifiedAt(rule.fields, k)
  {
    var st := Stamp(rule, timestamp);
    var sr := Stringify(st);
    var out := CanonRule(sr).value;
    StampedRule(rule, timestamp);
    CanonRuleProps(sr);
    forall k | k != "metadata" && k != "conditions"
      ensures Lookup(out.fields, k) == StringifiedAt(rule.fields, k)
    {
      StringifyLookup(st.fields, k);
    }
  }

  /** The same, applied to a rule the export wrote: nothing changes. */
  lemma ExportedRuleFixed(rule: Json, timestamp: string)
    requires CanonRule(Stringify(Stamp(rule, timestamp))).Some?
    ensures var out := CanonRule(Stringify(Stamp(rule, timestamp))).value;
      CanonRule(Stringify(Stamp(out, timestamp))) == Some(out)
  {
    var out := CanonRule(Stringify(Stamp(rule, timestamp))).value;
    ExportedRule(rule, timestamp);
    if out.JObj? && !rule.JObj? {
      StringifyNotObj(rule);
    }
    StampFixed(out, timestamp);
    StringifyStringTree(out);
  }

  lemma StringifyNotObj(j: Json)
    requires !j.JObj?
    ensures !Stringify(j).JObj?
  {
  }

  // ---------------------------------------------------------------------
  // The whole document

  /** The "rules" entry the export starts from. */
  function InputRules(doc: Json): Json
    requires FullStructure(doc).Some?
  {
    Lookup(FullStructure(doc).value.fields, "rules").value
  }

  /** The "rules" entry written for a list of rules: one written rule per
      input rule, each the rule stamped, stringified and canonicalised. */
  lemma RulesValueList(ins: seq<Json>, timestamp: string)
    requires RulesValue(JList(ins), timestamp).Some?
    ensures var o := RulesValue(JList(ins), timestamp).value;
      o.JList? && |o.items| == |ins|
      && forall i :: 0 <= i < |ins| ==> CanonRule(Stringify(Stamp(ins[i], timestamp))) == Some(o.items[i])
  {
    var ss := StringifyAll(StampAll(ins, timestamp));
    assert Stringify(JList(StampAll(ins, timestamp))) == JList(ss);
  }

  /** Rules that stamping, stringifying and canonicalising each leave
      alone make a list the export writes back unchanged. */
  lemma WrittenRulesFixed(outs: seq<Json>, timestamp: string)
    requires forall i :: 0 <= i < |outs| ==> Stamp(outs[i], timestamp) == outs[i]
    requires forall i :: 0 <= i < |outs| ==> Stringify(outs[i]) == outs[i]
    requires forall i :: 0 <= i < |outs| ==> CanonRule(outs[i]) == Some(outs[i])
    ensures RulesValue(JList(outs), timestamp) == Some(JList(outs))
  {
    StampAllFixed(outs, timestamp);
    StringifyAllFixed(outs);
    CanonRuleListFixed(outs);
  }

  lemma StampAllFixed(outs: seq<Json>, timestamp: string)
    requires forall i :: 0 <= i < |outs| ==> Stamp(outs[i], timestamp) == outs[i]
    ensures StampAll(outs, timestamp) == outs
  {
  }

  lemma StringifyAllFixed(outs: seq<Json>)
    requires forall i :: 0 <= i < |outs| ==> Stringify(outs[i]) == outs[i]
    ensures Stringify(JList(outs)) == JList(outs)
  {
    assert StringifyAll(outs) == outs;
  }

  lemma CanonRuleListFixed(outs: seq<Json>)
    requires forall i :: 0 <= i < |outs| ==> CanonRule(outs[i]) == Some(outs[i])
    ensures CanonRulesValue(JList(outs)) == Some(JList(outs))
  {
    assert CanonRuleList(outs).value == outs;
  }

  /** The "rules" entry the export writes is one it writes back unchanged. */
  lemma RulesValueIdempotent(rules: Json, timestamp: string)
    requires RulesValue(rules, timestamp).Some?
    ensures RulesValue(RulesValue(rules, timestamp).value, timestamp) == RulesValue(rules, timestamp)
  {
    var v := RulesValue(rules, timestamp).value;
    if rules.JList? {
      var ins := rules.items;
      RulesValueList(ins, timestamp);
      var outs := v.items;
      forall i | 0 <= i < |outs|
        ensures Stamp(outs[i], timestamp) == outs[i] && Stringify(outs[i]) == outs[i] && CanonRule(outs[i]) == Some(outs[i])
      {
        ExportedRule(ins[i], timestamp);
        StampFixed(outs[i], timestamp);
        StringifyStringTree(outs[i]);
      }
      WrittenRulesFixed(outs, timestamp);
    } else {
      StringifyMakesStringTree(rules);
      StringifyStringTree(Stringify(rules));
      assert v == Stringify(rules);
    }
  }

  /** The exported document: the structure's fields with "rules" replaced
      in place, and, for a list of rules, one written rule per input rule,
      each the rule stamped, stringified and canonicalised. */
  lemma ExportRulesShape(doc: Json, timestamp: string)
    requires ExportRules(Some(doc), timestamp).Exported?
    ensures FullStructure(doc).Some?
    ensures var out := ExportRules(Some(doc), timestamp).doc;
      var full := FullStructure(doc).value;
      out.JObj? && Keys(out.fields) == Keys(full.fields)
      && (forall k :: k != "rules" ==> Lookup(out.fields, k) == Lookup(full.fields, k))
      && Lookup(out.fields, "rules").Some?
      && (InputRules(doc).JList? ==>
            var ins := InputRules(doc).items;
            var o := Lookup(out.fields, "rules").value;
            o.JList? && |o.items| == |ins|
            && forall i :: 0 <= i < |ins| ==> CanonRule(Stringify(Stamp(ins[i], timestamp))) == Some(o.items[i]))
  {
    var full := FullStructure(doc).value;
    var rules := InputRules(doc);
    var v := RulesValue(rules, timestamp).value;
    assert "rules" in Keys(full.fields) by {
      var i :| 0 <= i < |full.fields| && full.fields[i].key == "rules";
      assert Keys(full.fields)[i] == "rules";
    }
    PutLookup(full.fields, "rules", v, "rules");
    PutOthers(full.fields, "rules", v);
    if rules.JList? {
      RulesValueList(rules.items, timestamp);
    }
  }

  /** Exporting an exported rules document again, with the same
      timestamp, writes the same document. */
  lemma ExportRulesIdempotent(doc: Json, timestamp: string)
    requires ExportRules(Some(doc), timestamp).Exported?
    ensures ExportRules(Some(ExportRules(Some(doc), timestamp).doc), timestamp) == ExportRules(Some(doc), timestamp)
  {
    var full := FullStructure(doc).value;
    var v := RulesValue(InputRules(doc), timestamp).value;
    var out := ExportRules(Some(doc), timestamp).doc;
    assert out == JObj(Put(full.fields, "rules", v));
    PutLookup(full.fields, "rules", v, "rules");
    assert FullStructure(out) == Some(out);
    RulesValueIdempotent(InputRules(doc), timestamp);
    PutSame(out.fields, "rules", v);
  }
}

=== FILE: headers.dfy ===
/** Header and body helpers of the agent: folding continuation lines of a
    raw message header, extracting the `@domain` token of its From line,
    and collecting the URL stubs of a body. */
module Headers {
  import opened Wrappers
  import opened Text
  import opened Lists

  /** A header line that continues the previous field: it starts with a
      space or a tab. */
  predicate IsContinuation(line: string) {
    |line| > 0 && (line[0] == ' ' || line[0] == '\t')
  }

  /** The number of lines that open a new header field. */
  function FieldCount(lines: seq<string>): nat {
    if |lines| == 0 then 0
    else FieldCount(lines[..|lines| - 1]) + (if IsContinuation(lines[|lines| - 1]) then 0 else 1)
  }

  /** The field list built line by line: a continuation is glued to the
      last entry with one space, any other line becomes a new entry; both
      are stripped first. `None` is the IndexError raised when the very
      first line is a continuation (there is no last entry yet). */
  function FoldContinuations(lines: seq<string>): Option<seq<string>>
    decreases |lines|
  {
    if |lines| == 0 then Some([])
    else
      var prev := FoldContinuations(lines[..|lines| - 1]);
      var line := lines[|lines| - 1];
      if prev.None? then None
      else if IsContinuation(line) then
        if |prev.value| == 0 then None
        else Some(prev.value[..|prev.value| - 1] + [prev.value[|prev.value| - 1] + " " + Strip(line)])
      else Some(prev.value + [Strip(line)])
  }

  /** Folding fails exactly when the first line is a continuation, and
      otherwise yields one entry per line that opens a field. */
  lemma {:induction false} FoldContinuationsShape(lines: seq<string>)
    ensures FoldContinuations(lines).None? <==> (|lines| > 0 && IsContinuation(lines[0]))
    ensures FoldContinuations(lines).Some? ==> |FoldContinuations(lines).value| == FieldCount(lines)
    decreases |lines|
  {
    if |lines| > 0 {
      var init := lines[..|lines| - 1];
      FoldContinuationsShape(init);
      if |init| > 0 {
        assert init[0] == lines[0];
        if !IsContinuation(lines[0]) {
          FieldCountPositive(init);
        }
      }
    }
  }

  lemma {:induction false} FieldCountPositive(lines: seq<string>)
    requires |lines| > 0 && !IsContinuation(lines[0])
    ensures FieldCount(lines) > 0
    decreases |lines|
  {
    if |lines| > 1 {
      FieldCountPositive(lines[..|lines| - 1]);
    }
  }

  /** Without continuation lines, folding only strips each line. */
  lemma {:induction false} FoldWithoutContinuations(lines: seq<string>)
    requires forall i :: 0 <= i < |lines| ==> !IsContinuation(lines[i])
    ensures FoldContinuations(lines) == Some(StripAll(lines))
    decreases |lines|
  {
    if |lines| > 0 {
      FoldWithoutContinuations(lines[..|lines| - 1]);
    }
  }

  /** Every line stripped. */
  function StripAll(lines: seq<string>): (r: seq<string>)
    ensures |r| == |lines|
    ensures forall i :: 0 <= i < |lines| ==> r[i] == Strip(lines[i])
  {
    if |lines| == 0 then [] else StripAll(lines[..|lines| - 1]) + [Strip(lines[|lines| - 1])]
  }

  /** What `combine_email_header_lines` returns: the folded fields joined
      by newlines, non-ASCII characters removed, lower-cased. */
  function CombinedHeader(raw: string): Option<string> {
    match FoldContinuations(SplitLines(raw))
    case None => None
    case Some(fields) => Some(Lower(RemoveNonAscii(Join(fields, "\n"))))
  }

  predicate IsAscii(s: string) {
    forall i :: 0 <= i < |s| ==> s[i] <= '\U{007F}'
  }

  lemma LowerKeepsAscii(s: string)
    requires IsAscii(s)
    ensures IsAscii(Lower(s))
  {
    forall i | 0 <= i < |s| ensures Lower(s)[i] <= '\U{007F}' {
      assert Lower(s)[i] == LowerChar(s[i]);
    }
  }

  /** The header the agent matches against is lower-cased ASCII, and
      combining fails exactly when the first line is a continuation. */
  lemma CombinedHeaderShape(raw: string)
    ensures CombinedHeader(raw).None? <==> (SplitLines(raw) != [] && IsContinuation(SplitLines(raw)[0]))
    ensures CombinedHeader(raw).Some? ==> IsLowered(CombinedHeader(raw).value) && IsAscii(CombinedHeader(raw).value)
  {
    FoldContinuationsShape(SplitLines(raw));
    if FoldContinuations(SplitLines(raw)).Some? {
      var joined := RemoveNonAscii(Join(FoldContinuations(SplitLines(raw)).value, "\n"));
      LowerIsLowered(joined);
      LowerKeepsAscii(joined);
    }
  }

  /** One more line folded onto the fields of the lines before it. */
  lemma FoldStep(lines: seq<string>, i: nat, fields: seq<string>)
    requires i < |lines| && FoldContinuations(lines[..i]) == Some(fields)
    ensures IsContinuation(lines[i]) && |fields| == 0 ==> FoldContinuations(lines[..i + 1]).None?
    ensures IsContinuation(lines[i]) && |fields| > 0 ==>
      FoldContinuations(lines[..i + 1]) == Some(fields[..|fields| - 1] + [fields[|fields| - 1] + " " + Strip(lines[i])])
    ensures !IsContinuation(lines[i]) ==> FoldContinuations(lines[..i + 1]) == Some(fields + [Strip(lines[i])])
  {
    assert lines[..i + 1][..i] == lines[..i];
  }

  /** `combine_email_header_lines`: the list of fields is grown line by
      line and its last entry extended in place by each continuation. */
  method CombineHeaderLines(raw: string) returns (r: Option<string>)
    ensures r == CombinedHeader(raw)
    ensures r.None? <==> (SplitLines(raw) != [] && IsContinuation(SplitLines(raw)[0]))
    ensures r.Some? ==> IsLowered(r.value) && IsAscii(r.value)
  {
    var lines := SplitLines(raw);
    var fields: seq<string> := [];
    var i := 0;
    while i < |lines|
      invariant 0 <= i <= |lines|
      invariant FoldContinuations(lines[..i]) == Some(fields)
    {
      var line := lines[i];
      FoldStep(lines, i, fields);
      if IsContinuation(line) {
        if |fields| == 0 {
          FoldPrefixNone(lines, i + 1);
          CombinedHeaderShape(raw);
          return None;
        }
        fields := fields[..|fields| - 1] + [fields[|fields| - 1] + " " + Strip(line)];
      } else {
        fields := fields + [Strip(line)];
      }
      i := i + 1;
    }
    assert lines[..i] == lines;
    r := Some(Lower(RemoveNonAscii(Join(fields, "\n"))));
    CombinedHeaderShape(raw);
  }

  /** Once a prefix of the lines fails to fold, so do all the lines. */
  lemma {:induction false} FoldPrefixNone(lines: seq<string>, k: nat)
    requires k <= |lines| && FoldContinuations(lines[..k]).None?
    ensures FoldContinuations(lines).None?
    decreases |lines| - k
  {
    if k < |lines| {
      assert lines[..k + 1][..k] == lines[..k];
      FoldPrefixNone(lines, k + 1);
    } else {
      assert lines[..k] == lines;
    }
  }

  /** The characters of `[\w.-]` (ASCII word characters, '.' and '-'). */
  predicate IsTokenChar(c: char) {
    IsWordChar(c) || c == '.' || c == '-'
  }

  /** Length of the longest prefix of `s` made of token characters. */
  function TokenRun(s: string): (n: nat)
    ensures n <= |s|
    ensures forall i :: 0 <= i < n ==> IsTokenChar(s[i])
    ensures n == |s| || !IsTokenChar(s[n])
  {
    if |s| > 0 && IsTokenChar(s[0]) then 1 + TokenRun(s[1..]) else 0
  }

  /** Where the pattern `@[\w.-]+` can start: an '@' followed by a token character. */
  predicate TokenStart(s: string, p: int) {
    0 <= p && p + 1 < |s| && s[p] == '@' && IsTokenChar(s[p + 1])
  }

  /** The first position at or after `k` where `@[\w.-]+` can match, or |s|. */
  function TokenStartFrom(s: string, k: nat): (p: nat)
    requires k <= |s|
    ensures k <= p <= |s|
    ensures p < |s| ==> TokenStart(s, p)
    ensures forall q :: k <= q < p ==> !TokenStart(s, q)
    decreases |s| - k
  {
    if k == |s| || TokenStart(s, k) then k else TokenStartFrom(s, k + 1)
  }

  /** `re.search(r'@[\w.-]+', s)`: the leftmost match, its run taken
      greedily; "" when there is none. */
  function AtToken(s: string): (t: string)
    ensures t == "" <==> forall p :: 0 <= p < |s| ==> !TokenStart(s, p)
    ensures t != "" ==> exists p :: TokenStart(s, p) && t == s[p..p + 1 + TokenRun(s[p + 1..])]
                                    && forall q :: 0 <= q < p ==> !TokenStart(s, q)
    ensures t != "" ==> |t| >= 2 && t[0] == '@' && forall i :: 1 <= i < |t| ==> IsTokenChar(t[i])
  {
    var p := TokenStartFrom(s, 0);
    if p == |s| then ""
    else
      var rest := s[p + 1..];
      var n := TokenRun(rest);
      assert rest[0] == s[p + 1];
      var t := s[p..p + 1 + n];
      assert forall i :: 1 <= i < |t| ==> t[i] == rest[i - 1];
      t
  }

  /** The first line whose lower-cased form starts with "from:", if any. */
  function FirstFromLine(lines: seq<string>): (r: Option<string>)
    ensures r.Some? ==> r.value in lines && StartsWith(Lower(r.value), "from:")
    ensures r.None? <==> forall i :: 0 <= i < |lines| ==> !StartsWith(Lower(lines[i]), "from:")
  {
    if |lines| == 0 then None
    else if StartsWith(Lower(lines[0]), "from:") then Some(lines[0])
    else FirstFromLine(lines[1..])
  }

  /** `header_from`: the `@domain` token of the first From line; "" when
      there is no From line or it carries no such token. */
  function HeaderFrom(header: string): (t: string)
    ensures t != "" ==> |t| >= 2 && t[0] == '@' && forall i :: 1 <= i < |t| ==> IsTokenChar(t[i])
  {
    match FirstFromLine(SplitLines(header))
    case None => ""
    case Some(line) => AtToken(line)
  }

  /** The token `header_from` returns sits in the first From line of the
      header, and is empty only when that line has no `@` followed by a
      token character. */
  lemma HeaderFromInFromLine(header: string)
    ensures FirstFromLine(SplitLines(header)).None? ==> HeaderFrom(header) == ""
    ensures FirstFromLine(SplitLines(header)).Some? ==>
      var line := FirstFromLine(SplitLines(header)).value;
      HeaderFrom(header) == AtToken(line)
      && (HeaderFrom(header) == "" <==> forall p :: 0 <= p < |line| ==> !TokenStart(line, p))
  {
  }

  /** One match of `(\.[\w-]+\.[\w-]+)|(/[\w-]+\.[\w-]+)`, as its length
      at position 0 of `s` (0 when no match starts there). */
  predicate IsStubChar(c: char) {
    IsWordChar(c) || c == '-'
  }

  function StubRun(s: string): (n: nat)
    ensures n <= |s|
    ensures forall i :: 0 <= i < n ==> IsStubChar(s[i])
    ensures n == |s| || !IsStubChar(s[n])
  {
    if |s| > 0 && IsStubChar(s[0]) then 1 + StubRun(s[1..]) else 0
  }

  /** The length of the match of the URL pattern that starts at the first
      character of `s`, or 0. The runs are greedy and can give nothing
      back, because a run never contains the '.' that must follow it. */
  function StubMatchLen(s: string): (n: nat)
    ensures n <= |s|
    ensures n > 0 ==> n >= 4 && (s[0] == '.' || s[0] == '/')
  {
    if |s| == 0 || (s[0] != '.' && s[0] != '/') then 0
    else
      var a := StubRun(s[1..]);
      if a == 0 || 1 + a >= |s| || s[1 + a] != '.' then 0
      else
        var b := StubRun(s[2 + a..]);
        if b == 0 then 0 else 2 + a + b
  }

  /** A match of `(\.[\w-]+\.[\w-]+)|(/[\w-]+\.[\w-]+)` of length `n`
      at the start of `s`: a leading '.' or '/', then stub characters
      with exactly one '.' among them, neither first nor last, and the
      second run not followed by a stub character (the runs are greedy). */
  predicate StubAt(s: string, n: nat) {
    4 <= n <= |s| && (s[0] == '.' || s[0] == '/')
    && (n == |s| || !IsStubChar(s[n]))
    && exists d :: 2 <= d <= n - 2 && s[d] == '.' && forall i :: 1 <= i < n && i != d ==> IsStubChar(s[i])
  }

  /** A string that is one whole match of the URL pattern. */
  predicate IsStub(t: string) {
    StubAt(t, |t|)
  }

  /** A run of stub characters ended by a non-stub character, or by the
      end, is what `StubRun` measures. */
  lemma {:induction false} StubRunIs(s: string, k: nat)
    requires k <= |s| && (k == |s| || !IsStubChar(s[k]))
    requires forall i :: 0 <= i < k ==> IsStubChar(s[i])
    ensures StubRun(s) == k
  {
    if k > 0 {
      StubRunIs(s[1..], k - 1);
    }
  }

  /** `StubMatchLen` finds the match at the start of `s` exactly when
      there is one, and then its length. */
  lemma StubMatchLenMeaning(s: string)
    ensures StubMatchLen(s) > 0 ==> StubAt(s, StubMatchLen(s))
    ensures forall m: nat :: StubAt(s, m) ==> StubMatchLen(s) == m
  {
    StubMatchLenSound(s);
    StubMatchLenUnique(s);
  }

  lemma StubMatchLenSound(s: string)
    ensures StubMatchLen(s) > 0 ==> StubAt(s, StubMatchLen(s))
  {
    var n := StubMatchLen(s);
    if n > 0 {
      var a := StubRun(s[1..]);
      assert s[1 + a] == '.';
      assert forall i :: 1 <= i < n && i != 1 + a ==> IsStubChar(s[i]) by {
        forall i | 1 <= i < n && i != 1 + a
          ensures IsStubChar(s[i])
        {
          if i < 1 + a {
            assert s[1..][i - 1] == s[i];
          } else {
            assert s[2 + a..][i - 2 - a] == s[i];
          }
        }
      }
      var b := StubRun(s[2 + a..]);
      assert n == |s| || s[2 + a..][b] == s[n];
      assert StubAt(s, n);
    }
  }

  lemma StubMatchLenUnique(s: string)
    ensures forall m: nat :: StubAt(s, m) ==> StubMatchLen(s) == m
  {
    forall m: nat | StubAt(s, m)
      ensures StubMatchLen(s) == m
    {
      var d :| 2 <= d <= m - 2 && s[d] == '.' && forall i :: 1 <= i < m && i != d ==> IsStubChar(s[i]);
      StubRunIs(s[1..], d - 1);
      StubRunIs(s[d + 1..], m - d - 1);
    }
  }

  /** The match at the start of `s`, cut out, is a whole match. */
  lemma StubPrefix(s: string, n: nat)
    requires StubAt(s, n)
    ensures IsStub(s[..n])
  {
    var d :| 2 <= d <= n - 2 && s[d] == '.' && forall i :: 1 <= i < n && i != d ==> IsStubChar(s[i]);
    assert s[..n][d] == '.';
  }

  /** `url_pattern.findall(line)`: the non-overlapping matches, left to
      right; each one is a whole match of the pattern. */
  function FindStubs(s: string): (ms: seq<string>)
    ensures forall i :: 0 <= i < |ms| ==> IsStub(ms[i])
    decreases |s|
  {
    if |s| == 0 then []
    else
      var n := StubMatchLen(s);
      if n == 0 then FindStubs(s[1..])
      else
        StubMatchLenMeaning(s);
        StubPrefix(s, n);
        [s[..n]] + FindStubs(s[n..])
  }

  /** `findall` skips a position where no match starts, and takes the
      match where one does, resuming after it. */
  lemma FindStubsStep(s: string)
    requires |s| > 0
    ensures (forall m: nat :: !StubAt(s, m)) ==> FindStubs(s) == FindStubs(s[1..])
    ensures forall m: nat :: StubAt(s, m) ==> FindStubs(s) == [s[..m]] + FindStubs(s[m..])
  {
    StubMatchLenMeaning(s);
  }

  /** The two spellings a matched stub is reported in: the stub without its
      leading '/' or '.', prefixed once with '/' and once with '.'. */
  function StubVariants(stub: string): seq<string> {
    var cleaned := StripPrefixChars(stub, {'/', '.'});
    ["/" + cleaned, "." + cleaned]
  }

  function LineCandidates(ms: seq<string>): seq<string> {
    if |ms| == 0 then [] else LineCandidates(ms[..|ms| - 1]) + StubVariants(ms[|ms| - 1])
  }

  /** Every reported spelling, in the order the body yields them, repeats included. */
  function BodyCandidates(lines: seq<string>): seq<string> {
    if |lines| == 0 then [] else BodyCandidates(lines[..|lines| - 1]) + LineCandidates(FindStubs(lines[|lines| - 1]))
  }

  /** Adding one candidate, guarded by the set of what was already
      added, extends the de-duplication of the candidates by it. */
  lemma AddOnce(cands: seq<string>, stubs: seq<string>, seen: set<string>, x: string)
    requires stubs == Dedupe(cands) && forall s :: s in seen <==> s in stubs
    ensures Dedupe(cands + [x]) == if x in seen then stubs else stubs + [x]
  {
    assert (cands + [x])[..|cands + [x]| - 1] == cands;
  }

  lemma LineCandidatesStep(before: seq<string>, ms: seq<string>, j: nat)
    requires j < |ms|
    ensures before + LineCandidates(ms[..j + 1])
         == before + LineCandidates(ms[..j]) + ["/" + StripPrefixChars(ms[j], {'/', '.'})]
                                             + ["." + StripPrefixChars(ms[j], {'/', '.'})]
  {
    assert ms[..j + 1][..j] == ms[..j];
  }

  /** The inner loop of `get_unique_URL_stubs`: the matches of one line
      added to the list and to the set of stubs seen so far. */
  method AddLineStubs(matches: seq<string>, stubs0: seq<string>, seen0: set<string>, ghost before: seq<string>)
    returns (stubs: seq<string>, seen: set<string>)
    requires stubs0 == Dedupe(before) && forall s :: s in seen0 <==> s in stubs0
    ensures stubs == Dedupe(before + LineCandidates(matches))
    ensures forall s :: s in seen <==> s in stubs
  {
    stubs, seen := stubs0, seen0;
    var j := 0;
    assert before + LineCandidates(matches[..0]) == before;
    while j < |matches|
      invariant 0 <= j <= |matches|
      invariant stubs == Dedupe(before + LineCandidates(matches[..j]))
      invariant forall s :: s in seen <==> s in stubs
    {
      var cleaned := StripPrefixChars(matches[j], {'/', '.'});
      ghost var cands := before + LineCandidates(matches[..j]);
      LineCandidatesStep(before, matches, j);
      AddOnce(cands, stubs, seen, "/" + cleaned);
      if "/" + cleaned !in seen {
        stubs := stubs + ["/" + cleaned];
        seen := seen + {"/" + cleaned};
      }
      AddOnce(cands + ["/" + cleaned], stubs, seen, "." + cleaned);
      if "." + cleaned !in seen {
        stubs := stubs + ["." + cleaned];
        seen := seen + {"." + cleaned};
      }
      j := j + 1;
    }
    assert matches[..j] == matches;
  }

  /** `get_unique_URL_stubs`: the stubs of every line, each in its '/' and
      its '.' spelling, every spelling once, in order of first appearance. */
  method UniqueUrlStubs(body: string) returns (stubs: seq<string>)
    ensures stubs == Dedupe(BodyCandidates(SplitLines(body)))
    ensures NoDup(stubs)
    ensures forall s :: s in stubs <==> s in BodyCandidates(SplitLines(body))
  {
    var lines := SplitLines(body);
    stubs := [];
    var seen: set<string> := {};
    var i := 0;
    while i < |lines|
      invariant 0 <= i <= |lines|
      invariant stubs == Dedupe(BodyCandidates(lines[..i]))
      invariant forall s :: s in seen <==> s in stubs
    {
      assert lines[..i + 1][..i] == lines[..i];
      stubs, seen := AddLineStubs(FindStubs(lines[i]), stubs, seen, BodyCandidates(lines[..i]));
      i := i + 1;
    }
    assert lines[..i] == lines;
    DedupeProps(BodyCandidates(lines));
  }
}

=== FILE: js_values.dfy ===
/** The JavaScript side of the rule tester: how its handlers read the
    parsed YAML documents. A document is a `Json` value; a property that
    is not there is `None` (JavaScript's `undefined`). */
module JsValues {
  import opened Wrappers
  import opened Text
  import opened JsonDoc

  /** JavaScript's `RegExp` with the `i` flag, taken as given: whether
      `new RegExp(p, 'i')` succeeds, the message of the error it throws
      when it does not, and `regex.test(s)`. */
  datatype JsEngine = JsEngine(compiles: string -> bool, message: string -> string, test: (string, string) -> bool)

  /** Why a handler stops with an error reply: a property read on `null`
      or a loop over something that is not iterable (`TypeError`), or a
      pattern `new RegExp` rejects. */
  datatype Failure = TypeError | RegexError(message: string)

  /** Whether a value is truthy; `undefined`, `null`, `false`, `0` and the
      empty string are not. */
  predicate Truthy(v: Option<Json>) {
    match v
    case None => false
    case Some(JNull) => false
    case Some(JBool(b)) => b
    case Some(JInt(i)) => i != 0
    case Some(JStr(s)) => s != ""
    case Some(_) => true
  }

  /** `v[k]`: throws on `null`; a mapping gives its value or `undefined`;
      any other value has no such property. */
  function Prop(v: Json, k: string): (r: Result<Option<Json>, Failure>)
    ensures r.Err? <==> v.JNull?
    ensures v.JObj? ==> r == Ok(Lookup(v.fields, k))
  {
    match v
    case JNull => Err(TypeError)
    case JObj(fs) => Ok(Lookup(fs, k))
    case _ => Ok(None)
  }

  /** `a || b`. */
  function Or(a: Option<Json>, b: Json): Json {
    if Truthy(a) then a.value else b
  }

  /** The values `for (const x of v)` visits: a list's items, a string's
      characters; anything else is not iterable. */
  function Elements(v: Json): (r: Result<seq<Json>, Failure>)
    ensures v.JList? ==> r == Ok(v.items)
    ensures r.Err? <==> !(v.JList? || v.JStr?)
  {
    match v
    case JList(items) => Ok(items)
    case JStr(s) => Ok(Chars(s))
    case _ => Err(TypeError)
  }

  /** A string's characters, each as a one-character string. */
  function Chars(s: string): (r: seq<Json>)
    ensures |r| == |s|
    ensures forall i :: 0 <= i < |s| ==> r[i] == JStr([s[i]])
  {
    if |s| == 0 then [] else [JStr([s[0]])] + Chars(s[1..])
  }

  /** `String(v)`: lists join their items with commas, `null` items
      giving the empty string. */
  function JsString(v: Json): string
    decreases v, 1
  {
    match v
    case JNull => "null"
    case JBool(b) => if b then "true" else "false"
    case JInt(i) => IntToString(i)
    case JStr(s) => s
    case JList(items) => Join(ItemStrings(items), ",")
    case JObj(_) => "[object Object]"
  }

  function ItemStrings(items: seq<Json>): (r: seq<string>)
    ensures |r| == |items|
    decreases items, 0
  {
    if |items| == 0 then []
    else [if items[0].JNull? then "" else JsString(items[0])] + ItemStrings(items[1..])
  }

  /** `${v}` in a template string. */
  function Interpolate(v: Option<Json>): string {
    if v.None? then "undefined" else JsString(v.value)
  }

  /** `v?.length`: a list's or string's length, a mapping's `length` key. */
  function Length(v: Option<Json>): Option<Json> {
    match v
    case Some(JList(items)) => Some(JInt(|items|))
    case Some(JStr(s)) => Some(JInt(|s|))
    case Some(JObj(fs)) => Lookup(fs, "length")
    case _ => None
  }

  /** `v?.length || 0` for a list is its length, and for a value with no
      length it is 0. */
  lemma LengthOrZero(v: Option<Json>)
    ensures v.Some? && v.value.JList? ==> Or(Length(v), JInt(0)) == JInt(|v.value.items|)
    ensures v.None? || v.value.JNull? || v.value.JBool? || v.value.JInt? ==> Or(Length(v), JInt(0)) == JInt(0)
  {
  }

  /** A value JavaScript compares by content (`Set.has`, `===`): not a
      list or a mapping, which are equal only to themselves. */
  predicate Primitive(v: Json) {
    !v.JList? && !v.JObj?
  }
}

=== FILE: json.dfy ===
/** The in-memory rule documents the agent loads from YAML and writes back:
    nulls, booleans, integers, strings, lists and mappings whose keys keep
    their insertion order. */
module JsonDoc {
  import opened Wrappers
  import opened Text
  import opened Lists

  datatype Json =
    | JNull
    | JBool(b: bool)
    | JInt(i: int)
    | JStr(s: string)
    | JList(items: seq<Json>)
    | JObj(fields: seq<Field>)

  datatype Field = Field(key: string, val: Json)

  function Keys(fs: seq<Field>): (ks: seq<string>)
    ensures |ks| == |fs|
    ensures forall i :: 0 <= i < |fs| ==> ks[i] == fs[i].key
  {
    if |fs| == 0 then [] else [fs[0].key] + Keys(fs[1..])
  }

  predicate HasKey(fs: seq<Field>, k: string) {
    exists i :: 0 <= i < |fs| && fs[i].key == k
  }

  /** `d.get(k)`: the value of the first field with key `k`. */
  function Lookup(fs: seq<Field>, k: string): (r: Option<Json>)
    ensures r.None? <==> !HasKey(fs, k)
    ensures r.Some? ==> exists i :: 0 <= i < |fs| && fs[i].key == k && fs[i].val == r.value
  {
    if |fs| == 0 then None
    else if fs[0].key == k then Some(fs[0].val)
    else
      var r := Lookup(fs[1..], k);
      assert forall i :: 1 <= i < |fs| ==> fs[i] == fs[1..][i - 1];
      r
  }

  /** `d[k] = v`: an existing key keeps its place, a new one goes last. */
  function Put(fs: seq<Field>, k: string, v: Json): (r: seq<Field>)
    ensures Keys(r) == if k in Keys(fs) then Keys(fs) else Keys(fs) + [k]
  {
    if |fs| == 0 then [Field(k, v)]
    else if fs[0].key == k then [Field(k, v)] + fs[1..]
    else
      assert Keys(fs) == [fs[0].key] + Keys(fs[1..]);
      [fs[0]] + Put(fs[1..], k, v)
  }

  lemma {:induction false} PutLookup(fs: seq<Field>, k: string, v: Json, k': string)
    ensures Lookup(Put(fs, k, v), k') == if k' == k then Some(v) else Lookup(fs, k')
  {
    if |fs| > 0 && fs[0].key != k {
      PutLookup(fs[1..], k, v, k');
    }
  }

  /** `d[k] = v` leaves every other key's value alone. */
  lemma PutOthers(fs: seq<Field>, k: string, v: Json)
    ensures forall u :: u != k ==> Lookup(Put(fs, k, v), u) == Lookup(fs, u)
  {
    forall u | u != k ensures Lookup(Put(fs, k, v), u) == Lookup(fs, u) {
      PutLookup(fs, k, v, u);
    }
  }

  /** `d[k] = v` keeps every value a string tree when `v` is one. */
  lemma PutStringTree(fs: seq<Field>, k: string, v: Json)
    requires forall i :: 0 <= i < |fs| ==> IsStringTree(fs[i].val)
    requires IsStringTree(v)
    ensures forall i :: 0 <= i < |Put(fs, k, v)| ==> IsStringTree(Put(fs, k, v)[i].val)
  {
    var fs' := Put(fs, k, v);
    PutFields(fs, k, v);
    forall i | 0 <= i < |fs'| ensures IsStringTree(fs'[i].val) {
      if fs'[i] != Field(k, v) {
        var j :| 0 <= j < |fs| && fs[j] == fs'[i];
      }
    }
  }

  /** Writing back the value a key already has changes nothing. */
  lemma {:induction false} PutSame(fs: seq<Field>, k: string, v: Json)
    requires Lookup(fs, k) == Some(v)
    ensures Put(fs, k, v) == fs
  {
    if fs[0].key != k {
      PutSame(fs[1..], k, v);
    }
  }

  /** Every field after `d[k] = v` is the new one or one that was there. */
  lemma {:induction false} PutFields(fs: seq<Field>, k: string, v: Json)
    ensures forall i :: 0 <= i < |Put(fs, k, v)| ==> Put(fs, k, v)[i] == Field(k, v) || Put(fs, k, v)[i] in fs
  {
    if |fs| > 0 && fs[0].key != k {
      PutFields(fs[1..], k, v);
    }
  }

  /** Every mapping in the document has distinct keys, as a Python dict does. */
  predicate WellFormed(j: Json) {
    match j
    case JList(items) => forall i :: 0 <= i < |items| ==> WellFormed(items[i])
    case JObj(fs) => NoDup(Keys(fs)) && forall i :: 0 <= i < |fs| ==> WellFormed(fs[i].val)
    case _ => true
  }

  /** Python's `==` on documents: mappings compare as key sets with equal
      values, whatever their order; lists element by element; `True == 1`
      and `False == 0`. */
  predicate PyEq(a: Json, b: Json)
    decreases a, b
  {
    match (a, b)
    case (JList(xs), JList(ys)) =>
      |xs| == |ys| && forall i :: 0 <= i < |xs| ==> PyEq(xs[i], ys[i])
    case (JObj(fs), JObj(gs)) =>
      (forall i :: 0 <= i < |fs| ==> HasKey(gs, fs[i].key))
      && (forall i :: 0 <= i < |gs| ==> HasKey(fs, gs[i].key))
      && forall i :: 0 <= i < |fs| ==> PyEqField(fs[i], gs)
    case (JBool(x), JInt(n)) => n == (if x then 1 else 0)
    case (JInt(n), JBool(x)) => n == (if x then 1 else 0)
    case _ => a == b
  }

  /** The field's value equals the value the other mapping has at its key. */
  predicate PyEqField(f: Field, gs: seq<Field>)
    decreases f, gs
  {
    match Lookup(gs, f.key)
    case None => false
    case Some(v) => PyEq(f.val, v)
  }

  /** `str(v)` for a scalar, and `""` for None. */
  function ScalarString(j: Json): string
    requires !j.JList? && !j.JObj?
  {
    match j
    case JNull => ""
    case JBool(b) => if b then "True" else "False"
    case JInt(i) => IntToString(i)
    case JStr(s) => s
  }

  /** A document whose every leaf is a string. */
  predicate IsStringTree(j: Json) {
    match j
    case JStr(_) => true
    case JList(items) => forall i :: 0 <= i < |items| ==> IsStringTree(items[i])
    case JObj(fs) => forall i :: 0 <= i < |fs| ==> IsStringTree(fs[i].val)
    case _ => false
  }

  /** `ensure_string_values`: every leaf becomes its string form, `None`
      the empty string; lists and mappings keep their shape and keys. */
  function Stringify(j: Json): (r: Json)
    decreases j, 1
  {
    match j
    case JList(items) => JList(StringifyAll(items))
    case JObj(fs) => JObj(StringifyFields(fs))
    case _ => JStr(ScalarString(j))
  }

  function StringifyAll(items: seq<Json>): (r: seq<Json>)
    ensures |r| == |items|
    ensures forall i :: 0 <= i < |items| ==> r[i] == Stringify(items[i])
    decreases items, 0
  {
    if |items| == 0 then [] else [Stringify(items[0])] + StringifyAll(items[1..])
  }

  function StringifyFields(fs: seq<Field>): (r: seq<Field>)
    ensures Keys(r) == Keys(fs)
    decreases fs, 0
  {
    if |fs| == 0 then [] else [Field(fs[0].key, Stringify(fs[0].val))] + StringifyFields(fs[1..])
  }

  /** Every leaf of a stringified document is a string. */
  lemma {:induction false} StringifyMakesStringTree(j: Json)
    ensures IsStringTree(Stringify(j))
    decreases j, 1
  {
    match j
    case JList(items) => StringifyAllStringTrees(items);
    case JObj(fs) => StringifyFieldsStringTrees(fs);
    case _ =>
  }

  lemma {:induction false} StringifyAllStringTrees(items: seq<Json>)
    ensures forall i :: 0 <= i < |items| ==> IsStringTree(StringifyAll(items)[i])
    decreases items, 0
  {
    if |items| > 0 {
      StringifyMakesStringTree(items[0]);
      StringifyAllStringTrees(items[1..]);
    }
  }

  lemma {:induction false} StringifyFieldsStringTrees(fs: seq<Field>)
    ensures forall i :: 0 <= i < |fs| ==> IsStringTree(StringifyFields(fs)[i].val)
    decreases fs, 0
  {
    if |fs| > 0 {
      StringifyMakesStringTree(fs[0].val);
      StringifyFieldsStringTrees(fs[1..]);
    }
  }

  /** A document whose leaves are all strings is its own string form. */
  lemma {:induction false} StringifyStringTree(j: Json)
    requires IsStringTree(j)
    ensures Stringify(j) == j
    decreases j, 1
  {
    match j
    case JList(items) => StringifyAllIdentity(items);
    case JObj(fs) => StringifyFieldsIdentity(fs);
    case _ =>
  }

  lemma {:induction false} StringifyAllIdentity(items: seq<Json>)
    requires forall i :: 0 <= i < |items| ==> IsStringTree(items[i])
    ensures StringifyAll(items) == items
    decreases items, 0
  {
    if |items| > 0 {
      StringifyStringTree(items[0]);
      StringifyAllIdentity(items[1..]);
    }
  }

  lemma {:induction false} StringifyFieldsIdentity(fs: seq<Field>)
    requires forall i :: 0 <= i < |fs| ==> IsStringTree(fs[i].val)
    ensures StringifyFields(fs) == fs
    decreases fs, 0
  {
    if |fs| > 0 {
      StringifyStringTree(fs[0].val);
      StringifyFieldsIdentity(fs[1..]);
    }
  }

  /** The string form of a mapping has each value's string form at the same key. */
  lemma {:induction false} StringifyLookup(fs: seq<Field>, k: string)
    ensures Lookup(fs, k).None? ==> Lookup(StringifyFields(fs), k).None?
    ensures Lookup(fs, k).Some? ==> Lookup(StringifyFields(fs), k) == Some(Stringify(Lookup(fs, k).value))
  {
    if |fs| > 0 {
      var sfs := StringifyFields(fs);
      assert sfs == [Field(fs[0].key, Stringify(fs[0].val))] + StringifyFields(fs[1..]);
      assert sfs[1..] == StringifyFields(fs[1..]);
      if fs[0].key != k {
        StringifyLookup(fs[1..], k);
      }
    }
  }
}

=== FILE: lists.dfy ===
/** List operations the canonicaliser and the report builders rely on:
    first-occurrence de-duplication (`list(dict.fromkeys(xs))`) and
    Python's `sorted` on strings. */
module Lists {
  import opened Text

  predicate NoDup<T(==)>(xs: seq<T>) {
    forall i, j :: 0 <= i < j < |xs| ==> xs[i] != xs[j]
  }

  /** `list(dict.fromkeys(xs))`: each element once, at its first position. */
  function Dedupe<T(==)>(xs: seq<T>): seq<T>
    decreases |xs|
  {
    if |xs| == 0 then []
    else
      var d := Dedupe(xs[..|xs| - 1]);
      if xs[|xs| - 1] in d then d else d + [xs[|xs| - 1]]
  }

  /** De-duplication keeps exactly the elements of its input, each once. */
  lemma {:induction false} DedupeProps<T>(xs: seq<T>)
    ensures NoDup(Dedupe(xs))
    ensures forall x :: x in Dedupe(xs) <==> x in xs
    decreases |xs|
  {
    if |xs| > 0 {
      var init := xs[..|xs| - 1];
      DedupeProps(init);
      assert xs == init + [xs[|xs| - 1]];
    }
  }

  /** A list without repetitions is left as it is. */
  lemma {:induction false} DedupeOfNoDup<T>(xs: seq<T>)
    requires NoDup(xs)
    ensures Dedupe(xs) == xs
    decreases |xs|
  {
    if |xs| > 0 {
      var init := xs[..|xs| - 1];
      DedupeOfNoDup(init);
      assert forall k :: 0 <= k < |init| ==> init[k] != xs[|xs| - 1];
      assert xs == init + [xs[|xs| - 1]];
    }
  }

  predicate LessEq(a: string, b: string) {
    a == b || Less(a, b)
  }

  predicate Ascending(xs: seq<string>) {
    forall i, j :: 0 <= i < j < |xs| ==> LessEq(xs[i], xs[j])
  }

  predicate StrictlyAscending(xs: seq<string>) {
    forall i, j :: 0 <= i < j < |xs| ==> Less(xs[i], xs[j])
  }

  /** Puts `x` in front of the first element that is not smaller than it. */
  function Insert(x: string, xs: seq<string>): (r: seq<string>)
    ensures multiset(r) == multiset(xs) + multiset{x}
  {
    if |xs| == 0 then [x]
    else if Less(xs[0], x) then
      assert xs == [xs[0]] + xs[1..];
      [xs[0]] + Insert(x, xs[1..])
    else [x] + xs
  }

  /** `sorted(xs)` for strings. */
  function Sort(xs: seq<string>): (r: seq<string>)
    ensures multiset(r) == multiset(xs)
  {
    if |xs| == 0 then []
    else
      assert xs == [xs[0]] + xs[1..];
      Insert(xs[0], Sort(xs[1..]))
  }

  lemma LessEqTransitive(a: string, b: string, c: string)
    requires LessEq(a, b) && LessEq(b, c)
    ensures LessEq(a, c)
  {
    if a != b && b != c { LessTransitive(a, b, c); }
  }

  lemma {:induction false} InsertAscending(x: string, xs: seq<string>)
    requires Ascending(xs)
    ensures Ascending(Insert(x, xs))
  {
    if |xs| > 0 {
      if Less(xs[0], x) {
        var rest := Insert(x, xs[1..]);
        InsertAscending(x, xs[1..]);
        forall k | 0 <= k < |rest| ensures LessEq(xs[0], rest[k]) {
          assert rest[k] in multiset(rest);
          if rest[k] != x {
            assert rest[k] in multiset(xs[1..]);
            var m :| 0 <= m < |xs[1..]| && xs[1..][m] == rest[k];
            assert xs[m + 1] == rest[k];
          }
        }
      } else {
        if x != xs[0] { LessTotal(x, xs[0]); }
        forall k | 0 <= k < |xs| ensures LessEq(x, xs[k]) {
          if k > 0 { LessEqTransitive(x, xs[0], xs[k]); }
        }
      }
    }
  }

  /** `sorted` returns an ascending permutation of its input. */
  lemma {:induction false} SortAscending(xs: seq<string>)
    ensures Ascending(Sort(xs))
    ensures multiset(Sort(xs)) == multiset(xs)
  {
    if |xs| > 0 {
      SortAscending(xs[1..]);
      InsertAscending(xs[0], Sort(xs[1..]));
    }
  }

  lemma AscendingNoDupIsStrict(xs: seq<string>)
    requires Ascending(xs) && NoDup(xs)
    ensures StrictlyAscending(xs)
  {
  }

  lemma StrictIsAscendingNoDup(xs: seq<string>)
    requires StrictlyAscending(xs)
    ensures Ascending(xs) && NoDup(xs)
  {
    forall i, j | 0 <= i < j < |xs| ensures xs[i] != xs[j] {
      if xs[i] == xs[j] { LessIrreflexive(xs[i]); }
    }
  }

  /** Sorting an already strictly ascending list changes nothing. */
  lemma {:induction false} SortOfStrictlyAscending(xs: seq<string>)
    requires StrictlyAscending(xs)
    ensures Sort(xs) == xs
  {
    if |xs| > 0 {
      SortOfStrictlyAscending(xs[1..]);
      if |xs| > 1 {
        assert Less(xs[0], xs[1]);
        LessAsymmetric(xs[0], xs[1]);
      }
      assert xs == [xs[0]] + xs[1..];
    }
  }

  lemma MultisetNoDup(xs: seq<string>, ys: seq<string>)
    requires multiset(xs) == multiset(ys) && NoDup(xs)
    ensures NoDup(ys)
  {
    forall i, j | 0 <= i < j < |ys| ensures ys[i] != ys[j] {
      if ys[i] == ys[j] {
        var x := ys[i];
        assert multiset(ys)[x] >= 2 by {
          assert ys == ys[..i] + [x] + ys[i + 1..j] + [x] + ys[j + 1..];
        }
        CountAtMostOne(xs, x);
      }
    }
  }

  lemma {:induction false} CountAtMostOne(xs: seq<string>, x: string)
    requires NoDup(xs)
    ensures multiset(xs)[x] <= 1
  {
    if |xs| > 0 {
      var init := xs[..|xs| - 1];
      CountAtMostOne(init, x);
      assert xs == init + [xs[|xs| - 1]];
      if xs[|xs| - 1] == x {
        assert forall k :: 0 <= k < |init| ==> init[k] != x;
      }
    }
  }

  /** `sorted(list(dict.fromkeys(xs)))`: strictly ascending, with the same
      elements as `xs`. */
  lemma SortDedupe(xs: seq<string>)
    ensures StrictlyAscending(Sort(Dedupe(xs)))
    ensures forall x :: x in Sort(Dedupe(xs)) <==> x in xs
  {
    DedupeProps(xs);
    SortAscending(Dedupe(xs));
    MultisetNoDup(Dedupe(xs), Sort(Dedupe(xs)));
    AscendingNoDupIsStrict(Sort(Dedupe(xs)));
    forall x ensures x in Sort(Dedupe(xs)) <==> x in Dedupe(xs) {
      assert x in Sort(Dedupe(xs)) <==> x in multiset(Sort(Dedupe(xs)));
    }
  }

  /** Applied to its own output, `sorted(list(dict.fromkeys(...)))` changes nothing. */
  lemma SortDedupeIdempotent(xs: seq<string>)
    ensures Sort(Dedupe(Sort(Dedupe(xs)))) == Sort(Dedupe(xs))
  {
    var s := Sort(Dedupe(xs));
    SortDedupe(xs);
    StrictIsAscendingNoDup(s);
    DedupeOfNoDup(s);
    SortOfStrictlyAscending(s);
  }
}

=== FILE: passes.dfy ===
/** The classification loops of `process_emails` as the agent runs them:
    the condition and exception checks of one rule, the rule loop of one
    message, and the message loop of each pass, which sorts the caller's
    rule list in place and updates the per-message records and counters. */
module Passes {
  import opened Wrappers
  import opened Text
  import opened Headers
  import opened Patterns
  import opened Rules
  import opened Classify

  /** `_compile_pattern_list` then `_any_regex_match` on one field. */
  method CheckField(e: Engine, pats: Option<seq<string>>, text: string) returns (hit: Option<string>)
    ensures hit == Hit(e, pats, text)
  {
    hit := None;
    if pats.Some? {
      var compiled := CompilePatternList(e, pats.value);
      hit := AnyRegexMatch(e, compiled, text);
    }
  }

  /** `_compile_pattern_list` then `_regex_match_header_any` on the header. */
  method CheckHeaderField(e: Engine, pats: Option<seq<string>>, header: string, sender: string) returns (hit: Option<string>)
    ensures hit == HeaderHit(e, pats, header, sender)
  {
    hit := None;
    if pats.Some? {
      var compiled := CompilePatternList(e, pats.value);
      hit := RegexMatchHeaderAny(e, compiled, header, sender);
    }
  }

  /** The four condition checks: each hit sets `match` and the keyword;
      the second pass skips a field once one has hit. */
  method CheckConditions(e: Engine, p: Pass, c: PatternFields, m: Message, header: string)
    returns (matched: bool, keyword: string)
    ensures var hs := FieldHits(e, c, m, header, false);
      matched == AnyHit(hs) && (matched ==> Some(keyword) == if p == First then LastSome(hs) else FirstSome(hs))
  {
    ghost var hs := FieldHits(e, c, m, header, false);
    FirstOfFour(hs[0], hs[1], hs[2], hs[3]);
    LastOfFour(hs[0], hs[1], hs[2], hs[3]);
    assert hs == [hs[0], hs[1], hs[2], hs[3]];
    matched, keyword := false, "";
    var hit := CheckField(e, c.senders, Lower(m.sender));
    if hit.Some? {
      matched, keyword := true, hit.value;
    }
    if p == First || !matched {
      hit := CheckField(e, c.subject, m.subject);
      if hit.Some? {
        matched, keyword := true, hit.value;
      }
    }
    if p == First || !matched {
      hit := CheckField(e, c.body, m.body);
      if hit.Some? {
        matched, keyword := true, hit.value;
      }
    }
    if p == First || !matched {
      hit := CheckHeaderField(e, c.header, header, m.sender);
      if hit.Some? {
        matched, keyword := true, hit.value;
      }
    }
  }

  /** The exception checks, each run only while the rule still matches;
      the first pass lower-cases the `from` patterns before compiling. */
  method CheckExceptions(e: Engine, p: Pass, x: PatternFields, m: Message, header: string, matched0: bool)
    returns (matched: bool)
    ensures matched == (matched0 && !AnyHit(FieldHits(e, x, m, header, p == First)))
  {
    ghost var xs := FieldHits(e, x, m, header, p == First);
    FirstOfFour(xs[0], xs[1], xs[2], xs[3]);
    assert xs == [xs[0], xs[1], xs[2], xs[3]];
    matched := matched0;
    if matched {
      var from := if p == First && x.senders.Some? then Some(LowerEach(x.senders.value)) else x.senders;
      var hit := CheckField(e, from, Lower(m.sender));
      matched := hit.None?;
    }
    if matched {
      var hit := CheckField(e, x.subject, m.subject);
      matched := hit.None?;
    }
    if matched {
      var hit := CheckField(e, x.body, m.body);
      matched := hit.None?;
    }
    if matched {
      var hit := CheckHeaderField(e, x.header, header, m.sender);
      matched := hit.None?;
    }
  }

  /** One rule on one message: a missing `conditions` or `exceptions` key
      raises; otherwise the conditions, then the exceptions. */
  method MatchRule(e: Engine, p: Pass, r: Rule, m: Message, header: string) returns (v: Verdict)
    ensures v == Judge(e, p, r, m, header)
  {
    if r.conditions.None? || r.exceptions.None? {
      return Abort;
    }
    var matched, keyword := CheckConditions(e, p, r.conditions.value, m, header);
    matched := CheckExceptions(e, p, r.exceptions.value, m, header, matched);
    v := if matched then Match(keyword) else NoMatch;
  }

  /** The body of the rule loop for one rule: judge it, update the
      record, and make the delete call of a matched deleting rule. Either
      the loop leaves with `w`, or it goes on with `k'` and `rec'`. */
  method RuleStep(e: Engine, p: Pass, r: Rule, ghost rest: seq<Rule>, m: Message, header: string, ops: MailOps, k: nat, rec: Record)
    returns (stop: bool, w: Walk, k': nat, rec': Record)
    ensures stop ==> w == WalkRules(e, p, [r] + rest, m, header, ops, k, rec)
    ensures !stop ==> WalkRules(e, p, [r] + rest, m, header, ops, k, rec) == WalkRules(e, p, rest, m, header, ops, k', rec')
  {
    assert ([r] + rest)[0] == r && ([r] + rest)[1..] == rest;
    stop, w, k', rec' := false, Walk(rec, k, false, Exhausted), k, rec;
    var v := MatchRule(e, p, r, m, header);
    match v
    case Abort =>
      stop, w := true, Walk(rec, k, false, Raised);
    case NoMatch =>
      if p == First {
        rec' := Record(false, None, "", header, true);
      }
    case Match(kw) =>
      if p == First {
        rec' := Record(true, Some(r), kw, header, true);
      } else {
        rec' := rec.(matched := true, rule := Some(r), keyword := kw, processed := true);
      }
      if r.delete {
        k' := k + 1;
        if ops.deleteOk(k) {
          stop, w := true, Walk(rec', k', true, Break);
        } else if p == First {
          stop, w := true, Walk(rec', k', false, Break);
        }
      }
  }

  /** The rule loop of one message: the rules in sorted order until one
      ends the loop. */
  method EvaluateRules(e: Engine, p: Pass, rs: seq<Rule>, m: Message, header: string, ops: MailOps, rec0: Record)
    returns (w: Walk)
    ensures w == WalkRules(e, p, rs, m, header, ops, 0, rec0)
  {
    var rec := rec0;
    var k := 0;
    var i := 0;
    while i < |rs|
      invariant 0 <= i <= |rs|
      invariant WalkRules(e, p, rs[i..], m, header, ops, k, rec) == WalkRules(e, p, rs, m, header, ops, 0, rec0)
      decreases |rs| - i
    {
      SuffixCons(rs, i);
      var stop;
      stop, w, k, rec := RuleStep(e, p, rs[i], rs[i + 1..], m, header, ops, k, rec);
      if stop {
        return;
      }
      i := i + 1;
    }
    w := Walk(rec, k, false, Exhausted);
  }

  lemma SuffixCons(rs: seq<Rule>, i: nat)
    requires i < |rs|
    ensures rs[i..] == [rs[i]] + rs[i + 1..]
  {
  }

  /** One message of a pass: combine its header, check the safe senders,
      then run the rules. */
  method ProcessMessage(e: Engine, p: Pass, safe: seq<string>, rs: seq<Rule>, m: Message, ops: MailOps, rec: Record)
    returns (o: Outcome)
    ensures o == ClassifyMessage(e, p, safe, rs, m, ops, rec)
  {
    var combined := CombineHeaderLines(m.rawHeader);
    assert PassHeader(p, m.rawHeader) == if combined.Some? then combined else if p == First then Some("") else None;
    var header := "";
    if combined.Some? {
      header := combined.value;
    } else if p == Second {
      return Outcome(rec, false, false, false);
    }
    var record := rec;
    if p == Second {
      record := record.(header := header);
    }
    o := JudgeMessage(e, p, safe, rs, m, ops, record, header);
  }

  /** The safe-sender check and the rule walk of one message. */
  method JudgeMessage(e: Engine, p: Pass, safe: seq<string>, rs: seq<Rule>, m: Message, ops: MailOps, record: Record, header: string)
    returns (o: Outcome)
    ensures o == Judged(e, p, safe, rs, m, ops, record, header)
  {
    if RegexMatchHeaderAny(e, safe, header, m.sender).Some? {
      if !ops.moveOk || !ops.deleteOk(0) {
        return Outcome(record, false, false, p == First);
      }
      return Outcome(record, true, p == Second, true);
    }
    var w := EvaluateRules(e, p, rs, m, header, ops, record);
    o := Outcome(w.record, w.deleted, w.deleted, p == First || w.exit != Raised);
  }

  /** The outcome of message `i` of the pass. */
  method ProcessAt(e: Engine, p: Pass, safe: seq<string>, rs: seq<Rule>, msgs: seq<Message>, ops: nat -> MailOps, i: nat)
    returns (o: Outcome)
    requires i < |msgs|
    ensures o == Outcomes(e, p, safe, rs, msgs, ops)[i]
  {
    o := ProcessMessage(e, p, safe, rs, msgs[i], ops(i), Fresh);
  }

  method ClassifyAll(e: Engine, p: Pass, safe: seq<string>, rs: seq<Rule>, msgs: seq<Message>, ops: nat -> MailOps)
    returns (records: seq<Record>, processed: nat, deleted: nat)
    ensures |records| == |msgs|
    ensures forall i :: 0 <= i < |msgs| ==> records[i] == ClassifyMessage(e, p, safe, rs, msgs[i], ops(i), Fresh).record
    ensures processed == CountProcessed(Outcomes(e, p, safe, rs, msgs, ops))
    ensures deleted == CountDeleted(Outcomes(e, p, safe, rs, msgs, ops))
  {
    ghost var os := Outcomes(e, p, safe, rs, msgs, ops);
    records := seq(|msgs|, _ => Fresh);
    processed, deleted := 0, 0;
    for i := 0 to |msgs|
      invariant |records| == |msgs|
      invariant forall j :: 0 <= j < i ==> records[j] == os[j].record
      invariant processed == CountProcessed(os[..i]) && deleted == CountDeleted(os[..i])
    {
      var o := ProcessAt(e, p, safe, rs, msgs, ops, i);
      CountsStep(os, i);
      records := records[i := o.record];
      if o.countedProcessed {
        processed := processed + 1;
      }
      if o.countedDeleted {
        deleted := deleted + 1;
      }
    }
    assert os[..|msgs|] == os;
  }

  /** The message loop of one pass. With no message nothing happens;
      otherwise the caller's rules are sorted in place, deleting rules
      last, the safe senders compiled, and every message classified from a
      fresh record, counting the processed and deleted messages. */
  method RunPass(e: Engine, p: Pass, rules: array<Rule>, safeSenders: seq<string>, msgs: seq<Message>, ops: nat -> MailOps)
    returns (records: seq<Record>, processed: nat, deleted: nat)
    modifies rules
    ensures rules[..] == if |msgs| == 0 then old(rules[..]) else DeleteLast(old(rules[..]))
    ensures |records| == |msgs|
    ensures forall i :: 0 <= i < |msgs| ==>
      records[i] == ClassifyMessage(e, p, Compilable(e, safeSenders), rules[..], msgs[i], ops(i), Fresh).record
    ensures processed == CountProcessed(Outcomes(e, p, Compilable(e, safeSenders), rules[..], msgs, ops))
    ensures deleted == CountDeleted(Outcomes(e, p, Compilable(e, safeSenders), rules[..], msgs, ops))
  {
    if |msgs| == 0 {
      return [], 0, 0;
    }
    SortRulesByDelete(rules);
    var safe := CompilePatternList(e, safeSenders);
    records, processed, deleted := ClassifyAll(e, p, safe, rules[..], msgs, ops);
  }
}

=== FILE: patterns.dfy ===
/** The pattern layer of the agent: compiling pattern lists, first-match
    search, and matching against the two header tokens. The regular
    expression engine is not modelled; it is given as an `Engine` value. */
module Patterns {
  import opened Wrappers
  import opened Text
  import opened Headers

  /** Python's `re` with `re.IGNORECASE`, taken as given: whether a
      pattern compiles, and whether a compiled pattern finds a match
      anywhere in a text (`pattern.search(text)`). A compiled pattern is
      identified with its pattern string, as `pat.pattern` gives it back. */
  datatype Engine = Engine(compiles: string -> bool, search: (string, string) -> bool)

  /** The patterns of `ps` that compile, in their order. */
  function Compilable(e: Engine, ps: seq<string>): (r: seq<string>)
    ensures |r| <= |ps|
    ensures forall p :: p in r <==> p in ps && e.compiles(p)
  {
    if |ps| == 0 then []
    else Compilable(e, ps[..|ps| - 1]) + (if e.compiles(ps[|ps| - 1]) then [ps[|ps| - 1]] else [])
  }

  /** Compiling keeps the input order: the compilable patterns of a
      concatenation are those of each part, one after the other. */
  lemma {:induction false} CompilableAppend(e: Engine, ps: seq<string>, qs: seq<string>)
    ensures Compilable(e, ps + qs) == Compilable(e, ps) + Compilable(e, qs)
    decreases |qs|
  {
    if |qs| == 0 {
      assert ps + qs == ps;
    } else {
      var q := qs[|qs| - 1];
      assert (ps + qs)[..|ps + qs| - 1] == ps + qs[..|qs| - 1];
      CompilableAppend(e, ps, qs[..|qs| - 1]);
    }
  }

  /** One pattern is kept exactly when it compiles. */
  lemma CompilableOne(e: Engine, p: string)
    ensures Compilable(e, [p]) == if e.compiles(p) then [p] else []
  {
    assert [p][..0] == [];
  }

  /** `_compile_pattern_list`: every pattern that compiles is kept, in
      order; one that does not is logged and skipped, never raised. */
  method CompilePatternList(e: Engine, patterns: seq<string>) returns (compiled: seq<string>)
    ensures compiled == Compilable(e, patterns)
    ensures forall p :: p in compiled <==> p in patterns && e.compiles(p)
  {
    compiled := [];
    var i := 0;
    while i < |patterns|
      invariant 0 <= i <= |patterns|
      invariant compiled == Compilable(e, patterns[..i])
    {
      assert patterns[..i + 1][..i] == patterns[..i];
      if e.compiles(patterns[i]) {
        compiled := compiled + [patterns[i]];
      }
      i := i + 1;
    }
    assert patterns[..i] == patterns;
  }

  /** The index of the first pattern that finds a match in `text`, or |ps|. */
  function FirstHit(e: Engine, ps: seq<string>, text: string): (k: nat)
    ensures k <= |ps|
    ensures k < |ps| ==> e.search(ps[k], text)
    ensures forall j :: 0 <= j < k ==> !e.search(ps[j], text)
  {
    if |ps| == 0 then 0
    else if e.search(ps[0], text) then 0
    else 1 + FirstHit(e, ps[1..], text)
  }

  /** No pattern of `ps` finds a match in `text`. */
  predicate NoHit(e: Engine, ps: seq<string>, text: string) {
    forall j :: 0 <= j < |ps| ==> !e.search(ps[j], text)
  }

  /** `_any_regex_match`: the first pattern, in list order, that matches
      somewhere in the text; `None` when none does. */
  function AnyRegexMatch(e: Engine, compiled: seq<string>, text: string): (r: Option<string>)
    ensures r.None? <==> NoHit(e, compiled, text)
    ensures r.Some? ==> exists k :: 0 <= k < |compiled| && compiled[k] == r.value && e.search(r.value, text)
                                   && forall j :: 0 <= j < k ==> !e.search(compiled[j], text)
  {
    var k := FirstHit(e, compiled, text);
    if k < |compiled| then Some(compiled[k]) else None
  }

  /** The index of the first pattern of `ps` that both compiles and
      matches `text`, or |ps|. */
  function FirstUsable(e: Engine, ps: seq<string>, text: string): (k: nat)
    ensures k <= |ps|
    ensures k < |ps| ==> e.compiles(ps[k]) && e.search(ps[k], text)
    ensures forall j :: 0 <= j < k ==> !(e.compiles(ps[j]) && e.search(ps[j], text))
  {
    if |ps| == 0 then 0
    else if e.compiles(ps[0]) && e.search(ps[0], text) then 0
    else 1 + FirstUsable(e, ps[1..], text)
  }

  /** The compilable patterns of a non-empty list: its head, if it
      compiles, then those of its tail. */
  lemma CompilableCons(e: Engine, ps: seq<string>)
    requires |ps| > 0
    ensures Compilable(e, ps) == (if e.compiles(ps[0]) then [ps[0]] else []) + Compilable(e, ps[1..])
  {
    assert ps == [ps[0]] + ps[1..];
    CompilableAppend(e, [ps[0]], ps[1..]);
    CompilableOne(e, ps[0]);
  }

  /** Searching a list headed by `p` tries `p` first. */
  lemma AnyRegexMatchCons(e: Engine, p: string, cs: seq<string>, text: string)
    ensures AnyRegexMatch(e, [p] + cs, text) == if e.search(p, text) then Some(p) else AnyRegexMatch(e, cs, text)
  {
    assert ([p] + cs)[1..] == cs;
  }

  /** Searching the compilable patterns of `ps` finds the first pattern
      of `ps` that both compiles and matches. */
  lemma {:induction false} FirstCompilableMatch(e: Engine, ps: seq<string>, text: string)
    ensures AnyRegexMatch(e, Compilable(e, ps), text) ==
      var k := FirstUsable(e, ps, text); if k < |ps| then Some(ps[k]) else None
  {
    if |ps| > 0 {
      var p, rest := ps[0], ps[1..];
      var cs := Compilable(e, rest);
      CompilableCons(e, ps);
      if e.compiles(p) && e.search(p, text) {
        AnyRegexMatchCons(e, p, cs, text);
      } else {
        FirstCompilableMatch(e, rest, text);
        if e.compiles(p) {
          AnyRegexMatchCons(e, p, cs, text);
        } else {
          assert Compilable(e, ps) == cs;
        }
        var k := FirstUsable(e, rest, text);
        assert FirstUsable(e, ps, text) == 1 + k;
        assert k < |rest| ==> ps[1 + k] == rest[k];
      }
    }
  }

  /** `(s or "").strip().lower()`. */
  function Token(s: string): string {
    Lower(Strip(s))
  }

  /** The tokens `_regex_match_header_any` tries, in order: the `@domain`
      of the header's From line, then the sender address, each stripped
      and lower-cased, an empty one left out. */
  function HeaderCandidates(header: string, sender: string): seq<string> {
    NonEmpty(Token(HeaderFrom(header)), Token(sender))
  }

  /** `a` then `b`, each only when it is not empty. */
  function NonEmpty(a: string, b: string): (cs: seq<string>)
    ensures "" !in cs
    ensures forall c :: c in cs <==> c != "" && (c == a || c == b)
  {
    (if a != "" then [a] else []) + (if b != "" then [b] else [])
  }

  /** `_regex_match_header_any`: the first candidate token on which some
      pattern matches decides, and the pattern reported is the first one
      matching that token. */
  function RegexMatchHeaderAny(e: Engine, compiled: seq<string>, header: string, sender: string): (r: Option<string>)
    ensures compiled == [] ==> r.None?
    ensures r.None? <==> forall c :: c in HeaderCandidates(header, sender) ==> NoHit(e, compiled, c)
    ensures r.Some? ==> exists c :: c in HeaderCandidates(header, sender) && AnyRegexMatch(e, compiled, c) == r
  {
    if compiled == [] then None
    else FirstTokenMatch(e, compiled, HeaderCandidates(header, sender))
  }

  /** The outer loop of `_regex_match_header_any`, over the candidate tokens. */
  function FirstTokenMatch(e: Engine, compiled: seq<string>, cands: seq<string>): (r: Option<string>)
    ensures r.None? <==> forall c :: c in cands ==> NoHit(e, compiled, c)
    ensures r.Some? ==> exists c :: c in cands && AnyRegexMatch(e, compiled, c) == r
  {
    if |cands| == 0 then None
    else
      var m := AnyRegexMatch(e, compiled, cands[0]);
      assert forall c :: c in cands <==> c == cands[0] || c in cands[1..];
      if m.Some? then m else FirstTokenMatch(e, compiled, cands[1..])
  }

  /** The raw header text is never searched: two headers whose From lines
      yield the same `@domain` token give the same verdict. */
  lemma HeaderMatchSeesOnlyTokens(e: Engine, compiled: seq<string>, h1: string, h2: string, sender: string)
    requires HeaderFrom(h1) == HeaderFrom(h2)
    ensures RegexMatchHeaderAny(e, compiled, h1, sender) == RegexMatchHeaderAny(e, compiled, h2, sender)
  {
    var cands := HeaderCandidates(h1, sender);
    assert HeaderCandidates(h2, sender) == cands;
    assert RegexMatchHeaderAny(e, compiled, h1, sender) == if compiled == [] then None else FirstTokenMatch(e, compiled, cands);
  }

  /** Two candidate tokens: the first is tried before the second. */
  lemma {:induction false} TwoTokenOrder(e: Engine, compiled: seq<string>, a: string, b: string)
    ensures FirstTokenMatch(e, compiled, NonEmpty(a, b)) ==
      if a != "" && AnyRegexMatch(e, compiled, a).Some? then AnyRegexMatch(e, compiled, a)
      else if b != "" then AnyRegexMatch(e, compiled, b)
      else None
  {
    var cs := NonEmpty(a, b);
    if a != "" {
      assert cs[0] == a && cs[1..] == (if b != "" then [b] else []);
      if b != "" { assert cs[1..][1..] == []; }
    } else if b != "" {
      assert cs == [b] && cs[1..] == [];
    }
  }

  /** `_regex_match_header_any` in full: the header's `@domain` token is
      tried before the sender, a hit on it wins, an empty token is skipped,
      and an empty pattern list matches nothing. */
  lemma HeaderMatchOrder(e: Engine, compiled: seq<string>, header: string, sender: string)
    ensures RegexMatchHeaderAny(e, compiled, header, sender) ==
      var a, b := Token(HeaderFrom(header)), Token(sender);
      if compiled == [] then None
      else if a != "" && AnyRegexMatch(e, compiled, a).Some? then AnyRegexMatch(e, compiled, a)
      else if b != "" then AnyRegexMatch(e, compiled, b)
      else None
  {
    HeaderAnyTriesCandidates(e, compiled, header, sender);
    TwoTokenOrder(e, compiled, Token(HeaderFrom(header)), Token(sender));
  }

  lemma HeaderAnyTriesCandidates(e: Engine, compiled: seq<string>, header: string, sender: string)
    ensures RegexMatchHeaderAny(e, compiled, header, sender) ==
      if compiled == [] then None else FirstTokenMatch(e, compiled, NonEmpty(Token(HeaderFrom(header)), Token(sender)))
  {
  }
}

=== FILE: regex_check.dfy ===
/** The rule tester's pattern checks: `validateRegexPattern`, which
    compiles a pattern and flags four shapes known for catastrophic
    backtracking, and the `test_regex_pattern` tool. */
module RegexCheck {
  import opened Wrappers
  import opened Text
  import opened JsValues

  /** The descriptions of the four dangerous-pattern heuristics, in the
      order they are tried. */
  const Heuristics: seq<string> := ["Multiple .* in sequence", ".* followed by +", "(.+)* pattern", "([...]+)* pattern"]

  /** A character JavaScript's `.` does not match. */
  predicate IsLineTerminator(c: char) {
    c == '\n' || c == '\r' || c == '\U{2028}' || c == '\U{2029}'
  }

  /** The regular expression `\(\[.*\]\+\)\*` finds a match: `([`, then a run without line
      terminators, then `]+)*`. */
  predicate BracketGroupRepeated(p: string) {
    exists i, j :: 0 <= i && i + 2 <= j <= |p| && OpensAt(p, i) && ClosesAt(p, j) && NoLineTerminator(p, i + 2, j)
  }

  predicate OpensAt(p: string, i: nat) {
    i + 2 <= |p| && p[i..i + 2] == "(["
  }

  predicate ClosesAt(p: string, j: nat) {
    j + 4 <= |p| && p[j..j + 4] == "]+)*"
  }

  predicate NoLineTerminator(p: string, from: nat, to: nat)
    requires from <= to <= |p|
  {
    forall t :: from <= t < to ==> !IsLineTerminator(p[t])
  }

  /** Whether heuristic `k` fires on the pattern text: the regular
      expressions `(\.\*){2,}`, `\(\.\*\+`, `\(\.\+\)\*` and
      `\(\[.*\]\+\)\*` tested against it, case-sensitively. */
  predicate Fires(k: nat, p: string)
    requires k < |Heuristics|
  {
    if k == 0 then HasSubstring(p, ".*.*")
    else if k == 1 then HasSubstring(p, "(.*+")
    else if k == 2 then HasSubstring(p, "(.+)*")
    else BracketGroupRepeated(p)
  }

  function Warning(desc: string): string {
    "Performance warning: " + desc + " (catastrophic backtracking risk)"
  }

  /** The warnings of the first `n` heuristics, in order. */
  function WarningsUpTo(p: string, n: nat): (ws: seq<string>)
    requires n <= |Heuristics|
    ensures |ws| <= n
    ensures forall w :: w in ws <==> exists k :: 0 <= k < n && Fires(k, p) && w == Warning(Heuristics[k])
  {
    if n == 0 then []
    else WarningsUpTo(p, n - 1) + (if Fires(n - 1, p) then [Warning(Heuristics[n - 1])] else [])
  }

  /** What `validateRegexPattern` returns. */
  datatype Validation = Valid(warnings: seq<string>) | Invalid(error: string)

  function Validate(e: JsEngine, p: string): Validation {
    if !e.compiles(p) then Invalid(e.message(p)) else Valid(WarningsUpTo(p, |Heuristics|))
  }

  /** A pattern is invalid, with the engine's message, exactly when
      `new RegExp` throws; otherwise it carries one warning per heuristic
      it fires, at most four, and none when it fires none. */
  lemma ValidateMeaning(e: JsEngine, p: string)
    ensures Validate(e, p).Invalid? <==> !e.compiles(p)
    ensures Validate(e, p).Invalid? ==> Validate(e, p).error == e.message(p)
    ensures Validate(e, p).Valid? ==> |Validate(e, p).warnings| <= 4
    ensures Validate(e, p).Valid? ==> forall w :: w in Validate(e, p).warnings <==>
      exists k :: 0 <= k < 4 && Fires(k, p) && w == Warning(Heuristics[k])
  {
  }

  /** `validateRegexPattern`: compile, then try each heuristic in turn. */
  method ValidateRegexPattern(e: JsEngine, p: string) returns (v: Validation)
    ensures v == Validate(e, p)
  {
    if !e.compiles(p) {
      return Invalid(e.message(p));
    }
    var warnings := [];
    for k := 0 to |Heuristics|
      invariant warnings == WarningsUpTo(p, k)
    {
      if Fires(k, p) {
        warnings := warnings + [Warning(Heuristics[k])];
      }
    }
    return Valid(warnings);
  }

  /** A pattern that nests a repeated `.+` group is flagged. */
  lemma NestedPlusFlagged(e: JsEngine, p: string)
    requires e.compiles(p) && HasSubstring(p, "(.+)*")
    ensures Warning("(.+)* pattern") in Validate(e, p).warnings
  {
    assert Fires(2, p);
  }

  /** One entry of `results`: the string and whether the pattern matches
      it. */
  datatype TestResult = TestResult(str: string, matches: bool)

  /** The reply of `test_regex_pattern`. */
  datatype TestReport = TestReport(pattern: string, warnings: seq<string>, results: seq<TestResult>, matchCount: nat, totalCount: nat)

  function MatchCount(rs: seq<TestResult>): (n: nat)
    ensures n <= |rs|
  {
    if |rs| == 0 then 0 else MatchCount(rs[..|rs| - 1]) + (if rs[|rs| - 1].matches then 1 else 0)
  }

  /** `test_strings.map(...)`. */
  function TestAll(e: JsEngine, p: string, strs: seq<string>): (rs: seq<TestResult>)
    ensures |rs| == |strs|
    ensures forall i :: 0 <= i < |strs| ==> rs[i] == TestResult(strs[i], e.test(p, strs[i]))
  {
    if |strs| == 0 then [] else TestAll(e, p, strs[..|strs| - 1]) + [TestResult(strs[|strs| - 1], e.test(p, strs[|strs| - 1]))]
  }

  /** `test_regex_pattern`: an invalid pattern gives the error reply;
      otherwise every string is tested and the matches counted. */
  function TestRegexPattern(e: JsEngine, p: string, strs: seq<string>): (r: Result<TestReport, Failure>)
    ensures r.Err? <==> !e.compiles(p)
    ensures r.Err? ==> r.error == RegexError(e.message(p))
    ensures r.Ok? ==> (r.value.totalCount == |strs| && |r.value.results| == |strs|
      && r.value.warnings == Validate(e, p).warnings)
  {
    match Validate(e, p)
    case Invalid(msg) => Err(RegexError(msg))
    case Valid(ws) =>
      var results := TestAll(e, p, strs);
      Ok(TestReport(p, ws, results, MatchCount(results), |results|))
  }

  /** The match count is the number of strings the pattern matches: all
      of them exactly when each matches, none exactly when none does. */
  lemma {:induction false} MatchCountMeaning(rs: seq<TestResult>)
    ensures MatchCount(rs) == |rs| <==> forall i :: 0 <= i < |rs| ==> rs[i].matches
    ensures MatchCount(rs) == 0 <==> forall i :: 0 <= i < |rs| ==> !rs[i].matches
  {
    if |rs| > 0 {
      var init := rs[..|rs| - 1];
      MatchCountMeaning(init);
      assert forall i :: 0 <= i < |init| ==> init[i] == rs[i];
    }
  }

  /** Adding a string adds one to the total and one to the matches
      exactly when the pattern matches it. */
  lemma TestRegexPatternAppend(e: JsEngine, p: string, strs: seq<string>, s: string)
    requires e.compiles(p)
    ensures TestRegexPattern(e, p, strs + [s]).value.matchCount ==
      TestRegexPattern(e, p, strs).value.matchCount + (if e.test(p, s) then 1 else 0)
  {
    var rs := TestAll(e, p, strs + [s]);
    assert rs[..|rs| - 1] == TestAll(e, p, strs);
  }
}

=== FILE: retry.dfy ===
/** The `*_with_retry` helpers of the agent: each tries one mailbox
    operation up to `max_retries` times, returns after the first attempt
    that succeeds, and re-raises the error of the last attempt. The
    mailbox is not modelled: whether attempt `k` succeeds is given as
    `ok(k)`. The pauses between attempts are left out. */
module Retry {

  /** The default `max_retries` of every helper. */
  const DefaultMaxRetries: nat := 10

  /** How a helper ends: it returns after `attempts` attempts, or raises
      after `attempts` failed ones. */
  datatype Outcome = Returned(attempts: nat) | Raised(attempts: nat)

  /** The first attempt below `n` that succeeds, or `n` when none does. */
  function FirstSuccess(ok: nat -> bool, n: nat): (k: nat)
    ensures k <= n
    ensures k < n ==> ok(k)
    ensures forall j :: 0 <= j < k ==> !ok(j)
  {
    if n == 0 then 0
    else
      var k := FirstSuccess(ok, n - 1);
      if k < n - 1 then k else if ok(n - 1) then n - 1 else n
  }

  /** What a helper does with `max_retries` attempts: it returns on the
      first success; when every attempt fails the last one re-raises; with
      no attempt at all it returns without trying. */
  function Retried(ok: nat -> bool, maxRetries: nat): Outcome {
    var k := FirstSuccess(ok, maxRetries);
    if k < maxRetries then Returned(k + 1)
    else if maxRetries == 0 then Returned(0)
    else Raised(maxRetries)
  }

  /** The attempt loop shared by every `*_with_retry` helper. */
  method WithRetry(ok: nat -> bool, maxRetries: nat) returns (o: Outcome)
    ensures o == Retried(ok, maxRetries)
  {
    var attempt := 0;
    while attempt < maxRetries
      invariant 0 <= attempt <= maxRetries
      invariant maxRetries > 0 ==> attempt < maxRetries
      invariant forall j :: 0 <= j < attempt ==> !ok(j)
    {
      if ok(attempt) {
        return Returned(attempt + 1);
      }
      if attempt == maxRetries - 1 {
        return Raised(maxRetries);
      }
      attempt := attempt + 1;
    }
    return Returned(0);
  }

  /** A helper raises exactly when it made at least one attempt and every
      attempt failed; it returns after the first successful attempt and
      never tries more than `max_retries` times. */
  lemma RetriedMeaning(ok: nat -> bool, maxRetries: nat)
    ensures Retried(ok, maxRetries).Raised? <==> maxRetries > 0 && forall j :: 0 <= j < maxRetries ==> !ok(j)
    ensures Retried(ok, maxRetries).attempts <= maxRetries
    ensures Retried(ok, maxRetries).Returned? && maxRetries > 0 ==>
      var n := Retried(ok, maxRetries).attempts;
      n > 0 && ok(n - 1) && forall j :: 0 <= j < n - 1 ==> !ok(j)
  {
    var k := FirstSuccess(ok, maxRetries);
    if k == maxRetries && maxRetries > 0 {
      assert forall j :: 0 <= j < maxRetries ==> !ok(j);
    }
  }

  /** The first success below `n` is the first success below any larger
      bound too. */
  lemma {:induction false} FirstSuccessStable(ok: nat -> bool, n: nat, m: nat)
    requires n <= m && FirstSuccess(ok, n) < n
    ensures FirstSuccess(ok, m) == FirstSuccess(ok, n)
    decreases m - n
  {
    if n < m {
      FirstSuccessStable(ok, n, m - 1);
    }
  }

  /** The first success is the attempt that succeeds after failures only. */
  lemma FirstSuccessAt(ok: nat -> bool, n: nat, k: nat)
    requires k <= n && (k < n ==> ok(k)) && forall j :: 0 <= j < k ==> !ok(j)
    ensures FirstSuccess(ok, n) == k
  {
  }

  /** Allowing more attempts never changes the outcome of a call that
      succeeded. */
  lemma MoreRetriesSameSuccess(ok: nat -> bool, n: nat, m: nat)
    requires n <= m && Retried(ok, n).Returned? && n > 0
    ensures Retried(ok, m) == Retried(ok, n)
  {
    FirstSuccessStable(ok, n, m);
  }

  /** `mark_email_read_with_retry` on an item that is `unread`: the first
      attempt clears `UnRead` in memory and then saves; when that save
      fails, the next attempt finds the item read and returns at once. */
  function MarkReadOutcome(unread: bool, saveOk: nat -> bool, maxRetries: nat): Outcome {
    if maxRetries == 0 then Returned(0)
    else if !unread || saveOk(0) then Returned(1)
    else if maxRetries == 1 then Raised(1)
    else Returned(2)
  }

  /** Marking read is the retry loop in which every attempt after the
      first succeeds: the save is tried at most once, and the helper
      raises only when a single attempt was allowed and that save failed. */
  lemma MarkReadIsRetried(unread: bool, saveOk: nat -> bool, maxRetries: nat)
    ensures MarkReadOutcome(unread, saveOk, maxRetries) == Retried(ReadAttemptOk(unread, saveOk), maxRetries)
    ensures MarkReadOutcome(unread, saveOk, maxRetries).attempts <= 2
    ensures MarkReadOutcome(unread, saveOk, maxRetries).Raised? <==> unread && maxRetries == 1 && !saveOk(0)
  {
    var ok := ReadAttemptOk(unread, saveOk);
    if maxRetries >= 2 {
      assert FirstSuccess(ok, 2) == (if ok(0) then 0 else 1);
      FirstSuccessStable(ok, 2, maxRetries);
    } else if maxRetries == 1 {
      assert FirstSuccess(ok, 1) == (if ok(0) then 0 else 1);
    }
  }

  /** Whether attempt `k` of marking read returns. */
  function ReadAttemptOk(unread: bool, saveOk: nat -> bool): nat -> bool {
    (k: nat) => !unread || k > 0 || saveOk(0)
  }

  /** Whether attempt `k` of a move returns: both the copy and the move of
      the copy must. */
  function Both(copyOk: nat -> bool, moveOk: nat -> bool): nat -> bool {
    (k: nat) => copyOk(k) && moveOk(k)
  }

  /** The first attempt whose copy and move both return, after attempts
      that did not. */
  lemma BothFirstSuccess(copyOk: nat -> bool, moveOk: nat -> bool, n: nat, k: nat)
    requires k <= n && (k < n ==> copyOk(k) && moveOk(k))
    requires forall j :: 0 <= j < k ==> !(copyOk(j) && moveOk(j))
    ensures FirstSuccess(Both(copyOk, moveOk), n) == k
    ensures Retried(Both(copyOk, moveOk), n) == if k < n then Returned(k + 1) else if n == 0 then Returned(0) else Raised(n)
  {
    FirstSuccessAt(Both(copyOk, moveOk), n, k);
  }

  /** The copies the first `n` attempts of a move leave in `folder`: one
      for each attempt whose copy was made but could not be moved. */
  function Leftovers(copyOk: nat -> bool, moveOk: nat -> bool, folder: string, n: nat): (r: seq<string>)
    ensures |r| <= n
    ensures forall i :: 0 <= i < |r| ==> r[i] == folder
  {
    if n == 0 then []
    else if copyOk(n - 1) && !moveOk(n - 1) then Leftovers(copyOk, moveOk, folder, n - 1) + [folder]
    else Leftovers(copyOk, moveOk, folder, n - 1)
  }

  /** No copy is left behind exactly when no attempt made a copy it could
      not move. */
  lemma {:induction false} LeftoversNone(copyOk: nat -> bool, moveOk: nat -> bool, folder: string, n: nat)
    ensures Leftovers(copyOk, moveOk, folder, n) == [] <==> forall j :: 0 <= j < n ==> !(copyOk(j) && !moveOk(j))
  {
    if n > 0 {
      LeftoversNone(copyOk, moveOk, folder, n - 1);
    }
  }

  /** The attempt loop of a move: each attempt copies the item into
      `folder` and moves the copy; the copies whose move failed are left
      in `folder`. */
  method MoveAttempts(copyOk: nat -> bool, moveOk: nat -> bool, folder: string, maxRetries: nat)
    returns (o: Outcome, left: seq<string>)
    ensures o == Retried(Both(copyOk, moveOk), maxRetries)
    ensures left == Leftovers(copyOk, moveOk, folder, FirstSuccess(Both(copyOk, moveOk), maxRetries))
  {
    left := [];
    var attempt := 0;
    while attempt < maxRetries && !(copyOk(attempt) && moveOk(attempt))
      invariant attempt <= maxRetries
      invariant forall j :: 0 <= j < attempt ==> !(copyOk(j) && moveOk(j))
      invariant left == Leftovers(copyOk, moveOk, folder, attempt)
    {
      if copyOk(attempt) {
        left := left + [folder];
      }
      attempt := attempt + 1;
    }
    BothFirstSuccess(copyOk, moveOk, maxRetries, attempt);
    if attempt < maxRetries {
      o := Returned(attempt + 1);
    } else if maxRetries == 0 {
      o := Returned(0);
    } else {
      o := Raised(maxRetries);
    }
  }

  /** A mail item as the helpers see it: the fields they change, in
      memory, and whether a change a helper meant to `Save` is not yet
      stored. The copies of the item are recorded by the name of the
      folder each is in; the item itself is in `folder`. */
  class MailItem {
    var unread: bool
    var flagged: bool
    var deleted: bool
    var category: string
    var unsaved: bool
    var copies: seq<string>
    const folder: string

    constructor (unread: bool, flagged: bool, folder: string)
      ensures this.unread == unread && this.flagged == flagged && this.folder == folder
      ensures !deleted && category == "" && !unsaved && copies == []
    {
      this.unread := unread;
      this.flagged := flagged;
      this.folder := folder;
      deleted := false;
      category := "";
      unsaved := false;
      copies := [];
    }

    /** `mark_email_read_with_retry`: each attempt on an unread item
        clears `UnRead` in memory and saves; an attempt on a read item
        returns at once. */
    method MarkReadWithRetry(saveOk: nat -> bool, maxRetries: nat) returns (o: Outcome)
      modifies this
      ensures o == MarkReadOutcome(old(unread), saveOk, maxRetries)
      ensures unread == (old(unread) && maxRetries == 0)
      ensures unsaved == (if old(unread) && maxRetries > 0 then !saveOk(0) else old(unsaved))
      ensures flagged == old(flagged) && deleted == old(deleted)
      ensures category == old(category) && copies == old(copies)
    {
      var attempt := 0;
      while attempt < maxRetries
        invariant attempt <= 1 && attempt <= maxRetries
        invariant attempt == 0 ==> unread == old(unread) && unsaved == old(unsaved)
        invariant attempt == 1 ==> old(unread) && !saveOk(0) && !unread && unsaved && maxRetries > 1
        invariant flagged == old(flagged) && deleted == old(deleted)
        invariant category == old(category) && copies == old(copies)
      {
        if !unread {
          return Returned(attempt + 1);
        }
        unread := false;
        if saveOk(attempt) {
          unsaved := false;
          return Returned(attempt + 1);
        }
        unsaved := true;
        if attempt == maxRetries - 1 {
          return Raised(maxRetries);
        }
        attempt := attempt + 1;
      }
      return Returned(0);
    }

    /** `clear_email_flag_with_retry`: `Flag.Clear()` is retried; no
        `Save` follows it. */
    method ClearFlagWithRetry(ok: nat -> bool, maxRetries: nat) returns (o: Outcome)
      modifies this
      ensures o == Retried(ok, maxRetries)
      ensures flagged == (old(flagged) && !(o.Returned? && o.attempts > 0))
      ensures unread == old(unread) && deleted == old(deleted) && unsaved == old(unsaved)
      ensures category == old(category) && copies == old(copies)
    {
      o := WithRetry(ok, maxRetries);
      if o.Returned? && o.attempts > 0 {
        flagged := false;
      }
    }

    /** `assign_category_to_email_with_retry`: each attempt sets
        `Categories` in memory and then saves, so the category is set even
        when every save fails. */
    method AssignCategoryWithRetry(saveOk: nat -> bool, name: string, maxRetries: nat) returns (o: Outcome)
      modifies this
      ensures o == Retried(saveOk, maxRetries)
      ensures category == (if maxRetries > 0 then name else old(category))
      ensures unsaved == (if maxRetries > 0 then o.Raised? else old(unsaved))
      ensures unread == old(unread) && flagged == old(flagged)
      ensures deleted == old(deleted) && copies == old(copies)
    {
      var attempt := 0;
      while attempt < maxRetries
        invariant 0 <= attempt <= maxRetries
        invariant maxRetries > 0 ==> attempt < maxRetries
        invariant forall j :: 0 <= j < attempt ==> !saveOk(j)
        invariant attempt > 0 ==> category == name && unsaved
        invariant attempt == 0 ==> category == old(category) && unsaved == old(unsaved)
        invariant unread == old(unread) && flagged == old(flagged)
        invariant deleted == old(deleted) && copies == old(copies)
      {
        category := name;
        if saveOk(attempt) {
          unsaved := false;
          return Returned(attempt + 1);
        }
        unsaved := true;
        if attempt == maxRetries - 1 {
          return Raised(maxRetries);
        }
        attempt := attempt + 1;
      }
      return Returned(0);
    }

    /** `move_email_with_retry`: each attempt copies the item (the copy
        lands in the item's own folder) and moves the copy to `target`; a
        copy whose move fails stays where it was made. The item itself
        stays. */
    method MoveWithRetry(copyOk: nat -> bool, moveOk: nat -> bool, target: string, maxRetries: nat) returns (o: Outcome)
      modifies this
      ensures o == Retried(Both(copyOk, moveOk), maxRetries)
      ensures copies == old(copies) + Leftovers(copyOk, moveOk, folder, FirstSuccess(Both(copyOk, moveOk), maxRetries))
        + (if o.Returned? && o.attempts > 0 then [target] else [])
      ensures unread == old(unread) && flagged == old(flagged) && unsaved == old(unsaved)
      ensures deleted == old(deleted) && category == old(category)
    {
      var left;
      o, left := MoveAttempts(copyOk, moveOk, folder, maxRetries);
      copies := copies + left;
      if o.Returned? && o.attempts > 0 {
        copies := copies + [target];
      }
    }

    /** `delete_email_with_retry`: an unread item is first marked read,
        and an item with a `Flag` attribute has its flag cleared, each with
        the default number of retries whatever `max_retries` the caller
        gave, and with any error swallowed; then the delete is retried,
        and only its error propagates. */
    method DeleteWithRetry(saveOk: nat -> bool, hasFlag: bool, flagOk: nat -> bool, deleteOk: nat -> bool, maxRetries: nat)
      returns (o: Outcome)
      modifies this
      ensures o == Retried(deleteOk, maxRetries)
      ensures deleted == (old(deleted) || (o.Returned? && o.attempts > 0))
      ensures !unread
      ensures unsaved == (if old(unread) then !saveOk(0) else old(unsaved))
      ensures flagged == (old(flagged) && !(hasFlag && Retried(flagOk, DefaultMaxRetries).Returned?))
      ensures category == old(category) && copies == old(copies)
    {
      if unread {
        var read := MarkReadWithRetry(saveOk, DefaultMaxRetries);
      }
      if hasFlag {
        var cleared := ClearFlagWithRetry(flagOk, DefaultMaxRetries);
        RetriedMeaning(flagOk, DefaultMaxRetries);
      }
      o := WithRetry(deleteOk, maxRetries);
      if o.Returned? && o.attempts > 0 {
        deleted := true;
      }
    }
  }
}

=== FILE: rules.dfy ===
/** The rules the classification loops run, and the in-place
    `rules.sort(key=lambda rule: rule['actions'].get('delete', False))`
    that puts every deleting rule after every other one. */
module Rules {
  import opened Wrappers

  /** The pattern lists of a rule's `conditions` or `exceptions` mapping:
      `None` where the mapping has no such key. */
  datatype PatternFields = PatternFields(
    senders: Option<seq<string>>,
    subject: Option<seq<string>>,
    body: Option<seq<string>>,
    header: Option<seq<string>>)

  /** A rule: its name, its `conditions` and `exceptions` mappings
      (`None` when the key is missing), whether its actions delete, and
      the two flags the agent reads but never acts on: `enabled` and the
      `stop_processing_more_rules` action. */
  datatype Rule = Rule(
    name: string,
    conditions: Option<PatternFields>,
    exceptions: Option<PatternFields>,
    delete: bool,
    enabled: bool,
    stopProcessing: bool)

  /** The rules of `rs` whose delete flag is `d`, in their order. */
  function Keep(rs: seq<Rule>, d: bool): (r: seq<Rule>)
    ensures |r| <= |rs|
    ensures forall i :: 0 <= i < |r| ==> r[i].delete == d
  {
    if |rs| == 0 then []
    else (if rs[0].delete == d then [rs[0]] else []) + Keep(rs[1..], d)
  }

  /** The rules sorted by their delete flag, as Python's stable sort
      leaves them: non-deleting rules first, each group in its order. */
  function DeleteLast(rs: seq<Rule>): seq<Rule> {
    Keep(rs, false) + Keep(rs, true)
  }

  /** No deleting rule comes before a non-deleting one. */
  predicate DeletesLast(rs: seq<Rule>) {
    forall i, j :: 0 <= i < j < |rs| && rs[i].delete ==> rs[j].delete
  }

  lemma {:induction false} KeepSizes(rs: seq<Rule>)
    ensures |Keep(rs, false)| + |Keep(rs, true)| == |rs|
  {
    if |rs| > 0 {
      KeepSizes(rs[1..]);
    }
  }

  /** The two groups together hold every rule as often as the list does. */
  lemma {:induction false} KeepMultiset(rs: seq<Rule>)
    ensures multiset(Keep(rs, false)) + multiset(Keep(rs, true)) == multiset(rs)
  {
    if |rs| > 0 {
      KeepMultiset(rs[1..]);
      ConsMultiset(rs, Keep(rs[1..], false), Keep(rs[1..], true), Keep(rs, false), Keep(rs, true));
    }
  }

  /** One step of the induction: the head goes to exactly one group. */
  lemma ConsMultiset(rs: seq<Rule>, f: seq<Rule>, t: seq<Rule>, f': seq<Rule>, t': seq<Rule>)
    requires |rs| > 0
    requires multiset(f) + multiset(t) == multiset(rs[1..])
    requires (f' == f && t' == [rs[0]] + t) || (f' == [rs[0]] + f && t' == t)
    ensures multiset(f') + multiset(t') == multiset(rs)
  {
    assert rs == [rs[0]] + rs[1..];
  }

  /** Sorting only reorders the rules. */
  lemma DeleteLastPermutation(rs: seq<Rule>)
    ensures multiset(DeleteLast(rs)) == multiset(rs)
  {
    KeepMultiset(rs);
  }

  /** After the sort no deleting rule comes before a non-deleting one. */
  lemma DeleteLastOrdered(rs: seq<Rule>)
    ensures DeletesLast(DeleteLast(rs))
  {
    var a, b := Keep(rs, false), Keep(rs, true);
    var s := a + b;
    assert forall k :: 0 <= k < |a| ==> !s[k].delete;
    assert forall k :: |a| <= k < |s| ==> s[k].delete;
  }

  lemma {:induction false} KeepAppend(xs: seq<Rule>, ys: seq<Rule>, d: bool)
    ensures Keep(xs + ys, d) == Keep(xs, d) + Keep(ys, d)
  {
    if |xs| > 0 {
      assert (xs + ys)[1..] == xs[1..] + ys;
      KeepAppend(xs[1..], ys, d);
    } else {
      assert xs + ys == ys;
    }
  }

  lemma {:induction false} KeepAll(rs: seq<Rule>, d: bool)
    requires forall i :: 0 <= i < |rs| ==> rs[i].delete == d
    ensures Keep(rs, d) == rs && Keep(rs, !d) == []
  {
    if |rs| > 0 {
      KeepAll(rs[1..], d);
      assert rs == [rs[0]] + rs[1..];
    }
  }

  /** The sort is stable: inside each group the rules keep their order. */
  lemma DeleteLastStable(rs: seq<Rule>)
    ensures Keep(DeleteLast(rs), false) == Keep(rs, false)
    ensures Keep(DeleteLast(rs), true) == Keep(rs, true)
  {
    var a, b := Keep(rs, false), Keep(rs, true);
    KeepAppend(a, b, false);
    KeepAppend(a, b, true);
    KeepAll(a, false);
    KeepAll(b, true);
  }

  /** A list with deleting rules last is its non-deleting rules followed
      by its deleting ones. */
  lemma {:induction false} OrderedIsGroups(xs: seq<Rule>)
    requires DeletesLast(xs)
    ensures xs == Keep(xs, false) + Keep(xs, true)
  {
    if |xs| > 0 {
      if xs[0].delete {
        KeepAll(xs, true);
      } else {
        var tail := xs[1..];
        assert DeletesLast(tail) by {
          forall i, j | 0 <= i < j < |tail| && tail[i].delete ensures tail[j].delete {
            assert xs[i + 1] == tail[i] && xs[j + 1] == tail[j];
          }
        }
        OrderedIsGroups(tail);
        assert xs == [xs[0]] + tail;
      }
    }
  }

  /** `DeleteLast` is the only arrangement with deleting rules last that
      keeps the order inside each group: it is what a stable sort on the
      delete flag yields. */
  lemma StableSortUnique(rs: seq<Rule>, xs: seq<Rule>)
    requires DeletesLast(xs)
    requires Keep(xs, false) == Keep(rs, false) && Keep(xs, true) == Keep(rs, true)
    ensures xs == DeleteLast(rs)
  {
    OrderedIsGroups(xs);
  }

  /** Sorting a sorted list again changes nothing, so the second pass's
      sort leaves the first pass's order alone. */
  lemma DeleteLastIdempotent(rs: seq<Rule>)
    ensures DeleteLast(DeleteLast(rs)) == DeleteLast(rs)
  {
    DeleteLastStable(rs);
  }

  /** The in-place sort of the caller's rule list: the rules are gathered
      into the two groups, then written back. */
  method SortRulesByDelete(a: array<Rule>)
    modifies a
    ensures a[..] == DeleteLast(old(a[..]))
  {
    var keep: seq<Rule> := [];
    var del: seq<Rule> := [];
    for i := 0 to a.Length
      invariant a[..] == old(a[..])
      invariant keep == Keep(a[..i], false) && del == Keep(a[..i], true)
    {
      assert a[..i + 1] == a[..i] + [a[i]];
      KeepAppend(a[..i], [a[i]], false);
      KeepAppend(a[..i], [a[i]], true);
      if a[i].delete {
        del := del + [a[i]];
      } else {
        keep := keep + [a[i]];
      }
    }
    assert a[..] == a[..a.Length];
    var sorted := keep + del;
    KeepSizes(a[..]);
    for i := 0 to a.Length
      invariant a.Length == |sorted|
      invariant forall j :: 0 <= j < i ==> a[j] == sorted[j]
    {
      a[i] := sorted[i];
    }
    assert a[..] == sorted;
  }
}

=== FILE: simulate.dfy ===
/** The rule tester's `simulate_rule_evaluation` tool: given a rules
    document, an optional safe-senders document and an email's sender and
    subject, it reports the safe-sender short cut, the first rule whose
    conditions match, or that no rule matched. */
module Simulate {
  import opened Wrappers
  import opened Text
  import opened JsonDoc
  import opened JsValues

  /** The fields of the email the simulation reads. */
  datatype Email = Email(from: string, subject: string)

  /** One entry of `matchedConditions`. */
  datatype MatchedCondition = MatchedCondition(field: string, pattern: Json)

  /** The reply: `safe_sender`, `rule_matched` with the rule's `name`, the
      conditions that matched and its `actions`, or `no_match`. */
  datatype Outcome =
    | SafeSender
    | RuleMatched(rule: Option<Json>, matchedConditions: seq<MatchedCondition>, actions: Option<Json>)
    | NoMatch

  /** `safeSendersData.safe_senders || []` when a safe-senders document is
      given, else the empty list; `.some` exists only on a list. */
  function SafeList(safeDoc: Option<Json>): (r: Result<seq<Json>, Failure>)
    ensures safeDoc.None? ==> r == Ok([])
    ensures r.Err? ==> r.error == TypeError
  {
    if safeDoc.None? then Ok([])
    else if safeDoc.value.JNull? then Err(TypeError)
    else
      var v := Or(Prop(safeDoc.value, "safe_senders").value, JList([]));
      if v.JList? then Ok(v.items) else Err(TypeError)
  }

  /** `safeSenders.some(p => new RegExp(p, 'i').test(from))`: stops at the
      first pattern that matches; a pattern that does not compile before
      that throws. */
  function SafeHit(e: JsEngine, pats: seq<Json>, from: string): Result<bool, Failure> {
    if |pats| == 0 then Ok(false)
    else
      var p := JsString(pats[0]);
      if !e.compiles(p) then Err(RegexError(e.message(p)))
      else if e.test(p, from) then Ok(true)
      else SafeHit(e, pats[1..], from)
  }

  /** Whether pattern `p` compiles and does not match `from`. */
  predicate PassesOver(e: JsEngine, p: Json, from: string) {
    e.compiles(JsString(p)) && !e.test(JsString(p), from)
  }

  /** Pattern `k` is the one `.some` stops at: it compiles and matches,
      and every pattern before it compiles without matching. */
  predicate HitAt(e: JsEngine, pats: seq<Json>, from: string, k: nat)
    requires k < |pats|
  {
    e.compiles(JsString(pats[k])) && e.test(JsString(pats[k]), from)
    && forall j :: 0 <= j < k ==> PassesOver(e, pats[j], from)
  }

  /** The sender is safe exactly when some pattern matches it and every
      pattern before that one compiles without matching; it is not safe,
      without an error, exactly when every pattern compiles and none
      matches. */
  lemma {:induction false} SafeHitMeaning(e: JsEngine, pats: seq<Json>, from: string)
    ensures SafeHit(e, pats, from) == Ok(true) <==> exists k :: 0 <= k < |pats| && HitAt(e, pats, from, k)
    ensures SafeHit(e, pats, from) == Ok(false) <==> forall j :: 0 <= j < |pats| ==> PassesOver(e, pats[j], from)
  {
    if |pats| > 0 {
      var tail := pats[1..];
      SafeHitMeaning(e, tail, from);
      assert forall j :: 0 <= j < |tail| ==> tail[j] == pats[j + 1];
      if PassesOver(e, pats[0], from) {
        if SafeHit(e, tail, from) == Ok(true) {
          var k :| 0 <= k < |tail| && HitAt(e, tail, from, k);
          assert HitAt(e, pats, from, k + 1);
        }
        if exists k :: 0 <= k < |pats| && HitAt(e, pats, from, k) {
          var k :| 0 <= k < |pats| && HitAt(e, pats, from, k);
          assert k > 0;
          assert HitAt(e, tail, from, k - 1);
        }
      } else if e.compiles(JsString(pats[0])) {
        assert HitAt(e, pats, from, 0);
      }
    }
  }

  /** The conditions of one field that match: every pattern of the list is
      tried in order and each one that matches is recorded. */
  function FieldMatches(e: JsEngine, field: string, pats: seq<Json>, text: string): (r: Result<seq<MatchedCondition>, Failure>)
    ensures r.Ok? ==> forall mc :: mc in r.value ==>
      (mc.field == field && mc.pattern in pats && e.test(JsString(mc.pattern), text))
    ensures r.Ok? <==> forall j :: 0 <= j < |pats| ==> e.compiles(JsString(pats[j]))
  {
    if |pats| == 0 then Ok([])
    else
      var init := pats[..|pats| - 1];
      var p := pats[|pats| - 1];
      match FieldMatches(e, field, init, text)
      case Err(x) => Err(x)
      case Ok(mcs) =>
        if !e.compiles(JsString(p)) then Err(RegexError(e.message(JsString(p))))
        else if e.test(JsString(p), text) then Ok(mcs + [MatchedCondition(field, p)])
        else Ok(mcs)
  }

  /** The number of matches among the patterns. */
  function MatchingPatterns(e: JsEngine, pats: seq<Json>, text: string): (n: nat)
    ensures n <= |pats|
  {
    if |pats| == 0 then 0
    else MatchingPatterns(e, pats[..|pats| - 1], text) + (if e.test(JsString(pats[|pats| - 1]), text) then 1 else 0)
  }

  /** One entry is recorded per pattern that matches. */
  lemma {:induction false} FieldMatchesCount(e: JsEngine, field: string, pats: seq<Json>, text: string)
    requires FieldMatches(e, field, pats, text).Ok?
    ensures |FieldMatches(e, field, pats, text).value| == MatchingPatterns(e, pats, text)
  {
    if |pats| > 0 {
      FieldMatchesCount(e, field, pats[..|pats| - 1], text);
    }
  }

  /** `if (conditions[field]) for (const pattern of conditions[field])`. */
  function ConditionField(e: JsEngine, conds: Json, field: string, text: string): Result<seq<MatchedCondition>, Failure>
    requires !conds.JNull?
  {
    var v := Prop(conds, field).value;
    if !Truthy(v) then Ok([])
    else
      match Elements(v.value)
      case Err(x) => Err(x)
      case Ok(pats) => FieldMatches(e, field, pats, text)
  }

  /** The `from` conditions tested on the sender, then the `subject`
      conditions on the subject; `body` and `header` are not looked at. */
  function ConditionMatches(e: JsEngine, conds: Json, email: Email): Result<seq<MatchedCondition>, Failure>
    requires !conds.JNull?
  {
    match ConditionField(e, conds, "from", email.from)
    case Err(x) => Err(x)
    case Ok(a) =>
      match ConditionField(e, conds, "subject", email.subject)
      case Err(x) => Err(x)
      case Ok(b) => Ok(a + b)
  }

  function CountOtherThanType(ks: seq<string>): (n: nat)
    ensures n <= |ks|
  {
    if |ks| == 0 then 0 else (if ks[0] != "type" then 1 else 0) + CountOtherThanType(ks[1..])
  }

  /** `Object.keys(conditions).filter(k => k !== 'type').length`: a
      mapping's keys, a list's indices or a string's positions. */
  function ConditionKeyCount(conds: Json): nat {
    match conds
    case JObj(fs) => CountOtherThanType(Keys(fs))
    case JList(items) => |items|
    case JStr(s) => |s|
    case _ => 0
  }

  /** Whether a rule is skipped: only the string `'False'` disables it. */
  predicate Disabled(rule: Json)
    requires !rule.JNull?
  {
    Prop(rule, "enabled").value == Some(JStr("False"))
  }

  /** What the loop body makes of one rule: `Some` of its matched
      conditions when it matches, `None` when the loop moves on. Under
      `OR` some pattern must match; under any other type the number of
      matched patterns must equal the number of condition keys. */
  function RuleVerdict(e: JsEngine, rule: Json, email: Email): (r: Result<Option<seq<MatchedCondition>>, Failure>)
    ensures rule.JNull? ==> r == Err(TypeError)
  {
    if rule.JNull? then Err(TypeError)
    else if Disabled(rule) then Ok(None)
    else
      var conds := Prop(rule, "conditions").value;
      if !Truthy(conds) then Ok(None)
      else
        var ty := Or(Prop(conds.value, "type").value, JStr("OR"));
        match ConditionMatches(e, conds.value, email)
        case Err(x) => Err(x)
        case Ok(mcs) =>
          var matched := if ty == JStr("OR") then |mcs| > 0 else |mcs| == ConditionKeyCount(conds.value);
          Ok(if matched then Some(mcs) else None)
  }

  /** What `rule_matched` reports for a rule. */
  function Matched(rule: Json, mcs: seq<MatchedCondition>): Outcome {
    RuleMatched(Member(rule, "name"), mcs, Member(rule, "actions"))
  }

  /** `rule[k]` of a rule that got past the loop body, which is never
      `null`. */
  function Member(rule: Json, k: string): Option<Json> {
    if rule.JNull? then None else Prop(rule, k).value
  }

  /** The loop over the rules, given each rule's verdict: the first rule
      that matches decides, and an error stops the loop. */
  function Decide(rules: seq<Json>, vs: seq<Result<Option<seq<MatchedCondition>>, Failure>>): (r: Result<Outcome, Failure>)
    requires |vs| == |rules|
    ensures r.Ok? ==> !r.value.SafeSender?
  {
    if |rules| == 0 then Ok(NoMatch)
    else
      match vs[0]
      case Err(x) => Err(x)
      case Ok(Some(mcs)) => Ok(Matched(rules[0], mcs))
      case Ok(None) => Decide(rules[1..], vs[1..])
  }

  /** The verdict of every rule. The tool stops at the first rule that
      matches or throws, and `Decide` reads no verdict after that one. */
  function Verdicts(e: JsEngine, rules: seq<Json>, email: Email): (vs: seq<Result<Option<seq<MatchedCondition>>, Failure>>)
    ensures |vs| == |rules|
    ensures forall j :: 0 <= j < |rules| ==> vs[j] == RuleVerdict(e, rules[j], email)
  {
    seq(|rules|, j requires 0 <= j < |rules| => RuleVerdict(e, rules[j], email))
  }

  function Evaluate(e: JsEngine, rules: seq<Json>, email: Email): Result<Outcome, Failure> {
    Decide(rules, Verdicts(e, rules, email))
  }

  lemma {:induction false} DecideFirst(rules: seq<Json>, vs: seq<Result<Option<seq<MatchedCondition>>, Failure>>, k: nat)
    requires |vs| == |rules| && k < |rules|
    requires forall j :: 0 <= j < k ==> vs[j] == Ok(None)
    requires vs[k].Ok? && vs[k].value.Some?
    ensures Decide(rules, vs) == Ok(Matched(rules[k], vs[k].value.value))
  {
    if k > 0 {
      assert vs[0] == Ok(None);
      DecideFirst(rules[1..], vs[1..], k - 1);
    }
  }

  lemma {:induction false} DecideNoMatch(rules: seq<Json>, vs: seq<Result<Option<seq<MatchedCondition>>, Failure>>)
    requires |vs| == |rules|
    ensures Decide(rules, vs) == Ok(NoMatch) <==> forall j :: 0 <= j < |rules| ==> vs[j] == Ok(None)
  {
    if |rules| > 0 {
      DecideNoMatch(rules[1..], vs[1..]);
      if vs[0] == Ok(None) {
        assert (forall j :: 0 <= j < |rules| ==> vs[j] == Ok(None)) <==>
          (forall j :: 0 <= j < |rules| - 1 ==> vs[1..][j] == Ok(None));
      }
    }
  }

  /** The whole tool: the safe-sender check first, then the rules of
      `rules.rules || []`. */
  function SimulateRuleEvaluation(e: JsEngine, rulesDoc: Json, safeDoc: Option<Json>, email: Email): Result<Outcome, Failure> {
    match SafeList(safeDoc)
    case Err(x) => Err(x)
    case Ok(pats) =>
      match SafeHit(e, pats, email.from)
      case Err(x) => Err(x)
      case Ok(true) => Ok(SafeSender)
      case Ok(false) =>
        if rulesDoc.JNull? then Err(TypeError)
        else
          match Elements(Or(Prop(rulesDoc, "rules").value, JList([])))
          case Err(x) => Err(x)
          case Ok(rules) => Evaluate(e, rules, email)
  }

  /** A safe sender is reported whatever the rules say, without looking at
      them. */
  lemma SafeSenderIgnoresRules(e: JsEngine, rulesDoc: Json, rulesDoc': Json, safeDoc: Option<Json>, email: Email)
    requires SafeList(safeDoc).Ok? && SafeHit(e, SafeList(safeDoc).value, email.from) == Ok(true)
    ensures SimulateRuleEvaluation(e, rulesDoc, safeDoc, email) == Ok(SafeSender)
    ensures SimulateRuleEvaluation(e, rulesDoc, safeDoc, email) == SimulateRuleEvaluation(e, rulesDoc', safeDoc, email)
  {
  }

  /** The first rule that matches decides: the outcome names rule `k`
      when every earlier rule passes on and rule `k` matches. */
  lemma FirstMatchWins(e: JsEngine, rules: seq<Json>, email: Email, k: nat)
    requires k < |rules|
    requires forall j :: 0 <= j < k ==> RuleVerdict(e, rules[j], email) == Ok(None)
    requires RuleVerdict(e, rules[k], email).Ok? && RuleVerdict(e, rules[k], email).value.Some?
    ensures Evaluate(e, rules, email) == Ok(Matched(rules[k], RuleVerdict(e, rules[k], email).value.value))
  {
    DecideFirst(rules, Verdicts(e, rules, email), k);
  }

  /** No rule matches exactly when every rule passes on without an error. */
  lemma NoMatchMeaning(e: JsEngine, rules: seq<Json>, email: Email)
    ensures Evaluate(e, rules, email) == Ok(NoMatch) <==>
      forall j :: 0 <= j < |rules| ==> RuleVerdict(e, rules[j], email) == Ok(None)
  {
    DecideNoMatch(rules, Verdicts(e, rules, email));
  }

  /** Two active rules with the same conditions get the same verdict:
      nothing else of a rule is read. */
  lemma VerdictByConditions(e: JsEngine, rule: Json, rule': Json, email: Email)
    requires !rule.JNull? && !rule'.JNull? && !Disabled(rule) && !Disabled(rule')
    requires Prop(rule, "conditions") == Prop(rule', "conditions")
    ensures RuleVerdict(e, rule, email) == RuleVerdict(e, rule', email)
  {
  }

  /** `enabled: false`, `enabled: 'false'` or any other value but the
      exact string `'False'` leaves a rule active, with the verdict it has
      when enabled. */
  lemma EnabledOnlyByString(e: JsEngine, fs: seq<Field>, v: Json, email: Email)
    requires v != JStr("False")
    ensures RuleVerdict(e, JObj(Put(fs, "enabled", v)), email) == RuleVerdict(e, JObj(Put(fs, "enabled", JBool(true))), email)
  {
    SetEnabled(fs, v);
    SetEnabled(fs, JBool(true));
    VerdictByConditions(e, JObj(Put(fs, "enabled", v)), JObj(Put(fs, "enabled", JBool(true))), email);
  }

  /** Setting `enabled` to anything but `'False'` leaves a rule active and
      its conditions alone. */
  lemma SetEnabled(fs: seq<Field>, v: Json)
    requires v != JStr("False")
    ensures !Disabled(JObj(Put(fs, "enabled", v)))
    ensures Prop(JObj(Put(fs, "enabled", v)), "conditions") == Prop(JObj(fs), "conditions")
  {
    PutLookup(fs, "enabled", v, "enabled");
    PutLookup(fs, "enabled", v, "conditions");
  }

  /** `enabled: 'False'` skips a rule whatever its conditions. */
  lemma DisabledByFalseString(e: JsEngine, fs: seq<Field>, email: Email)
    ensures RuleVerdict(e, JObj(Put(fs, "enabled", JStr("False"))), email) == Ok(None)
  {
    PutLookup(fs, "enabled", JStr("False"), "enabled");
  }

  /** Under `OR`, the default, a rule matches exactly when one of its
      `from` or `subject` patterns matches. */
  lemma OrMeaning(e: JsEngine, rule: Json, email: Email)
    requires !rule.JNull? && !Disabled(rule)
    requires Truthy(Prop(rule, "conditions").value)
    requires var conds := Prop(rule, "conditions").value.value;
      !Truthy(Prop(conds, "type").value) || Prop(conds, "type").value == Some(JStr("OR"))
    requires ConditionMatches(e, Prop(rule, "conditions").value.value, email).Ok?
    ensures RuleVerdict(e, rule, email).Ok?
    ensures RuleVerdict(e, rule, email).value.Some? <==>
      ConditionMatches(e, Prop(rule, "conditions").value.value, email).value != []
  {
  }

  /** Under a type other than `OR` a rule matches exactly when the number
      of matched patterns equals the number of condition keys other than
      `type`. */
  lemma AndMeaning(e: JsEngine, rule: Json, email: Email)
    requires !rule.JNull? && !Disabled(rule)
    requires Truthy(Prop(rule, "conditions").value)
    requires var conds := Prop(rule, "conditions").value.value;
      Truthy(Prop(conds, "type").value) && Prop(conds, "type").value != Some(JStr("OR"))
    requires ConditionMatches(e, Prop(rule, "conditions").value.value, email).Ok?
    ensures RuleVerdict(e, rule, email).Ok?
    ensures var conds := Prop(rule, "conditions").value.value;
      RuleVerdict(e, rule, email).value.Some? <==>
      |ConditionMatches(e, conds, email).value| == ConditionKeyCount(conds)
  {
  }

  /** Under any other type the matched patterns are counted against the
      condition keys other than `type`: a lone `from` list whose two
      patterns both match does not match under `AND`. */
  lemma AndCountsPatterns(e: JsEngine, p: string, q: string, email: Email)
    requires e.compiles(p) && e.compiles(q) && e.test(p, email.from) && e.test(q, email.from)
    ensures var conds := JObj([Field("type", JStr("AND")), Field("from", JList([JStr(p), JStr(q)]))]);
      RuleVerdict(e, JObj([Field("conditions", conds)]), email) == Ok(None)
  {
    var conds := JObj([Field("type", JStr("AND")), Field("from", JList([JStr(p), JStr(q)]))]);
    BothPatternsRecorded(e, p, q, email);
    assert Keys(conds.fields) == ["type", "from"];
    assert CountOtherThanType(["type", "from"]) == 1 by {
      assert ["type", "from"][1..] == ["from"];
    }
  }

  lemma BothPatternsRecorded(e: JsEngine, p: string, q: string, email: Email)
    requires e.compiles(p) && e.compiles(q) && e.test(p, email.from) && e.test(q, email.from)
    ensures var conds := JObj([Field("type", JStr("AND")), Field("from", JList([JStr(p), JStr(q)]))]);
      |ConditionMatches(e, conds, email).value| == 2
  {
    var conds := JObj([Field("type", JStr("AND")), Field("from", JList([JStr(p), JStr(q)]))]);
    var pats := [JStr(p), JStr(q)];
    assert pats[..1] == [JStr(p)] && pats[..1][..0] == [];
    assert |FieldMatches(e, "from", pats[..1], email.from).value| == 1;
    assert |FieldMatches(e, "from", pats, email.from).value| == 2;
    assert Lookup(conds.fields, "from") == Some(JList(pats)) by {
      assert conds.fields[1..] == [Field("from", JList(pats))];
    }
    assert Lookup(conds.fields, "subject") == None by {
      assert conds.fields[0].key == "type" && conds.fields[1].key == "from";
    }
  }

  /** `.some` over the safe senders as a loop. */
  method CheckSafeSenders(e: JsEngine, pats: seq<Json>, from: string) returns (r: Result<bool, Failure>)
    ensures r == SafeHit(e, pats, from)
  {
    var i := 0;
    while i < |pats|
      invariant i <= |pats|
      invariant SafeHit(e, pats[i..], from) == SafeHit(e, pats, from)
    {
      assert pats[i..][1..] == pats[i + 1..];
      var p := JsString(pats[i]);
      if !e.compiles(p) {
        return Err(RegexError(e.message(p)));
      }
      if e.test(p, from) {
        return Ok(true);
      }
      i := i + 1;
    }
    return Ok(false);
  }

  /** `for (const pattern of conditions[field])`, pushing each match. */
  method MatchField(e: JsEngine, field: string, pats: seq<Json>, text: string) returns (r: Result<seq<MatchedCondition>, Failure>)
    ensures r == FieldMatches(e, field, pats, text)
  {
    var matched: seq<MatchedCondition> := [];
    for k := 0 to |pats|
      invariant FieldMatches(e, field, pats[..k], text) == Ok(matched)
    {
      assert pats[..k + 1][..k] == pats[..k] && pats[..k + 1][k] == pats[k];
      var p := JsString(pats[k]);
      if !e.compiles(p) {
        FieldMatchesThrown(e, field, pats, text, k + 1);
        return Err(RegexError(e.message(p)));
      }
      if e.test(p, text) {
        matched := matched + [MatchedCondition(field, pats[k])];
      }
    }
    assert pats[..|pats|] == pats;
    return Ok(matched);
  }

  /** Once a pattern has thrown, the later ones are not tried. */
  lemma {:induction false} FieldMatchesThrown(e: JsEngine, field: string, pats: seq<Json>, text: string, n: nat)
    requires n <= |pats| && FieldMatches(e, field, pats[..n], text).Err?
    ensures FieldMatches(e, field, pats, text) == FieldMatches(e, field, pats[..n], text)
    decreases |pats| - n
  {
    if n < |pats| {
      assert pats[..n + 1][..n] == pats[..n];
      FieldMatchesThrown(e, field, pats, text, n + 1);
    } else {
      assert pats[..n] == pats;
    }
  }

  /** The `if (conditions[field])` block of one field. */
  method MatchConditionField(e: JsEngine, conds: Json, field: string, text: string) returns (r: Result<seq<MatchedCondition>, Failure>)
    requires !conds.JNull?
    ensures r == ConditionField(e, conds, field, text)
  {
    var v := Prop(conds, field).value;
    if !Truthy(v) {
      return Ok([]);
    }
    var pats := Elements(v.value);
    if pats.Err? {
      return Err(pats.error);
    }
    r := MatchField(e, field, pats.value, text);
  }

  /** The body of the rule loop. */
  method EvaluateRule(e: JsEngine, rule: Json, email: Email) returns (r: Result<Option<seq<MatchedCondition>>, Failure>)
    ensures r == RuleVerdict(e, rule, email)
  {
    if rule.JNull? {
      return Err(TypeError);
    }
    if Prop(rule, "enabled").value == Some(JStr("False")) {
      return Ok(None);
    }
    var conds := Prop(rule, "conditions").value;
    if !Truthy(conds) {
      return Ok(None);
    }
    var conditionType := Or(Prop(conds.value, "type").value, JStr("OR"));
    var fromMatches := MatchConditionField(e, conds.value, "from", email.from);
    if fromMatches.Err? {
      return Err(fromMatches.error);
    }
    var subjectMatches := MatchConditionField(e, conds.value, "subject", email.subject);
    if subjectMatches.Err? {
      return Err(subjectMatches.error);
    }
    var matchedConditions := fromMatches.value + subjectMatches.value;
    var matched := if conditionType == JStr("OR") then |matchedConditions| > 0
      else |matchedConditions| == ConditionKeyCount(conds.value);
    return Ok(if matched then Some(matchedConditions) else None);
  }

  /** The `simulate_rule_evaluation` handler on the parsed documents. */
  method SimulateRules(e: JsEngine, rulesDoc: Json, safeDoc: Option<Json>, email: Email) returns (r: Result<Outcome, Failure>)
    ensures r == SimulateRuleEvaluation(e, rulesDoc, safeDoc, email)
  {
    var safeSenders := SafeList(safeDoc);
    if safeSenders.Err? {
      return Err(safeSenders.error);
    }
    var isSafeSender := CheckSafeSenders(e, safeSenders.value, email.from);
    if isSafeSender.Err? {
      return Err(isSafeSender.error);
    }
    if isSafeSender.value {
      return Ok(SafeSender);
    }
    if rulesDoc.JNull? {
      return Err(TypeError);
    }
    var rules := Elements(Or(Prop(rulesDoc, "rules").value, JList([])));
    if rules.Err? {
      return Err(rules.error);
    }
    var items := rules.value;
    ghost var vs := Verdicts(e, items, email);
    var i := 0;
    while i < |items|
      invariant i <= |items|
      invariant Decide(items[i..], vs[i..]) == Evaluate(e, items, email)
    {
      assert items[i..][1..] == items[i + 1..] && vs[i..][1..] == vs[i + 1..];
      var verdict := EvaluateRule(e, items[i], email);
      if verdict.Err? {
        return Err(verdict.error);
      }
      if verdict.value.Some? {
        return Ok(Matched(items[i], verdict.value.value));
      }
      i := i + 1;
    }
    return Ok(NoMatch);
  }
}

=== FILE: text.dfy ===
/** Character and string helpers, each with the meaning the same-named Python
    `str` operation has (restricted to the character classes noted). */
module Text {

  /** The characters Python's `str.isspace()` accepts: what `str.strip()`
      removes when given no argument. */
  predicate IsSpace(c: char) {
    || c == ' ' || c == '\t' || c == '\n' || c == '\r' || c == '\U{000B}' || c == '\U{000C}'
    || ('\U{001C}' <= c <= '\U{001F}')
    || c == '\U{0085}' || c == '\U{00A0}' || c == '\U{1680}'
    || ('\U{2000}' <= c <= '\U{200A}')
    || c == '\U{2028}' || c == '\U{2029}' || c == '\U{202F}' || c == '\U{205F}' || c == '\U{3000}'
  }

  /** The line boundaries of Python's `str.splitlines()` ("\r\n" counts as one). */
  predicate IsLineBreak(c: char) {
    || c == '\n' || c == '\r' || c == '\U{000B}' || c == '\U{000C}'
    || ('\U{001C}' <= c <= '\U{001E}')
    || c == '\U{0085}' || c == '\U{2028}' || c == '\U{2029}'
  }

  /** `\w` of a regular expression, on ASCII: letters, digits and '_'. */
  predicate IsWordChar(c: char) {
    ('a' <= c <= 'z') || ('A' <= c <= 'Z') || ('0' <= c <= '9') || c == '_'
  }

  predicate IsUpper(c: char) { 'A' <= c <= 'Z' }

  function LowerChar(c: char): char {
    if IsUpper(c) then (c as int - 'A' as int + 'a' as int) as char else c
  }

  /** `str.lower()` (ASCII letters). */
  function Lower(s: string): (r: string)
    ensures |r| == |s|
    ensures forall i :: 0 <= i < |s| ==> r[i] == LowerChar(s[i])
  {
    if |s| == 0 then "" else [LowerChar(s[0])] + Lower(s[1..])
  }

  /** A string `str.lower()` leaves as it is. */
  predicate IsLowered(s: string) {
    forall i :: 0 <= i < |s| ==> !IsUpper(s[i])
  }

  lemma LowerIsLowered(s: string)
    ensures IsLowered(Lower(s))
  {
    forall i | 0 <= i < |s| ensures !IsUpper(Lower(s)[i]) {
      assert Lower(s)[i] == LowerChar(s[i]);
    }
  }

  lemma LowerOfLowered(s: string)
    requires IsLowered(s)
    ensures Lower(s) == s
  {
    forall i | 0 <= i < |s| ensures Lower(s)[i] == s[i] {
      assert !IsUpper(s[i]);
    }
  }

  /** `str.lstrip()`: drops the leading whitespace. */
  function LStrip(s: string): (r: string)
    ensures |r| <= |s| && r == s[|s| - |r|..]
    ensures r == [] || !IsSpace(r[0])
    ensures forall i :: 0 <= i < |s| - |r| ==> IsSpace(s[i])
  {
    if |s| > 0 && IsSpace(s[0]) then LStrip(s[1..]) else s
  }

  /** `str.rstrip()`: drops the trailing whitespace. */
  function RStrip(s: string): (r: string)
    ensures |r| <= |s| && r == s[..|r|]
    ensures r == [] || !IsSpace(r[|r| - 1])
    ensures forall i :: |r| <= i < |s| ==> IsSpace(s[i])
  {
    if |s| > 0 && IsSpace(s[|s| - 1]) then RStrip(s[..|s| - 1]) else s
  }

  /** `str.strip()`. */
  function Strip(s: string): string {
    RStrip(LStrip(s))
  }

  /** What `str.strip()` promises: the result is a slice of the input that
      neither starts nor ends with whitespace, and everything cut off is
      whitespace. */
  lemma StripIsTrimmedSlice(s: string)
    ensures exists a, b :: 0 <= a <= b <= |s| && Strip(s) == s[a..b]
    ensures Strip(s) == [] || (!IsSpace(Strip(s)[0]) && !IsSpace(Strip(s)[|Strip(s)| - 1]))
  {
    var l := LStrip(s);
    var r := RStrip(l);
    var a := |s| - |l|;
    PrefixOfSuffix(s, a, l, r);
    assert Strip(s) == s[a..a + |r|];
    StripTrimmed(s);
  }

  lemma StripTrimmed(s: string)
    ensures Strip(s) == [] || (!IsSpace(Strip(s)[0]) && !IsSpace(Strip(s)[|Strip(s)| - 1]))
  {
    var l := LStrip(s);
    var r := RStrip(l);
    if r != [] {
      assert r[0] == l[0];
    }
  }

  /** A prefix of a suffix is a slice. */
  lemma PrefixOfSuffix(s: string, a: nat, l: string, r: string)
    requires a <= |s| && l == s[a..] && |r| <= |l| && r == l[..|r|]
    ensures r == s[a..a + |r|]
  {
  }

  lemma StripIdempotent(s: string)
    ensures Strip(Strip(s)) == Strip(s)
  {
    StripIsTrimmedSlice(s);
    var t := Strip(s);
    assert LStrip(t) == t;
    assert RStrip(t) == t;
  }

  lemma StripPreservesLowered(s: string)
    requires IsLowered(s)
    ensures IsLowered(Strip(s))
  {
    StripIsTrimmedSlice(s);
    var a, b :| 0 <= a <= b <= |s| && Strip(s) == s[a..b];
    forall i | 0 <= i < b - a ensures !IsUpper(Strip(s)[i]) {
      assert Strip(s)[i] == s[a + i];
    }
  }

  /** `s.lower().strip()`: the normal form the exporter gives every pattern. */
  function Canon(s: string): string {
    Strip(Lower(s))
  }

  /** Normalising a pattern twice changes nothing. */
  lemma CanonIdempotent(s: string)
    ensures Canon(Canon(s)) == Canon(s)
    ensures IsLowered(Canon(s))
  {
    LowerIsLowered(s);
    StripPreservesLowered(Lower(s));
    LowerOfLowered(Canon(s));
    StripIdempotent(Lower(s));
  }

  function StripPrefixChars(s: string, cs: set<char>): (r: string)
    ensures |r| <= |s| && r == s[|s| - |r|..]
    ensures r == [] || r[0] !in cs
  {
    if |s| > 0 && s[0] in cs then StripPrefixChars(s[1..], cs) else s
  }

  function StripSuffixChars(s: string, cs: set<char>): (r: string)
    ensures |r| <= |s| && r == s[..|r|]
    ensures r == [] || r[|r| - 1] !in cs
  {
    if |s| > 0 && s[|s| - 1] in cs then StripSuffixChars(s[..|s| - 1], cs) else s
  }

  /** `str.strip(chars)`. */
  function StripChars(s: string, cs: set<char>): string {
    StripSuffixChars(StripPrefixChars(s, cs), cs)
  }

  predicate StartsWith(s: string, prefix: string) {
    |prefix| <= |s| && s[..|prefix|] == prefix
  }

  /** `sub in s`. */
  predicate HasSubstring(s: string, sub: string)
    decreases |s|
  {
    StartsWith(s, sub) || (|s| > 0 && HasSubstring(s[1..], sub))
  }

  lemma HasSubstringAt(s: string, sub: string, i: nat)
    requires i + |sub| <= |s| && s[i..i + |sub|] == sub
    ensures HasSubstring(s, sub)
    decreases i
  {
    if i > 0 {
      assert s[1..][i - 1..i - 1 + |sub|] == sub;
      HasSubstringAt(s[1..], sub, i - 1);
    }
  }

  /** Index of the first occurrence of `c`, or |s| when there is none. */
  function IndexOf(s: string, c: char): (k: nat)
    ensures k <= |s|
    ensures k < |s| ==> s[k] == c
    ensures forall i :: 0 <= i < k ==> s[i] != c
  {
    if |s| == 0 then 0 else if s[0] == c then 0 else 1 + IndexOf(s[1..], c)
  }

  /** `s.split(sep)` for a one-character separator. */
  function Split(s: string, sep: char): (parts: seq<string>)
    ensures |parts| >= 1
    ensures forall i :: 0 <= i < |parts| ==> sep !in parts[i]
    decreases |s|
  {
    var k := IndexOf(s, sep);
    if k == |s| then [s] else [s[..k]] + Split(s[k + 1..], sep)
  }

  /** `sep.join(parts)`. */
  function Join(parts: seq<string>, sep: string): string {
    if |parts| == 0 then ""
    else if |parts| == 1 then parts[0]
    else parts[0] + sep + Join(parts[1..], sep)
  }

  /** Joining parts that do not contain the separator and splitting the
      result again gives the parts back. */
  lemma {:induction false} SplitJoin(parts: seq<string>, sep: char)
    requires |parts| >= 1
    requires forall i :: 0 <= i < |parts| ==> sep !in parts[i]
    ensures Split(Join(parts, [sep]), sep) == parts
  {
    if |parts| == 1 {
      assert IndexOf(parts[0], sep) == |parts[0]|;
    } else {
      var rest := Join(parts[1..], [sep]);
      assert Join(parts, [sep]) == parts[0] + [sep] + rest;
      SplitCons(parts[0], sep, rest);
      SplitJoin(parts[1..], sep);
      assert parts == [parts[0]] + parts[1..];
    }
  }

  /** Splitting at the first separator. */
  lemma SplitCons(a: string, sep: char, rest: string)
    requires sep !in a
    ensures Split(a + [sep] + rest, sep) == [a] + Split(rest, sep)
  {
    var s := a + [sep] + rest;
    IndexOfAfter(a, sep, rest);
    assert s[..|a|] == a;
    assert s[|a| + 1..] == rest;
  }

  lemma IndexOfAfter(a: string, c: char, b: string)
    requires c !in a
    ensures IndexOf(a + [c] + b, c) == |a|
  {
    var s := a + [c] + b;
    var k := IndexOf(s, c);
    assert s[|a|] == c;
  }

  /** Index of the first line boundary, or |s|. */
  function LineEnd(s: string): (k: nat)
    ensures k <= |s|
    ensures k < |s| ==> IsLineBreak(s[k])
    ensures forall i :: 0 <= i < k ==> !IsLineBreak(s[i])
  {
    if |s| == 0 then 0 else if IsLineBreak(s[0]) then 0 else 1 + LineEnd(s[1..])
  }

  /** `str.splitlines()`: no empty last line for a trailing boundary,
      and no line at all for the empty string. */
  function SplitLines(s: string): (lines: seq<string>)
    ensures forall i :: 0 <= i < |lines| ==> forall j :: 0 <= j < |lines[i]| ==> !IsLineBreak(lines[i][j])
    ensures s == [] <==> lines == []
    decreases |s|
  {
    if |s| == 0 then []
    else
      var k := LineEnd(s);
      if k == |s| then [s]
      else
        var next := if s[k] == '\r' && k + 1 < |s| && s[k + 1] == '\n' then k + 2 else k + 1;
        [s[..k]] + SplitLines(s[next..])
  }

  /** The first boundary of `a + [c] + b` is `c` when `a` has none. */
  lemma {:induction false} LineEndAt(a: string, c: char, b: string)
    requires forall j :: 0 <= j < |a| ==> !IsLineBreak(a[j])
    requires IsLineBreak(c)
    ensures LineEnd(a + [c] + b) == |a|
    decreases |a|
  {
    var s := a + [c] + b;
    if |a| > 0 {
      assert s[1..] == a[1..] + [c] + b;
      LineEndAt(a[1..], c, b);
    }
  }

  /** A text without line boundaries is its one line. */
  lemma SplitLinesOneLine(a: string)
    requires a != [] && forall j :: 0 <= j < |a| ==> !IsLineBreak(a[j])
    ensures SplitLines(a) == [a]
  {
    assert LineEnd(a) == |a|;
  }

  /** The first line runs up to the first boundary, which is dropped
      along with the `\n` of a `\r\n` pair; the rest of the text gives
      the remaining lines. */
  lemma SplitLinesFirstLine(a: string, c: char, b: string)
    requires forall j :: 0 <= j < |a| ==> !IsLineBreak(a[j])
    requires IsLineBreak(c) && !(c == '\r' && b != [] && b[0] == '\n')
    ensures SplitLines(a + [c] + b) == [a] + SplitLines(b)
  {
    var s := a + [c] + b;
    LineEndAt(a, c, b);
    assert s[|a|] == c;
    assert s[..|a|] == a;
    assert s[|a| + 1..] == b;
  }

  /** A `\r\n` pair is one boundary. */
  lemma SplitLinesCrLf(a: string, b: string)
    requires forall j :: 0 <= j < |a| ==> !IsLineBreak(a[j])
    ensures SplitLines(a + "\r\n" + b) == [a] + SplitLines(b)
  {
    var s := a + "\r\n" + b;
    assert s == a + ['\r'] + (['\n'] + b);
    LineEndAt(a, '\r', ['\n'] + b);
    assert s[|a|] == '\r' && s[|a| + 1] == '\n';
    assert s[..|a|] == a;
    assert s[|a| + 2..] == b;
  }

  /** `re.sub(r'[^\x00-\x7F]+', '', s)`: drops every non-ASCII character. */
  function RemoveNonAscii(s: string): (r: string)
    ensures forall i :: 0 <= i < |r| ==> r[i] <= '\U{007F}'
    ensures |r| <= |s|
    ensures (forall i :: 0 <= i < |s| ==> s[i] <= '\U{007F}') ==> r == s
  {
    if |s| == 0 then ""
    else if s[0] <= '\U{007F}' then [s[0]] + RemoveNonAscii(s[1..])
    else RemoveNonAscii(s[1..])
  }

  /** Sanitising works character by character: a concatenation is
      sanitised piece by piece, so the ASCII characters are all kept, in
      their order. */
  lemma {:induction false} RemoveNonAsciiAppend(a: string, b: string)
    ensures RemoveNonAscii(a + b) == RemoveNonAscii(a) + RemoveNonAscii(b)
    decreases |a|
  {
    if |a| > 0 {
      assert (a + b)[1..] == a[1..] + b;
      RemoveNonAsciiAppend(a[1..], b);
    } else {
      assert a + b == b;
    }
  }

  /** One character is kept exactly when it is ASCII. */
  lemma RemoveNonAsciiChar(c: char)
    ensures RemoveNonAscii([c]) == if c <= '\U{007F}' then [c] else []
  {
    assert [c][1..] == [];
  }

  function DigitChar(d: nat): char
    requires d < 10
  {
    ('0' as int + d) as char
  }

  /** `str(n)` for a natural number. */
  function NatToString(n: nat): (r: string)
    ensures |r| >= 1
    ensures forall i :: 0 <= i < |r| ==> '0' <= r[i] <= '9'
  {
    if n < 10 then [DigitChar(n)] else NatToString(n / 10) + [DigitChar(n % 10)]
  }

  /** `str(n)` for an integer. */
  function IntToString(n: int): string {
    if n < 0 then "-" + NatToString(-n) else NatToString(n)
  }

  /** Python's ordering of strings: code point by code point, a proper prefix first. */
  predicate Less(a: string, b: string) {
    if |a| == 0 then |b| > 0
    else if |b| == 0 then false
    else if a[0] != b[0] then a[0] < b[0]
    else Less(a[1..], b[1..])
  }

  lemma LessIrreflexive(a: string)
    ensures !Less(a, a)
  {
    if |a| > 0 { LessIrreflexive(a[1..]); }
  }

  lemma LessAsymmetric(a: string, b: string)
    ensures Less(a, b) ==> !Less(b, a)
  {
    if |a| > 0 && |b| > 0 && a[0] == b[0] { LessAsymmetric(a[1..], b[1..]); }
  }

  lemma LessTransitive(a: string, b: string, c: string)
    requires Less(a, b) && Less(b, c)
    ensures Less(a, c)
  {
    if |a| > 0 && |b| > 0 && |c| > 0 && a[0] == b[0] && b[0] == c[0] {
      LessTransitive(a[1..], b[1..], c[1..]);
    }
  }

  lemma LessTotal(a: string, b: string)
    requires a != b
    ensures Less(a, b) || Less(b, a)
  {
    if |a| > 0 && |b| > 0 && a[0] == b[0] {
      assert a == [a[0]] + a[1..] && b == [b[0]] + b[1..];
      LessTotal(a[1..], b[1..]);
    }
  }
}

=== FILE: validators.dfy ===
/** The rule tester's document checks: `validate_rules_yaml` and
    `validate_safe_senders`, on the parsed YAML document. Errors and
    warnings are kept as structured entries; `RulesErrorText` and the
    functions beside it give the exact text the tool replies with. */
module Validators {
  import opened Wrappers
  import opened Text
  import opened JsonDoc
  import opened JsValues
  import opened RegexCheck

  /** The condition fields whose patterns are validated, in order. */
  const PatternFieldNames: seq<string> := ["from", "subject", "body", "header"]

  datatype RulesError =
    | MissingVersion
    | MissingRules
    | MissingName(index: nat)
    | MissingConditions(index: nat)
    | InvalidPattern(index: nat, name: string, field: string, message: string)

  /** A heuristic warning of one pattern of rule `index`. */
  datatype RulesWarning = RuleWarning(index: nat, name: string, warning: string)

  function RulesErrorText(err: RulesError): string {
    match err
    case MissingVersion => "Missing \"version\" field"
    case MissingRules => "Missing \"rules\" field"
    case MissingName(i) => "Rule " + NatToString(i) + ": Missing \"name\" field"
    case MissingConditions(i) => "Rule " + NatToString(i) + ": Missing \"conditions\" field"
    case InvalidPattern(i, name, field, msg) =>
      "Rule " + NatToString(i) + " (" + name + "): Invalid " + field + " pattern: " + msg
  }

  function RulesWarningText(w: RulesWarning): string {
    "Rule " + NatToString(w.index) + " (" + w.name + "): " + w.warning
  }

  /** One pattern to validate and the field it came from. */
  datatype Check = Check(field: string, pattern: Json)

  function ChecksOf(field: string, items: seq<Json>): (cs: seq<Check>)
    ensures |cs| == |items|
    ensures forall k :: 0 <= k < |items| ==> cs[k] == Check(field, items[k])
  {
    if |items| == 0 then [] else ChecksOf(field, items[..|items| - 1]) + [Check(field, items[|items| - 1])]
  }

  /** The patterns of the given condition fields, in order: a field with a
      truthy value is iterated, and one that cannot be iterated throws. */
  function FieldChecks(conds: Json, fields: seq<string>): Result<seq<Check>, Failure> {
    if |fields| == 0 then Ok([])
    else
      match FieldChecks(conds, fields[..|fields| - 1])
      case Err(x) => Err(x)
      case Ok(cs) =>
        match Prop(conds, fields[|fields| - 1])
        case Err(x) => Err(x)
        case Ok(v) =>
          if !Truthy(v) then Ok(cs)
          else
            match Elements(v.value)
            case Err(x) => Err(x)
            case Ok(items) => Ok(cs + ChecksOf(fields[|fields| - 1], items))
  }

  /** Whether a pattern value compiles once `new RegExp` has turned it
      into a string. */
  predicate CheckCompiles(e: JsEngine, c: Check) {
    e.compiles(JsString(c.pattern))
  }

  /** One error per pattern that does not compile, in order. */
  function CheckErrors(e: JsEngine, i: nat, name: string, cs: seq<Check>): seq<RulesError> {
    if |cs| == 0 then []
    else
      var c := cs[|cs| - 1];
      var v := Validate(e, JsString(c.pattern));
      CheckErrors(e, i, name, cs[..|cs| - 1]) + (if v.Invalid? then [InvalidPattern(i, name, c.field, v.error)] else [])
  }

  function CheckWarnings(e: JsEngine, i: nat, name: string, cs: seq<Check>): seq<RulesWarning> {
    if |cs| == 0 then []
    else
      var v := Validate(e, JsString(cs[|cs| - 1].pattern));
      CheckWarnings(e, i, name, cs[..|cs| - 1]) + (if v.Valid? then RuleWarnings(i, name, v.warnings) else [])
  }

  function RuleWarnings(i: nat, name: string, ws: seq<string>): (r: seq<RulesWarning>)
    ensures |r| == |ws|
    ensures forall k :: 0 <= k < |ws| ==> r[k] == RuleWarning(i, name, ws[k])
  {
    if |ws| == 0 then [] else RuleWarnings(i, name, ws[..|ws| - 1]) + [RuleWarning(i, name, ws[|ws| - 1])]
  }

  function InvalidCount(e: JsEngine, cs: seq<Check>): (n: nat)
    ensures n <= |cs|
  {
    if |cs| == 0 then 0
    else InvalidCount(e, cs[..|cs| - 1]) + (if CheckCompiles(e, cs[|cs| - 1]) then 0 else 1)
  }

  /** Exactly one error per pattern that does not compile. */
  lemma {:induction false} CheckErrorsCount(e: JsEngine, i: nat, name: string, cs: seq<Check>)
    ensures |CheckErrors(e, i, name, cs)| == InvalidCount(e, cs)
    ensures forall err :: err in CheckErrors(e, i, name, cs) ==> err.InvalidPattern? && err.index == i
  {
    if |cs| > 0 {
      CheckErrorsCount(e, i, name, cs[..|cs| - 1]);
    }
  }

  /** The errors and warnings of rule `i`. Reading a property of a `null`
      rule throws. */
  function RuleReport(e: JsEngine, i: nat, rule: Json): Result<(seq<RulesError>, seq<RulesWarning>), Failure> {
    if rule.JNull? then Err(TypeError)
    else
      var name, conds := Prop(rule, "name").value, Prop(rule, "conditions").value;
      var missing := (if !Truthy(name) then [MissingName(i)] else []) + (if !Truthy(conds) then [MissingConditions(i)] else []);
      if !Truthy(conds) then Ok((missing, []))
      else
        match FieldChecks(conds.value, PatternFieldNames)
        case Err(x) => Err(x)
        case Ok(cs) =>
          Ok((missing + CheckErrors(e, i, Interpolate(name), cs), CheckWarnings(e, i, Interpolate(name), cs)))
  }

  /** The errors and warnings of all rules, rule by rule. */
  function RulesReports(e: JsEngine, rules: seq<Json>): Result<(seq<RulesError>, seq<RulesWarning>), Failure> {
    if |rules| == 0 then Ok(([], []))
    else
      match RulesReports(e, rules[..|rules| - 1])
      case Err(x) => Err(x)
      case Ok(acc) =>
        match RuleReport(e, |rules| - 1, rules[|rules| - 1])
        case Err(x) => Err(x)
        case Ok(r) => Ok((acc.0 + r.0, acc.1 + r.1))
  }

  /** The reply of `validate_rules_yaml`. */
  datatype RulesReply = RulesReply(valid: bool, errors: seq<RulesError>, warnings: seq<RulesWarning>, ruleCount: Json)

  function RulesYaml(e: JsEngine, parsed: Json): (r: Result<RulesReply, Failure>)
    ensures r.Ok? ==> !parsed.JNull? && (r.value.valid <==> r.value.errors == [])
    ensures r.Ok? ==> (MissingVersion in r.value.errors <==> !Truthy(Prop(parsed, "version").value))
    ensures r.Ok? ==> (MissingRules in r.value.errors <==> !Truthy(Prop(parsed, "rules").value))
  {
    if parsed.JNull? then Err(TypeError)
    else
      var version, rules := Prop(parsed, "version").value, Prop(parsed, "rules").value;
      var top := (if !Truthy(version) then [MissingVersion] else []) + (if !Truthy(rules) then [MissingRules] else []);
      var count := Or(Length(rules), JInt(0));
      if Truthy(rules) && rules.value.JList? then
        match RulesReports(e, rules.value.items)
        case Err(x) => Err(x)
        case Ok(r) =>
          RulesReportsIndexed(e, rules.value.items);
          Ok(RulesReply(top + r.0 == [], top + r.0, r.1, count))
      else Ok(RulesReply(top == [], top, [], count))
  }

  /** The rule reports hold only per-rule entries. */
  lemma {:induction false} RulesReportsIndexed(e: JsEngine, rules: seq<Json>)
    requires RulesReports(e, rules).Ok?
    ensures forall err :: err in RulesReports(e, rules).value.0 ==> !err.MissingVersion? && !err.MissingRules?
  {
    if |rules| > 0 {
      RulesReportsIndexed(e, rules[..|rules| - 1]);
      var rule := rules[|rules| - 1];
      if Truthy(Prop(rule, "conditions").value) {
        var cs := FieldChecks(Prop(rule, "conditions").value.value, PatternFieldNames).value;
        CheckErrorsCount(e, |rules| - 1, Interpolate(Prop(rule, "name").value), cs);
      }
    }
  }

  /** How many errors rule `i` adds: one for a missing name, one for
      missing conditions, one per pattern that does not compile. */
  function RuleErrorCount(e: JsEngine, rule: Json): nat
    requires !rule.JNull?
  {
    var name, conds := Prop(rule, "name").value, Prop(rule, "conditions").value;
    (if !Truthy(name) then 1 else 0) + (if !Truthy(conds) then 1 else 0)
    + (if Truthy(conds) && FieldChecks(conds.value, PatternFieldNames).Ok?
       then InvalidCount(e, FieldChecks(conds.value, PatternFieldNames).value) else 0)
  }

  lemma RuleReportCount(e: JsEngine, i: nat, rule: Json)
    requires RuleReport(e, i, rule).Ok?
    ensures |RuleReport(e, i, rule).value.0| == RuleErrorCount(e, rule)
    ensures MissingName(i) in RuleReport(e, i, rule).value.0 <==> !Truthy(Prop(rule, "name").value)
    ensures MissingConditions(i) in RuleReport(e, i, rule).value.0 <==> !Truthy(Prop(rule, "conditions").value)
  {
    var conds := Prop(rule, "conditions").value;
    if Truthy(conds) {
      var cs := FieldChecks(conds.value, PatternFieldNames).value;
      CheckErrorsCount(e, i, Interpolate(Prop(rule, "name").value), cs);
    }
  }

  /** The total error count over all rules. */
  function ErrorTotal(e: JsEngine, rules: seq<Json>): nat
    requires forall k :: 0 <= k < |rules| ==> !rules[k].JNull?
  {
    if |rules| == 0 then 0 else ErrorTotal(e, rules[..|rules| - 1]) + RuleErrorCount(e, rules[|rules| - 1])
  }

  /** `validate_rules_yaml` counts exactly: one error for a missing
      `version`, one for missing `rules`, and for every rule one per
      missing `name` or `conditions` and one per pattern that does not
      compile. */
  lemma {:induction false} RulesReportsCount(e: JsEngine, rules: seq<Json>)
    requires RulesReports(e, rules).Ok?
    ensures forall k :: 0 <= k < |rules| ==> !rules[k].JNull?
    ensures |RulesReports(e, rules).value.0| == ErrorTotal(e, rules)
  {
    if |rules| > 0 {
      var init := rules[..|rules| - 1];
      RulesReportsCount(e, init);
      assert forall k :: 0 <= k < |init| ==> init[k] == rules[k];
      RuleReportCount(e, |rules| - 1, rules[|rules| - 1]);
    }
  }

  /** The error list of the whole reply has the size the rules promise,
      and the rule count is the list's length. */
  lemma RulesYamlCount(e: JsEngine, parsed: Json)
    requires RulesYaml(e, parsed).Ok?
    requires Truthy(Prop(parsed, "rules").value) && Prop(parsed, "rules").value.value.JList?
    ensures var rules := Prop(parsed, "rules").value.value.items;
      (forall k :: 0 <= k < |rules| ==> !rules[k].JNull?) &&
      |RulesYaml(e, parsed).value.errors| ==
        (if !Truthy(Prop(parsed, "version").value) then 1 else 0) + ErrorTotal(e, rules)
    ensures RulesYaml(e, parsed).value.ruleCount == JInt(|Prop(parsed, "rules").value.value.items|)
  {
    RulesReportsCount(e, Prop(parsed, "rules").value.value.items);
    LengthOrZero(Prop(parsed, "rules").value);
  }

  lemma {:induction false} CheckErrorsAppend(e: JsEngine, i: nat, name: string, cs: seq<Check>, ds: seq<Check>)
    ensures CheckErrors(e, i, name, cs + ds) == CheckErrors(e, i, name, cs) + CheckErrors(e, i, name, ds)
  {
    if |ds| == 0 {
      assert cs + ds == cs;
    } else {
      var n := |ds| - 1;
      CheckErrorsAppend(e, i, name, cs, ds[..n]);
      assert (cs + ds)[..|cs + ds| - 1] == cs + ds[..n] && (cs + ds)[|cs + ds| - 1] == ds[n];
    }
  }

  lemma {:induction false} CheckWarningsAppend(e: JsEngine, i: nat, name: string, cs: seq<Check>, ds: seq<Check>)
    ensures CheckWarnings(e, i, name, cs + ds) == CheckWarnings(e, i, name, cs) + CheckWarnings(e, i, name, ds)
  {
    if |ds| == 0 {
      assert cs + ds == cs;
    } else {
      var n := |ds| - 1;
      CheckWarningsAppend(e, i, name, cs, ds[..n]);
      assert (cs + ds)[..|cs + ds| - 1] == cs + ds[..n] && (cs + ds)[|cs + ds| - 1] == ds[n];
    }
  }

  /** Once reading the fields has thrown, the rest of them are not read. */
  lemma {:induction false} FieldChecksThrown(conds: Json, fields: seq<string>, n: nat)
    requires n <= |fields| && FieldChecks(conds, fields[..n]).Err?
    ensures FieldChecks(conds, fields) == FieldChecks(conds, fields[..n])
    decreases |fields| - n
  {
    if n < |fields| {
      assert fields[..n + 1][..n] == fields[..n];
      FieldChecksThrown(conds, fields, n + 1);
    } else {
      assert fields[..n] == fields;
    }
  }

  /** Once a rule has thrown, the later rules are not looked at. */
  lemma {:induction false} RulesReportsThrown(e: JsEngine, rules: seq<Json>, n: nat)
    requires n <= |rules| && RulesReports(e, rules[..n]).Err?
    ensures RulesReports(e, rules) == RulesReports(e, rules[..n])
    decreases |rules| - n
  {
    if n < |rules| {
      assert rules[..n + 1][..n] == rules[..n];
      RulesReportsThrown(e, rules, n + 1);
    } else {
      assert rules[..n] == rules;
    }
  }

  /** The inner loop of `validate_rules_yaml`: every pattern of one
      condition field. */
  method ValidateFieldPatterns(e: JsEngine, i: nat, name: string, field: string, items: seq<Json>)
    returns (errors: seq<RulesError>, warnings: seq<RulesWarning>)
    ensures errors == CheckErrors(e, i, name, ChecksOf(field, items))
    ensures warnings == CheckWarnings(e, i, name, ChecksOf(field, items))
  {
    errors, warnings := [], [];
    for k := 0 to |items|
      invariant errors == CheckErrors(e, i, name, ChecksOf(field, items[..k]))
      invariant warnings == CheckWarnings(e, i, name, ChecksOf(field, items[..k]))
    {
      assert items[..k + 1][..k] == items[..k];
      var validation := ValidateRegexPattern(e, JsString(items[k]));
      if validation.Invalid? {
        errors := errors + [InvalidPattern(i, name, field, validation.error)];
      } else {
        warnings := warnings + RuleWarnings(i, name, validation.warnings);
      }
    }
    assert items[..|items|] == items;
  }

  /** The loop over the condition fields of one rule. */
  method ValidateConditionFields(e: JsEngine, i: nat, name: string, conds: Json, fields: seq<string>)
    returns (r: Result<(seq<RulesError>, seq<RulesWarning>), Failure>)
    requires !conds.JNull?
    ensures r.Ok? <==> FieldChecks(conds, fields).Ok?
    ensures r.Err? ==> r == Err(FieldChecks(conds, fields).error)
    ensures r.Ok? ==> r.value == (CheckErrors(e, i, name, FieldChecks(conds, fields).value),
                                 CheckWarnings(e, i, name, FieldChecks(conds, fields).value))
  {
    var errors: seq<RulesError> := [];
    var warnings: seq<RulesWarning> := [];
    ghost var cs: seq<Check> := [];
    for f := 0 to |fields|
      invariant FieldChecks(conds, fields[..f]) == Ok(cs)
      invariant errors == CheckErrors(e, i, name, cs)
      invariant warnings == CheckWarnings(e, i, name, cs)
    {
      var field := fields[f];
      assert fields[..f + 1][..f] == fields[..f];
      var v := Prop(conds, field).value;
      if Truthy(v) {
        var elements := Elements(v.value);
        if elements.Err? {
          FieldChecksThrown(conds, fields, f + 1);
          return Err(elements.error);
        }
        var es, ws := ValidateFieldPatterns(e, i, name, field, elements.value);
        CheckErrorsAppend(e, i, name, cs, ChecksOf(field, elements.value));
        CheckWarningsAppend(e, i, name, cs, ChecksOf(field, elements.value));
        errors := errors + es;
        warnings := warnings + ws;
        cs := cs + ChecksOf(field, elements.value);
      }
    }
    assert fields[..|fields|] == fields;
    return Ok((errors, warnings));
  }

  /** The body of the rule loop of `validate_rules_yaml` for rule `i`. */
  method ValidateRule(e: JsEngine, i: nat, rule: Json) returns (r: Result<(seq<RulesError>, seq<RulesWarning>), Failure>)
    ensures r == RuleReport(e, i, rule)
  {
    if rule.JNull? {
      return Err(TypeError);
    }
    var name, conds := Prop(rule, "name").value, Prop(rule, "conditions").value;
    var errors: seq<RulesError> := [];
    if !Truthy(name) {
      errors := errors + [MissingName(i)];
    }
    if !Truthy(conds) {
      errors := errors + [MissingConditions(i)];
      assert errors == (if !Truthy(name) then [MissingName(i)] else []) + [MissingConditions(i)];
      return Ok((errors, []));
    }
    assert errors == (if !Truthy(name) then [MissingName(i)] else []) + [];
    var fields := ValidateConditionFields(e, i, Interpolate(name), conds.value, PatternFieldNames);
    if fields.Err? {
      return Err(fields.error);
    }
    return Ok((errors + fields.value.0, fields.value.1));
  }

  /** The rule loop of `validate_rules_yaml`. */
  method ValidateRuleList(e: JsEngine, items: seq<Json>) returns (r: Result<(seq<RulesError>, seq<RulesWarning>), Failure>)
    ensures r == RulesReports(e, items)
  {
    var errors: seq<RulesError> := [];
    var warnings: seq<RulesWarning> := [];
    for i := 0 to |items|
      invariant RulesReports(e, items[..i]) == Ok((errors, warnings))
    {
      assert items[..i + 1][..i] == items[..i];
      var report := ValidateRule(e, i, items[i]);
      if report.Err? {
        RulesReportsThrown(e, items, i + 1);
        return Err(report.error);
      }
      errors := errors + report.value.0;
      warnings := warnings + report.value.1;
    }
    assert items[..|items|] == items;
    return Ok((errors, warnings));
  }

  /** The `validate_rules_yaml` handler on the parsed document. */
  method ValidateRulesYaml(e: JsEngine, parsed: Json) returns (r: Result<RulesReply, Failure>)
    ensures r == RulesYaml(e, parsed)
  {
    if parsed.JNull? {
      return Err(TypeError);
    }
    var version, rules := Prop(parsed, "version").value, Prop(parsed, "rules").value;
    var errors: seq<RulesError> := [];
    var warnings: seq<RulesWarning> := [];
    if !Truthy(version) {
      errors := errors + [MissingVersion];
    }
    if !Truthy(rules) {
      errors := errors + [MissingRules];
    }
    assert errors == (if !Truthy(version) then [MissingVersion] else []) + (if !Truthy(rules) then [MissingRules] else []);
    var ruleCount := Or(Length(rules), JInt(0));
    if !(Truthy(rules) && rules.value.JList?) {
      return Ok(RulesReply(errors == [], errors, warnings, ruleCount));
    }
    var reports := ValidateRuleList(e, rules.value.items);
    if reports.Err? {
      return Err(reports.error);
    }
    errors := errors + reports.value.0;
    warnings := reports.value.1;
    return Ok(RulesReply(errors == [], errors, warnings, ruleCount));
  }

  datatype SafeError = MissingSafeSenders | NotAnArray | InvalidAt(index: nat, message: string)

  datatype SafeWarning = DuplicateAt(index: nat, pattern: Json) | PatternWarning(index: nat, warning: string)

  function SafeErrorText(err: SafeError): string {
    match err
    case MissingSafeSenders => "Missing \"safe_senders\" field"
    case NotAnArray => "\"safe_senders\" must be an array"
    case InvalidAt(i, msg) => "Invalid pattern at index " + NatToString(i) + ": " + msg
  }

  function SafeWarningText(w: SafeWarning): string {
    match w
    case DuplicateAt(i, p) => "Duplicate pattern at index " + NatToString(i) + ": " + JsString(p)
    case PatternWarning(i, msg) => "Pattern " + NatToString(i) + ": " + msg
  }

  /** Whether the pattern at `i` equals an earlier one as `Set.has` sees
      it: by value for strings, numbers, booleans and null; a list or a
      mapping is a new object and never already in the set. */
  predicate SeenBefore(items: seq<Json>, i: nat)
    requires i < |items|
  {
    Primitive(items[i]) && items[i] in items[..i]
  }

  function PatternWarnings(i: nat, ws: seq<string>): (r: seq<SafeWarning>)
    ensures |r| == |ws|
    ensures forall k :: 0 <= k < |ws| ==> r[k] == PatternWarning(i, ws[k])
  {
    if |ws| == 0 then [] else PatternWarnings(i, ws[..|ws| - 1]) + [PatternWarning(i, ws[|ws| - 1])]
  }

  /** What the pattern at index `i` adds: a duplicate warning, then the
      validation's error or warnings. */
  function SafeStep(i: nat, x: Json, duplicate: bool, v: Validation, acc: (seq<SafeError>, seq<SafeWarning>)): (seq<SafeError>, seq<SafeWarning>) {
    var warnings := if duplicate then acc.1 + [DuplicateAt(i, x)] else acc.1;
    if v.Invalid? then (acc.0 + [InvalidAt(i, v.error)], warnings)
    else (acc.0, warnings + PatternWarnings(i, v.warnings))
  }

  /** The errors and warnings of the safe-sender list, pattern by pattern. */
  function SafeChecks(e: JsEngine, items: seq<Json>): (seq<SafeError>, seq<SafeWarning>) {
    if |items| == 0 then ([], [])
    else
      var i := |items| - 1;
      var acc := SafeChecks(e, items[..i]);
      SafeStep(i, items[i], SeenBefore(items, i), Validate(e, JsString(items[i])), acc)
  }

  /** A duplicate warning is emitted at index `i` exactly when the same
      pattern appeared at an earlier index. */
  lemma {:induction false} SafeDuplicates(e: JsEngine, items: seq<Json>)
    ensures forall i: nat, p :: DuplicateAt(i, p) in SafeChecks(e, items).1 <==>
      i < |items| && p == items[i] && SeenBefore(items, i)
  {
    if |items| > 0 {
      var n := |items| - 1;
      var init := items[..n];
      SafeDuplicates(e, init);
      forall i | 0 <= i < n ensures SeenBefore(init, i) == SeenBefore(items, i) {
        assert init[..i] == items[..i];
      }
    }
  }

  /** An error is emitted exactly at each pattern that does not compile,
      with the engine's message, and no other error. */
  lemma {:induction false} SafeInvalid(e: JsEngine, items: seq<Json>)
    ensures forall i: nat, m :: InvalidAt(i, m) in SafeChecks(e, items).0 <==>
      i < |items| && !e.compiles(JsString(items[i])) && m == e.message(JsString(items[i]))
    ensures forall err :: err in SafeChecks(e, items).0 ==> err.InvalidAt?
  {
    if |items| > 0 {
      SafeInvalid(e, items[..|items| - 1]);
    }
  }

  /** The reply of `validate_safe_senders`. */
  datatype SafeReply = SafeReply(valid: bool, errors: seq<SafeError>, warnings: seq<SafeWarning>, patternCount: Json)

  function SafeSendersReply(e: JsEngine, parsed: Json): (r: Result<SafeReply, Failure>)
    ensures r.Err? <==> parsed.JNull?
    ensures r.Ok? ==> (r.value.valid <==> r.value.errors == [])
    ensures r.Ok? && !Truthy(Prop(parsed, "safe_senders").value) ==> r.value.errors == [MissingSafeSenders]
    ensures r.Ok? && Truthy(Prop(parsed, "safe_senders").value) && !Prop(parsed, "safe_senders").value.value.JList? ==>
      r.value.errors == [NotAnArray] && r.value.warnings == []
  {
    if parsed.JNull? then Err(TypeError)
    else
      var ss := Prop(parsed, "safe_senders").value;
      var count := Or(Length(ss), JInt(0));
      if !Truthy(ss) then Ok(SafeReply(false, [MissingSafeSenders], [], count))
      else if !ss.value.JList? then Ok(SafeReply(false, [NotAnArray], [], count))
      else
        var r := SafeChecks(e, ss.value.items);
        Ok(SafeReply(r.0 == [], r.0, r.1, count))
  }

  /** A list of safe senders is valid exactly when every pattern compiles. */
  lemma SafeSendersValid(e: JsEngine, parsed: Json)
    requires !parsed.JNull? && Truthy(Prop(parsed, "safe_senders").value)
    requires Prop(parsed, "safe_senders").value.value.JList?
    ensures var items := Prop(parsed, "safe_senders").value.value.items;
      SafeSendersReply(e, parsed).value.valid <==> forall i :: 0 <= i < |items| ==> e.compiles(JsString(items[i]))
  {
    var items := Prop(parsed, "safe_senders").value.value.items;
    SafeInvalid(e, items);
    var errs := SafeChecks(e, items).0;
    if errs != [] {
      assert errs[0] in errs;
    } else {
      forall i | 0 <= i < |items| ensures e.compiles(JsString(items[i])) {
        assert InvalidAt(i, e.message(JsString(items[i]))) !in errs;
      }
    }
  }

  lemma SafeChecksStep(e: JsEngine, items: seq<Json>, i: nat)
    requires i < |items|
    ensures SafeChecks(e, items[..i + 1]) ==
      SafeStep(i, items[i], SeenBefore(items, i), Validate(e, JsString(items[i])), SafeChecks(e, items[..i]))
  {
    assert items[..i + 1][..i] == items[..i];
  }

  /** The `Set` of primitive patterns before index `i` finds pattern `i`
      exactly when it is a duplicate, and adding it gives the set before
      `i + 1`. */
  lemma SeenStep(seen: set<Json>, items: seq<Json>, i: nat)
    requires i < |items|
    requires forall y :: y in seen <==> Primitive(y) && y in items[..i]
    ensures (items[i] in seen) == SeenBefore(items, i)
    ensures forall y :: y in (if Primitive(items[i]) then seen + {items[i]} else seen) <==>
      Primitive(y) && y in items[..i + 1]
  {
    assert items[..i + 1] == items[..i] + [items[i]];
  }

  /** The loop of `validate_safe_senders` over the list; `seen` is the
      `Set` of patterns met so far, in which only strings, numbers,
      booleans and `null` can ever be found again. */
  method CheckSafeSenders(e: JsEngine, items: seq<Json>) returns (errors: seq<SafeError>, warnings: seq<SafeWarning>)
    ensures errors == SafeChecks(e, items).0 && warnings == SafeChecks(e, items).1
  {
    errors, warnings := [], [];
    var seen: set<Json> := {};
    for i := 0 to |items|
      invariant forall y :: y in seen <==> Primitive(y) && y in items[..i]
      invariant errors == SafeChecks(e, items[..i]).0 && warnings == SafeChecks(e, items[..i]).1
    {
      var x := items[i];
      SafeChecksStep(e, items, i);
      SeenStep(seen, items, i);
      ghost var acc := (errors, warnings);
      var duplicate := x in seen;
      if duplicate {
        warnings := warnings + [DuplicateAt(i, x)];
      }
      if Primitive(x) {
        seen := seen + {x};
      }
      var validation := ValidateRegexPattern(e, JsString(x));
      if validation.Invalid? {
        errors := errors + [InvalidAt(i, validation.error)];
      } else {
        warnings := warnings + PatternWarnings(i, validation.warnings);
      }
      assert (errors, warnings) == SafeStep(i, x, duplicate, validation, acc);
    }
    assert items[..|items|] == items;
  }

  /** The `validate_safe_senders` handler on the parsed document. */
  method ValidateSafeSenders(e: JsEngine, parsed: Json) returns (r: Result<SafeReply, Failure>)
    ensures r == SafeSendersReply(e, parsed)
  {
    if parsed.JNull? {
      return Err(TypeError);
    }
    var ss := Prop(parsed, "safe_senders").value;
    var errors: seq<SafeError> := [];
    var warnings: seq<SafeWarning> := [];
    var patternCount := Or(Length(ss), JInt(0));
    if !Truthy(ss) {
      errors := errors + [MissingSafeSenders];
      assert errors == [MissingSafeSenders];
    } else if !ss.value.JList? {
      errors := errors + [NotAnArray];
      assert errors == [NotAnArray];
    } else {
      errors, warnings := CheckSafeSenders(e, ss.value.items);
    }
    return Ok(SafeReply(errors == [], errors, warnings, patternCount));
  }
}

=== FILE: wrappers.dfy ===
/** Option and Result, for values that may be absent and operations that may fail. */
module Wrappers {

  datatype Option<+T> = None | Some(value: T)

  datatype Result<+T, +E> = Ok(value: T) | Err(error: E)
}
